=== FILE: README.md ===
# Barbershop back end — a Dafny model

This project models the server-side core of a barbershop storefront built on a
relational store. Shops are called teams. Each user has one of four roles:
super admin, owner, barber or regular user. The model covers:

- the store's tables and constraints, as an immutable `Db` value with one
  sequence of rows per table (`schema.dfy`);
- a small statement language with foreign-key enforcement, used to replay the
  super admin's cascading user deletion in its source order (`store.dfy`,
  `super_admin.dfy`);
- the read queries, and the session check that decides who is signed in
  (`queries.dfy`);
- the portfolio post actions and the two image-upload pipelines (`posts.dfy`,
  `upload_route.dfy`);
- the storage path helpers (`storage.dfy`);
- service management (`services.dfy`);
- barber profiles and their weekly availability (`barber.dfy`,
  `availability.dfy`);
- the invitation flow (`invitations.dfy`) and the genesis seed (`genesis.dfy`);
- the post card's display logic (`post_card.dfy`).

Generic helpers are kept in their own files. `seqs.dfy` provides filter, map,
limit and serial ids. `sorting.dfy` provides a stable sort by a total preorder.
`strings.dfy` provides JavaScript's `split`/`join`, ASCII case mapping and
decimal rendering. `results.dfy` provides `Option` and `Result`.

Every operation is a pure function. It takes the store and the caller as inputs
and returns a `Result`: either the new store (with the operation's reply) or
the error message the source throws or returns.

Several things the source obtains from outside are inputs here instead:

- the clock;
- the session token verifier;
- the password hashes;
- the random UUID;
- the parsed URL protocol;
- the storage service's outcome.

Timestamps are opaque integers.

## Model

| member | source | states |
|---|---|---|
| Schema.ParseRole | lib/db/schema.ts:361-366 | a stored role string names exactly one of the four roles, and the role's name reads back as that role |
| Schema.InsertUser | lib/db/schema.ts:16-21 | inserting a user fails exactly when the e-mail is taken; otherwise the new row has a fresh id, the role defaults to 'user', and unique e-mails and foreign keys are kept |
| Schema.InsertBooking | lib/db/schema.ts:113-128 | a booking is refused exactly when its team, customer, barber or service is missing; its status defaults to pending; foreign keys are kept |
| Schema.InsertProfile | lib/db/schema.ts:62-67 | a profile is refused for a missing user or a user who already has one; one profile per user and foreign keys are kept |
| Availability.DefaultWeeklyAvailability | lib/types/barber-profile/availability.ts:19-27 | Monday to Friday are open 09:00-17:00; Saturday and Sunday are closed with a 10:00-14:00 window |
| Availability.DefaultIsWellFormed | lib/types/barber-profile/availability.ts:1-16 | there are seven distinct days; every default day is in HH:mm form and starts before it ends |
| Availability.MinuteOfDay | lib/types/barber-profile/availability.ts:12-13 | an HH:mm time names a minute within the day |
| SuperAdmin.RequireSuperAdmin | lib/actions/super-admin.ts:11-15 | only a signed-in super admin passes; everyone else gets Unauthorized |
| SuperAdmin.DeleteAnyUser | lib/actions/super-admin.ts:10-85 | the corrected half of the first finding below: it deletes an emptied team's bookings before its services, whereas `deleteAnyUser` deletes the services first (that order is modelled by SuperAdmin.DeleteAnyUserAsWritten). The guards come first and change nothing; a failure leaves the store unchanged; on success no row refers to the user, foreign keys hold, every emptied team is fully removed, and teams that still have members keep their rows; when a super admin deletes someone else, it succeeds exactly when the transaction does, and any failure is the generic deletion error |
| SuperAdmin.TeamIdsOf | lib/actions/super-admin.ts:26-31 | the team ids read before the deletes are exactly the teams the user belonged to |
| SuperAdmin.CascadeEffect | lib/actions/super-admin.ts:33-76 | the cascade removes every reference to the user; each of the user's teams left without members is gone; surviving rows are exactly the untouched ones |
| SuperAdmin.TransactionComputesCascade | lib/actions/super-admin.ts:22-85 | whenever the statement sequence commits, its result is the cascade and it satisfies the foreign keys |
| SuperAdmin.DeleteOnWellFormedStoreSucceeds | lib/actions/super-admin.ts:22-85 | on a store whose foreign keys hold and whose bookings use their own shop's services, a super admin deleting someone else always succeeds (with the corrected statement order) |
| SuperAdmin.DeleteAnyUserAsWritten | lib/actions/super-admin.ts:22-85 | the source's statement order: the same guards and all-or-nothing behaviour; on success the deletion message and the cascaded store; for a super admin deleting someone else, success exactly when the services-first transaction commits, and otherwise the generic deletion error |
| SuperAdmin.AsWrittenOrderFails | lib/actions/super-admin.ts:61-66 | deleting a team's services before its bookings aborts whenever a booking of an emptied team belongs to other users |
| SuperAdmin.AsWrittenAndCorrectedDiffer | lib/actions/super-admin.ts:61-84 | on such a store the source's order answers "Failed to delete user" and leaves the store unchanged, while the corrected order succeeds |
| SuperAdmin.RepeatedReclaimIsNoOp | lib/actions/super-admin.ts:55-73 | reclaiming the same team twice (duplicate memberships) changes nothing the second time |
| SuperAdmin.DeleteAbsentUserChangesNothing | lib/actions/super-admin.ts:22-85 | deleting an id with no user row succeeds and changes nothing |
| SuperAdmin.GetAllUsers | lib/actions/super-admin.ts:105-126 | only a super admin may list; the listing holds exactly the live users' summaries, one per live user, ordered by creation time |
| SuperAdmin.GetAllTeams | lib/actions/super-admin.ts:128-147 | only a super admin may list; one summary per team, ordered by creation time |
| SuperAdmin.GetAdminStatsAsWritten | lib/actions/super-admin.ts:87-103 | as written, the "counts" are the first live user's id and the first team's id |
| SuperAdmin.AdminStatsCountsIds | lib/actions/super-admin.ts:93-102 | on a store holding one super admin with id 7, the as-written statistics report 7 users, while the corrected count reports 1 |
| SuperAdmin.GetAdminStats | lib/actions/super-admin.ts:87-103 | corrected statistics: the number of live users and the number of teams |
| SuperAdmin.StatsMatchListings | lib/actions/super-admin.ts:87-147 | the corrected counts equal the lengths of the user and team listings |
| Queries.GetUser | lib/db/queries.ts:7-37 | nobody is signed in with a missing or empty cookie, an invalid token, a non-numeric id or an expired session; otherwise the caller is signed in exactly when a live user has that id, and the user returned is the live user whose id the session names |
| Queries.ExpiredSessionSignsNobodyIn | lib/db/queries.ts:22-24 | a session that expired strictly before now signs nobody in |
| Queries.SoftDeletedUserIsSignedOut | lib/db/queries.ts:26-34 | after a user is soft-deleted, no session resolves to that user |
| Queries.GetUserWithTeam | lib/db/queries.ts:67-79 | the user is found exactly when it exists; the team id is absent exactly when the user has no membership, and is otherwise one of the user's teams |
| Queries.GetActivityLogs | lib/db/queries.ts:81-100 | refuses an anonymous caller; returns min(10, n) entries where n is the number of the caller's logs, each the view of one of them, with no entry repeated more often than its log occurs, newest first, and any log left out is no newer than every log shown on a full page |
| Queries.GetPublicFeed | lib/db/queries.ts:120-140 | one entry per post (the entries are a permutation of the posts' views), newest first |
| Queries.GetTeamPosts | lib/db/queries.ts:190-211 | exactly the team's posts, each once (a permutation of their views), newest first |
| Queries.TeamPostsAreInFeed | lib/db/queries.ts:120-211 | every post on a team's page is also in the public feed |
| Queries.GetTeamForUser | lib/db/queries.ts:142-170 | absent for an anonymous caller or one without membership; otherwise one of the caller's teams with every one of its members, each carrying the id, name and e-mail of its user when that user exists; on a consistent store a member always gets a team |
| Queries.GetTeamByStripeCustomerId | lib/db/queries.ts:39-47 | finds a team exactly when one carries that customer id |
| Queries.UpdateTeamSubscription | lib/db/queries.ts:49-65 | only the named team changes, and only its four subscription fields and updatedAt |
| Queries.UpdateSubscriptionIdempotent | lib/db/queries.ts:49-65 | applying the same subscription update twice is the same as once |
| Queries.UpdateSubscriptionKeepsIntegrity | lib/db/queries.ts:49-65 | the update keeps every foreign key |
| Queries.PendingInvitations | app/api/invitations/route.ts:6-29 | 401 without a user; 400 without a team; otherwise a permutation of the team's pending invitations, ordered by invitation time; a caller whose membership names a team always gets the list |
| Posts.RequireStaff | lib/actions/posts.ts:47-60 | the guards, in order: no user, then a role other than owner or barber, then no team |
| Posts.ValidatePost | lib/actions/posts.ts:15-31 | a portfolio post needs a non-empty image URL and an announcement a non-empty title; the error is that field's message, or "Invalid input" for a missing field or an unknown type |
| Posts.CreatePost | lib/actions/posts.ts:45-90 | the guards precede validation and give the staff-only message; invalid input gives the validator's own error; the stored post is in the caller's team, has no barber for owners and the caller's id for barbers, and stores empty texts as null |
| Posts.CreatedPostIsListed | lib/actions/posts.ts:76-83 | a created post appears on its team's page and in the public feed |
| Posts.CreatePostKeepsIntegrity | lib/actions/posts.ts:76-83 | creating a post keeps every foreign key |
| Posts.Normalize | lib/actions/posts.ts:129-147 | the name defaults to file.jpg and the type to application/octet-stream; a byte payload's size is its byte length; any other payload shape is rejected |
| Posts.CheckImage | lib/actions/posts.ts:157-166 | accepted exactly when the lower-cased type is allowed and the size is at most 10 MiB; the type is checked first |
| Posts.ImageTypeIgnoresCase | lib/actions/posts.ts:157-160 | upper-casing the MIME type does not change the verdict |
| Posts.SizeBoundIsInclusive | lib/actions/posts.ts:163-166 | exactly 10 MiB is accepted and one byte more is refused |
| Posts.UploadImage | lib/actions/posts.ts:97-182 | staff guards, then a missing file, then type and size, then storage; success only when storage is configured and succeeds |
| Posts.DeletePost | lib/actions/posts.ts:184-231 | only a post of the caller's team is found; once the post is found, the delete succeeds exactly when the caller is not a barber or is the post's barber; the row is removed whatever happens to its image |
| Posts.BarberDeletesOwnPost | lib/actions/posts.ts:196-224 | a barber deletes a post of their own team that names them as its barber |
| Posts.DeletedPostLeavesOthers | lib/actions/posts.ts:224 | the deletion removes exactly that post and keeps every foreign key |
| Posts.NonBarbersDeleteAnyTeamPost | lib/actions/posts.ts:209-211 | an owner may delete any post of the team |
| UploadRoute.Upload | app/api/uploads/route.ts:5-71 | 401, then 403, then 404 for the guards; 400 for a non-multipart body, a missing file or an empty text field; 500 "Upload failed" for an unparsable body or a non-empty text field; 400 for a bad type (checked first) or an oversized file; for a valid file, 200 exactly when storage is configured and succeeds, with the URL of the file's own extension, and otherwise 500 with "Storage Connection Error: " and the storage helper's message |
| UploadRoute.FormSize | app/api/uploads/route.ts:37 | the size is the buffer's byte length, or the declared size when the buffer is empty |
| UploadRoute.SameRulesAsUploadImage | app/api/uploads/route.ts:40-49 | the route's allowlist and bound equal the action's, and the route accepts exactly what the action's check accepts |
| UploadRoute.PipelinesAgree | app/api/uploads/route.ts:40-49 | for the same file, the action rejects the type or size exactly when the route does |
| UploadRoute.ValidUploadSucceeds | app/api/uploads/route.ts:59-66 | a staff upload of an allowed, small enough image with working storage gets 200 |
| Storage.FileExtension | lib/supabase.ts:38 | the extension is the text after the last dot, or jpg when that text is empty; it never contains a dot |
| Storage.ExtensionAfterLastDot | lib/supabase.ts:38 | a name ending in ".ext" yields ext |
| Storage.UploadPortfolioImage | lib/supabase.ts:32-65 | unconfigured credentials and storage errors are reported; success returns the public URL of team_<id>/<uuid>.<ext>, where ext is the file name's extension |
| Storage.DeleteKeeping | lib/supabase.ts:72-99 | unconfigured credentials are reported; otherwise it never fails, reporting removal exactly when the pathname parsed and storage succeeded |
| Storage.PathnameSegments | lib/supabase.ts:59-64 | the public pathname of an upload splits into the public prefix, the bucket, the team folder and the file |
| Storage.AsWrittenDeleteMissesUpload | lib/supabase.ts:78-83 | keeping the last three segments gives "portfolio/" followed by the upload path, which is not the upload path |
| Storage.DeleteFindsUpload | lib/supabase.ts:78-83 | keeping the last two segments recovers the upload path exactly |
| Storage.UploadThenDeleteRoundTrip | lib/supabase.ts:32-99 | deleting the URL an upload returned removes the uploaded object |
| PostCard.IsValidUrl | components/storefront/PostCard.tsx:15-23 | false for a missing or empty URL; true exactly for the http: and https: protocols |
| PostCard.DisplayName | components/storefront/PostCard.tsx:26 | the barber's name, or "Unknown Barber" when there is no barber or the name is empty |
| PostCard.Initials | components/storefront/PostCard.tsx:27-32 | the upper-cased first characters of the first two non-empty space-separated words, in order (fewer when there are fewer words) |
| PostCard.FirstCharsSkipsEmpty | components/storefront/PostCard.tsx:27-30 | empty words (from repeated spaces) contribute no character, so the initials read only the non-empty words |
| PostCard.TwoWordInitials | components/storefront/PostCard.tsx:27-32 | a first and last name give their two upper-cased initials |
| PostCard.SpacesAddNoInitials | components/storefront/PostCard.tsx:27-32 | a doubled space adds no initial |
| PostCard.RenderCard | components/storefront/PostCard.tsx:56-113 | announcements show their title or "Announcement" and no media; portfolio posts show the barber's name and an image exactly when the URL is valid (a placeholder otherwise); a caption appears exactly when non-empty, headed "Shop Update" or the barber's name |
| Services.ValidateService | lib/actions/services.ts:21-26 | accepted exactly when the name has 1 to 255 characters, the duration is an integer of at least 1 and the price an integer of at least 0 |
| Services.GetServices | lib/actions/services.ts:39-57 | refuses an anonymous caller; [] without a team; otherwise a permutation of the team's services, ordered by name |
| Services.CreateService | lib/actions/services.ts:62-89 | validation, then the team check, then the owner check; the new service is active, in the caller's team, has a fresh id, and stores the form's name, duration and price; an empty description becomes null and any other description is stored as given |
| Services.CreateServiceKeepsIntegrity | lib/actions/services.ts:75-82 | creating a service keeps every foreign key |
| Services.DeleteService | lib/actions/services.ts:94-131 | the team check comes before the owner check; a service outside the caller's team is "Service not found"; a service that bookings still name is refused; otherwise exactly that service goes |
| Services.DeleteServiceKeepsIntegrity | lib/actions/services.ts:108-125 | the deletion removes exactly that id and keeps every foreign key |
| Services.ToggleServiceActive | lib/actions/services.ts:136-173 | the guards come in order; only that service's isActive and updatedAt change |
| Services.ToggleIdempotent | lib/actions/services.ts:152-170 | toggling to the same value twice is the same as once |
| Barber.GetBarberProfile | lib/actions/barber/index.ts:14-42 | no session is refused; an existing profile is returned and the store is unchanged; otherwise exactly one default profile is inserted |
| Barber.GetBarberProfileIdempotent | lib/actions/barber/index.ts:24-41 | a second call returns the same profile and changes nothing |
| Barber.UpdateProfile | lib/actions/barber/index.ts:63-71 | only the user's profile changes: the patched fields take the new values and every other field is kept |
| Barber.UpdateBarberProfile | lib/actions/barber/index.ts:54-76 | no session is refused; otherwise only the details change, and nothing is created when no profile exists |
| Barber.UpdateAvailability | lib/actions/barber/index.ts:82-105 | fails exactly when ensuring the profile fails; otherwise the result is that profile with only its availability replaced |
| Barber.SaveBarberProfileAndSchedule | lib/actions/barber/index.ts:111-141 | fails exactly when ensuring the profile fails; otherwise the ensured profile ends up with the given bio, specialties, handle and availability |
| Barber.SaveIsAvailabilityThenDetails | lib/actions/barber/index.ts:111-141 | saving everything is the availability update followed by the details update |
| Invitations.CreateInvitation | scripts/test-invitation-flow.ts:46-52 | an invitation needs an existing team and inviter; it is stored pending with a fresh id and keeps the foreign keys |
| Invitations.ValidInvitation | scripts/test-invitation-flow.ts:60-74 | an invitation validates exactly when its id and e-mail match and it is pending |
| Invitations.AcceptInvitation | scripts/test-invitation-flow.ts:78-104 | the user gets the invitation's role; the membership is in the invitation's team with the same role; the invitation becomes accepted; nothing else changes |
| Invitations.AcceptedInvitationIsSpent | scripts/test-invitation-flow.ts:67 | after an acceptance the same invitation no longer validates |
| Invitations.AcceptKeepsIntegrity | scripts/test-invitation-flow.ts:83-104 | an acceptance keeps every foreign key |
| Invitations.SignUpWithoutInviteIsRegular | tests/e2e/invitation-flow.spec.ts:186-205 | a sign-up without an invitation is stored with role 'user' |
| Invitations.Cleanup | scripts/test-invitation-flow.ts:142-147 | removes exactly the invitations to that e-mail; when a user has that e-mail, exactly the rows of the first such user's id and that id's memberships are removed, and otherwise users and memberships are unchanged; with unique e-mails, no user with it and none of that user's memberships remain |
| Invitations.FlowThenCleanupRestores | scripts/test-invitation-flow.ts:46-147 | invite, accept and clean up together give back the original store when the e-mail was unused |
| Genesis.PriceList | lib/db/seed-genesis.ts:25-37 | eleven entries, each with a positive price, at least 15 minutes, and accepted by the service form's constraints |
| Genesis.Describe | lib/db/seed-genesis.ts:127 | the description is the name, " - ", the duration written in decimal without leading zeros (reading the digits back gives the duration), and " minutes" |
| Strings.NatToStringValue | lib/db/seed-genesis.ts:127 | reading the decimal rendering of a number back gives the number |
| Genesis.UpsertUser | lib/db/seed-genesis.ts:45-77 | an existing user keeps its id and every field but the password hash; otherwise a live user is created with the given role |
| Genesis.UpsertSettled | lib/db/seed-genesis.ts:45-77 | upserting a settled user again changes nothing |
| Genesis.UpsertKeepsOtherSettled | lib/db/seed-genesis.ts:140-162 | upserting the super admin does not disturb the settled owner |
| Genesis.EnsureShop | lib/db/seed-genesis.ts:79-112 | an existing owner shop is renamed and nothing else changes; otherwise a new shop named "The Barbers Element" and an owner membership are created |
| Genesis.EnsureShopSettled | lib/db/seed-genesis.ts:79-112 | ensuring a settled shop again changes nothing |
| Genesis.ReplaceServices | lib/db/seed-genesis.ts:114-131 | other shops' services are untouched and the shop's services are exactly the price list; the delete is refused when bookings still name those services |
| Genesis.SeededRows | lib/db/seed-genesis.ts:122-131 | each seeded service is active, in the shop, and carries its entry's name, price, duration and description |
| Genesis.SeedGenesis | lib/db/seed-genesis.ts:39-175 | after a run the owner and super admin are settled with their hashes, the owner has a shop, its services are the price list, and the other tables are untouched |
| Genesis.SeedConverges | lib/db/seed-genesis.ts:39-175 | a second run finds the same owner, shop and admin, changes no user, shop or membership, and reproduces the same services up to ids and timestamps |
| Genesis.FreshSeedSucceeds | lib/db/seed-genesis.ts:63-131 | on a store whose foreign keys hold and that has no owner account, the seed succeeds: the new owner gets a new shop, so deleting that shop's services orphans no booking |

## Left out

- Database I/O, transactions and concurrency. A transaction is a function that returns either the new store or the unchanged old store; isolation is not modelled.
- Cookies, the token verifier, the session lookup and password hashing. The verifier is a function parameter, and sessions and hashes are inputs.
- The authentication middleware that wraps the form actions is not part of this model. The caller is assumed to be checked first, then the form is validated, then the action runs.
- The storage client (upload, public URL, remove), the random UUID and URL parsing. Their outcomes are parameters: a storage error, the UUID, the URL's protocol, and the parsed pathname or a parse failure. The public URL is built as `<url>/storage/v1/object/public/portfolio/<path>`, the shape the delete comment describes.
- Case mapping is ASCII-only, and string lengths count UTF-16 code units as characters.
- Date formatting, JSX rendering, the image `onError` fallback, path revalidation, redirects and console logging.
- The activity log's ipAddress column, and Stripe fields beyond the subscription update.
- Browser end-to-end tests. The only outcome modelled from them is that a sign-up without an invitation gets the 'user' role.
- Configuration files, and the specialties list that nothing enforces.
- The role and status columns are free-text `varchar` columns, and accepting an invitation copies its role string unchecked. The model uses closed enumerations (four roles, four booking statuses, two invitation statuses), so it does not represent rows holding any other string. Such a row would fail every owner, barber and super-admin check in the application, just as the Regular role does here.
- A `file` form field sent as a file object whose `arrayBuffer` itself fails is not modelled. The field's outcomes that are modelled are a missing field, a text value and a file part.
- Posts.CreatePost: always stores the post type it is given, so the column's 'portfolio' default is not modelled.
- Invitations.Cleanup: does not model foreign-key refusals when deleting the user. The script's own cleanup never meets one, because the flow only creates rows that the cleanup removes.
- Invitations.AcceptInvitation: the script looks up the owner and the owner's team by a fixed e-mail (scripts/test-invitation-flow.ts:22-41). Here the team and inviter are parameters of CreateInvitation instead.
- Genesis.SeedConverges: assumes that user ids are unique (the primary key) and that foreign keys hold before the first run. Convergence is up to service ids and timestamps, because a serial id is never reused.
- SuperAdmin.DeleteOnWellFormedStoreSucceeds: assumes that every booking's service belongs to the booking's own shop, besides the foreign keys. The schema does not declare this and no code checks it. Without it, a surviving shop's booking may name a service of an emptied shop, and then the corrected order fails as well.
- Services.GetServices: the name order is code-point order, as the C collation gives. `ORDER BY services.name` uses the database's collation, which the application does not fix, and a linguistic collation such as en_US would order names differently (for example "beard trim" before "Crew Cut").
- Session tokens whose user id is a JavaScript number with a fraction (such as 1.5) are not modelled. Such an id passes the `typeof` check and makes the user query fail. Tokens the application signs always carry an integer id.
- Genesis.SeedGenesis: a failure in the middle of the script leaves earlier writes in place, because the script uses no transaction. The model returns the error without the partial store.
- Services.CreateService: price and duration are unbounded integers; the int4 columns (lib/db/schema.ts:86-87) refuse values above 2147483647 with a database error, which is not modelled.

## Findings

| source | as written | input that shows it | evidently intended | confidence | as-written member | corrected member |
|---|---|---|---|---|---|---|
| lib/actions/super-admin.ts:61-66 | an emptied team's services are deleted before its bookings | the deleted user is the only member of a team that has a booking between two other users | delete the team's bookings before its services, so the foreign key from bookings to services is not violated and the user deletion succeeds whenever bookings use their own shop's services | high; not executed | SuperAdmin.AsWrittenOrderFails | SuperAdmin.DeleteOnWellFormedStoreSucceeds |
| lib/actions/super-admin.ts:93-102 | the statistics select the `id` column under the name `count` and report the first row's value | a store with one super admin whose id is 7 reports 7 users | report the number of live users and the number of teams | high; not executed | SuperAdmin.AdminStatsCountsIds | SuperAdmin.GetAdminStats |
| lib/supabase.ts:78-83 | the delete keeps the last three pathname segments, which include the bucket name | any uploaded image: the path is team_1/u.png but the delete asks for portfolio/team_1/u.png | keep the last two segments, which are the upload path | high; not executed | Storage.AsWrittenDeleteMissesUpload | Storage.DeleteFindsUpload |

=== FILE: availability.dfy ===
/** A barber's weekly opening hours (lib/types/barber-profile/availability.ts):
    one entry per day of the week, each open or closed with an `HH:mm` window,
    and the default schedule given to a new profile. */
module Availability {
  import opened Strings

  datatype DayOfWeek = Monday | Tuesday | Wednesday | Thursday | Friday | Saturday | Sunday

  /** The seven days, in the order `availability.ts` lists them. */
  const AllDays: seq<DayOfWeek> := [Monday, Tuesday, Wednesday, Thursday, Friday, Saturday, Sunday]

  predicate IsWeekday(d: DayOfWeek) {
    !(d.Saturday? || d.Sunday?)
  }

  datatype DayAvailability = DayAvailability(isOpen: bool, start: string, end: string)

  /** `Record<DayOfWeek, DayAvailability>`: a record with one field per day,
      so no day can be missing. */
  datatype WeeklyAvailability = Weekly(
    monday: DayAvailability,
    tuesday: DayAvailability,
    wednesday: DayAvailability,
    thursday: DayAvailability,
    friday: DayAvailability,
    saturday: DayAvailability,
    sunday: DayAvailability)
  {
    function At(d: DayOfWeek): DayAvailability {
      match d
      case Monday => monday
      case Tuesday => tuesday
      case Wednesday => wednesday
      case Thursday => thursday
      case Friday => friday
      case Saturday => saturday
      case Sunday => sunday
    }
  }

  /** `HH:mm` on a 24-hour clock. */
  predicate IsClockTime(s: string) {
    && |s| == 5
    && IsDigit(s[0]) && IsDigit(s[1]) && s[2] == ':' && IsDigit(s[3]) && IsDigit(s[4])
    && DigitValue(s[0]) * 10 + DigitValue(s[1]) < 24
    && DigitValue(s[3]) * 10 + DigitValue(s[4]) < 60
  }

  function MinuteOfDay(s: string): (m: nat)
    requires IsClockTime(s)
    ensures m < 24 * 60
  {
    (DigitValue(s[0]) * 10 + DigitValue(s[1])) * 60 + DigitValue(s[3]) * 10 + DigitValue(s[4])
  }

  /** Both ends are clock times and the window is non-empty. */
  predicate WellFormedDay(a: DayAvailability) {
    IsClockTime(a.start) && IsClockTime(a.end) && MinuteOfDay(a.start) < MinuteOfDay(a.end)
  }

  const WorkingDay: DayAvailability := DayAvailability(true, "09:00", "17:00")
  const WeekendDay: DayAvailability := DayAvailability(false, "10:00", "14:00")

  /** `defaultWeeklyAvailability`. */
  function DefaultWeeklyAvailability(): (w: WeeklyAvailability)
    ensures forall d :: IsWeekday(d) ==> w.At(d).isOpen && w.At(d).start == "09:00" && w.At(d).end == "17:00"
    ensures forall d :: !IsWeekday(d) ==> !w.At(d).isOpen && w.At(d).start == "10:00" && w.At(d).end == "14:00"
  {
    Weekly(WorkingDay, WorkingDay, WorkingDay, WorkingDay, WorkingDay, WeekendDay, WeekendDay)
  }

  /** Every day has exactly one entry in the week, and the default week's
      windows are well-formed `HH:mm` ranges with start before end. */
  lemma DefaultIsWellFormed()
    ensures |AllDays| == 7
    ensures forall d: DayOfWeek :: d in AllDays
    ensures forall i, j :: 0 <= i < j < |AllDays| ==> AllDays[i] != AllDays[j]
    ensures forall d :: WellFormedDay(DefaultWeeklyAvailability().At(d))
  {
    forall d: DayOfWeek
      ensures d in AllDays
    {
      match d
      case Monday => assert AllDays[0] == d;
      case Tuesday => assert AllDays[1] == d;
      case Wednesday => assert AllDays[2] == d;
      case Thursday => assert AllDays[3] == d;
      case Friday => assert AllDays[4] == d;
      case Saturday => assert AllDays[5] == d;
      case Sunday => assert AllDays[6] == d;
    }
    assert WellFormedDay(WorkingDay) by {
      assert MinuteOfDay("09:00") == 540;
      assert MinuteOfDay("17:00") == 1020;
    }
    assert WellFormedDay(WeekendDay) by {
      assert MinuteOfDay("10:00") == 600;
      assert MinuteOfDay("14:00") == 840;
    }
  }
}

=== FILE: barber.dfy ===
/** Barber profile actions (lib/actions/barber/index.ts): get-or-create, and
    three partial updates of the caller's profile. The session's user id is
    an input. */
module Barber {
  import opened Results
  import opened Seqs
  import opened Availability
  import opened Schema
  import opened Queries

  const NoSession: string := "Unauthorized: No active session"

  /** `session?.user?.id` when it is truthy. */
  predicate HasSession(session: Option<int>) {
    session.Some? && session.value != 0
  }

  /** The fields `updateBarberProfile` takes. */
  datatype ProfileDetails = ProfileDetails(bio: string, specialties: seq<string>, instagramHandle: string)

  /** Which fields an update sets; `updatedAt` is always set. */
  datatype ProfilePatch = ProfilePatch(details: Option<ProfileDetails>, availability: Option<WeeklyAvailability>)

  function ApplyPatch(patch: ProfilePatch, now: int): BarberProfile -> BarberProfile {
    (p: BarberProfile) =>
      var q := if patch.details.Some? then
        p.(bio := patch.details.value.bio, specialties := patch.details.value.specialties, instagramHandle := patch.details.value.instagramHandle)
        else p;
      var q' := if patch.availability.Some? then q.(availability := patch.availability.value) else q;
      q'.(updatedAt := now)
  }

  /** A patch sets exactly the fields it names, and `updatedAt`. */
  lemma PatchEffect(p: BarberProfile, patch: ProfilePatch, now: int)
    ensures var q := ApplyPatch(patch, now)(p);
      && q.id == p.id && q.userId == p.userId && q.updatedAt == now
      && (patch.details.Some? ==> q.bio == patch.details.value.bio && q.specialties == patch.details.value.specialties
                                  && q.instagramHandle == patch.details.value.instagramHandle)
      && (patch.details.None? ==> q.bio == p.bio && q.specialties == p.specialties && q.instagramHandle == p.instagramHandle)
      && (patch.availability.Some? ==> q.availability == patch.availability.value)
      && (patch.availability.None? ==> q.availability == p.availability)
  {
  }

  function PatchIfOwned(userId: int, patch: ProfilePatch, now: int): BarberProfile -> BarberProfile {
    (p: BarberProfile) => if p.userId == userId then ApplyPatch(patch, now)(p) else p
  }

  function ProfileOf(userId: int): BarberProfile -> bool {
    (p: BarberProfile) => p.userId == userId
  }

  /** `UPDATE barber_profiles SET ... WHERE user_id = ? RETURNING *`: the
      store afterwards and the first returned row. */
  function UpdateProfile(db: Db, userId: int, patch: ProfilePatch, now: int): (r: (Db, Option<BarberProfile>))
    ensures r.0 == db.(profiles := r.0.profiles)
    ensures |r.0.profiles| == |db.profiles|
    ensures forall i :: 0 <= i < |db.profiles| ==>
      var p, p' := db.profiles[i], r.0.profiles[i];
      && (p.userId != userId ==> p' == p)
      && (p.userId == userId ==>
            && p'.id == p.id && p'.userId == p.userId && p'.updatedAt == now
            && (patch.details.Some? ==> p'.bio == patch.details.value.bio && p'.specialties == patch.details.value.specialties
                                        && p'.instagramHandle == patch.details.value.instagramHandle)
            && (patch.details.None? ==> p'.bio == p.bio && p'.specialties == p.specialties && p'.instagramHandle == p.instagramHandle)
            && (patch.availability.Some? ==> p'.availability == patch.availability.value)
            && (patch.availability.None? ==> p'.availability == p.availability))
    ensures r.1.None? <==> forall p :: p in db.profiles ==> p.userId != userId
    ensures r.1.Some? ==> r.1.value in r.0.profiles && r.1.value.userId == userId
  {
    var profiles := Map(db.profiles, PatchIfOwned(userId, patch, now));
    var returned := FirstWhere(profiles, ProfileOf(userId));
    forall i | 0 <= i < |db.profiles|
      ensures profiles[i].userId == db.profiles[i].userId
      ensures db.profiles[i].userId != userId ==> profiles[i] == db.profiles[i]
      ensures db.profiles[i].userId == userId ==> profiles[i] == ApplyPatch(patch, now)(db.profiles[i])
    {
      PatchEffect(db.profiles[i], patch, now);
    }
    forall i | 0 <= i < |db.profiles| && db.profiles[i].userId == userId
      ensures var p, p' := db.profiles[i], profiles[i];
        && p'.id == p.id && p'.userId == p.userId && p'.updatedAt == now
        && (patch.details.Some? ==> p'.bio == patch.details.value.bio && p'.specialties == patch.details.value.specialties
                                    && p'.instagramHandle == patch.details.value.instagramHandle)
        && (patch.details.None? ==> p'.bio == p.bio && p'.specialties == p.specialties && p'.instagramHandle == p.instagramHandle)
        && (patch.availability.Some? ==> p'.availability == patch.availability.value)
        && (patch.availability.None? ==> p'.availability == p.availability)
    {
      PatchEffect(db.profiles[i], patch, now);
    }
    forall p | p in db.profiles && p.userId == userId
      ensures returned.Some?
    {
      var i :| 0 <= i < |db.profiles| && db.profiles[i] == p;
      assert profiles[i] in profiles && ProfileOf(userId)(profiles[i]);
    }
    forall q | q in profiles && q.userId == userId
      ensures exists p :: p in db.profiles && p.userId == userId
    {
      var i :| 0 <= i < |profiles| && profiles[i] == q;
      assert db.profiles[i] in db.profiles;
    }
    (db.(profiles := profiles), returned)
  }

  /** The insert error a failed profile insert surfaces as. */
  function InsertMessage(e: DbError): string {
    match e
    case UniqueViolation(c) => "duplicate key value violates unique constraint on " + c
    case ForeignKeyViolation(c) => "insert violates foreign key constraint on " + c
  }

  /** `getBarberProfile`: the caller's profile, created with an empty bio,
      no specialties, no handle and the default week when there is none. */
  function GetBarberProfile(session: Option<int>, db: Db, now: int): (r: Result<(Db, BarberProfile), string>)
    ensures !HasSession(session) ==> r == Err(NoSession)
    ensures HasSession(session) && (exists p :: p in db.profiles && p.userId == session.value) ==>
      r.Ok? && r.value.0 == db && r.value.1 in db.profiles && r.value.1.userId == session.value
    ensures HasSession(session) && (forall p :: p in db.profiles ==> p.userId != session.value) ==>
      && (r.Ok? <==> HasUser(db.users, session.value))
      && (r.Ok? ==>
            var p := r.value.1;
            && r.value.0 == db.(profiles := db.profiles + [p])
            && p.userId == session.value && p.bio == "" && p.specialties == [] && p.instagramHandle == ""
            && p.availability == DefaultWeeklyAvailability())
    ensures r.Ok? ==> r.value.1 in r.value.0.profiles && r.value.1.userId == session.value
  {
    if !HasSession(session) then Err(NoSession)
    else
      var userId := session.value;
      match FirstWhere(db.profiles, ProfileOf(userId))
      case Some(p) => Ok((db, p))
      case None =>
        assert forall p :: p in db.profiles ==> !ProfileOf(userId)(p);
        match InsertProfile(db, userId, "", [], DefaultWeeklyAvailability(), "", now)
        case Err(e) => Err(InsertMessage(e))
        case Ok((d', p)) => Ok((d', p))
  }

  /** Get-or-create is idempotent: a second call changes nothing and returns
      the profile the first call returned. */
  lemma GetBarberProfileIdempotent(session: Option<int>, db: Db, now: int, later: int)
    requires GetBarberProfile(session, db, now).Ok?
    requires OneProfilePerUser(db.profiles)
    ensures var (d1, p1) := GetBarberProfile(session, db, now).value;
      GetBarberProfile(session, d1, later) == Ok((d1, p1))
  {
    var (d1, p1) := GetBarberProfile(session, db, now).value;
    var userId := session.value;
    if exists p :: p in db.profiles && p.userId == userId {
      OneProfileIsFirst(db.profiles, userId, p1);
    } else {
      OneProfileIsFirst(d1.profiles, userId, p1);
    }
  }

  /** With at most one profile per user (or a user's only one), the lookup
      finds exactly that profile. */
  lemma OneProfileIsFirst(profiles: seq<BarberProfile>, userId: int, p: BarberProfile)
    requires p in profiles && p.userId == userId
    requires forall q :: q in profiles && q.userId == userId ==> q == p
    ensures FirstWhere(profiles, ProfileOf(userId)) == Some(p)
  {
    assert ProfileOf(userId)(p);
  }

  /** `updateBarberProfile`: only bio, specialties and handle change;
      without a profile nothing is created. */
  function UpdateBarberProfile(session: Option<int>, db: Db, data: ProfileDetails, now: int): (r: Result<(Db, Option<BarberProfile>), string>)
    ensures r.Err? <==> !HasSession(session)
    ensures r.Err? ==> r.error == NoSession
    ensures r.Ok? ==> r.value == UpdateProfile(db, session.value, ProfilePatch(Some(data), None), now)
    ensures r.Ok? && (forall p :: p in db.profiles ==> p.userId != session.value) ==> r.value.0 == db
  {
    if !HasSession(session) then Err(NoSession)
    else
      var res := UpdateProfile(db, session.value, ProfilePatch(Some(data), None), now);
      assert (forall p :: p in db.profiles ==> p.userId != session.value) ==> res.0.profiles == db.profiles;
      Ok(res)
  }

  /** First get-or-create, then patch the profile it guarantees. */
  function EnsureThenUpdate(session: Option<int>, db: Db, patch: ProfilePatch, now: int): (r: Result<(Db, Option<BarberProfile>), string>)
    ensures r.Err? <==> GetBarberProfile(session, db, now).Err?
    ensures r.Ok? ==> r.value == UpdateProfile(GetBarberProfile(session, db, now).value.0, session.value, patch, now)
    ensures r.Ok? ==> r.value.1.Some?
  {
    var (d1, _) :- GetBarberProfile(session, db, now);
    Ok(UpdateProfile(d1, session.value, patch, now))
  }

  /** `updateAvailability`: only the week changes, on a profile that exists
      afterwards whether or not it did before. */
  function UpdateAvailability(session: Option<int>, db: Db, week: WeeklyAvailability, now: int): (r: Result<(Db, Option<BarberProfile>), string>)
    ensures !HasSession(session) ==> r == Err(NoSession)
    ensures r.Ok? ==> r.value.1.Some? && r.value.1.value.availability == week
    ensures r.Ok? ==> r == EnsureThenUpdate(session, db, ProfilePatch(None, Some(week)), now)
    ensures r.Err? <==> GetBarberProfile(session, db, now).Err?
    ensures r.Ok? ==> r.value == UpdateProfile(GetBarberProfile(session, db, now).value.0, session.value, ProfilePatch(None, Some(week)), now)
  {
    EnsureThenUpdate(session, db, ProfilePatch(None, Some(week)), now)
  }

  /** `saveBarberProfileAndSchedule`: all four fields at once. */
  function SaveBarberProfileAndSchedule(session: Option<int>, db: Db, data: ProfileDetails, week: WeeklyAvailability, now: int): (r: Result<(Db, Option<BarberProfile>), string>)
    ensures !HasSession(session) ==> r == Err(NoSession)
    ensures r.Ok? ==>
      && r.value.1.Some? && r.value.1.value.availability == week
      && r.value.1.value.bio == data.bio && r.value.1.value.specialties == data.specialties
      && r.value.1.value.instagramHandle == data.instagramHandle
    ensures r.Err? <==> GetBarberProfile(session, db, now).Err?
    ensures r.Ok? ==> r.value == UpdateProfile(GetBarberProfile(session, db, now).value.0, session.value, ProfilePatch(Some(data), Some(week)), now)
  {
    EnsureThenUpdate(session, db, ProfilePatch(Some(data), Some(week)), now)
  }

  /** Saving everything at once is updating the week, then the details. */
  lemma SaveIsAvailabilityThenDetails(session: Option<int>, db: Db, data: ProfileDetails, week: WeeklyAvailability, now: int)
    requires UpdateAvailability(session, db, week, now).Ok?
    ensures var d1 := UpdateAvailability(session, db, week, now).value.0;
      SaveBarberProfileAndSchedule(session, db, data, week, now).Ok?
      && SaveBarberProfileAndSchedule(session, db, data, week, now).value.0 == UpdateBarberProfile(session, d1, data, now).value.0
  {
    var d0 := GetBarberProfile(session, db, now).value.0;
    var d1 := UpdateAvailability(session, db, week, now).value.0;
    var both := SaveBarberProfileAndSchedule(session, db, data, week, now).value.0;
    var d2 := UpdateBarberProfile(session, d1, data, now).value.0;
    assert |both.profiles| == |d2.profiles|;
    forall i | 0 <= i < |both.profiles|
      ensures both.profiles[i] == d2.profiles[i]
    {
    }
  }
}

=== FILE: genesis.dfy ===
/** The genesis seed (lib/db/seed-genesis.ts): upsert the owner, make sure
    the owner has a shop named "The Barbers Element", replace that shop's
    services by the fixed price list, and upsert the super admin. Password
    hashes are inputs, since hashing is salted. */
module Genesis {
  import opened Results
  import opened Seqs
  import opened Strings
  import opened Schema
  import opened Queries
  import Services

  const OwnerEmail: string := "dev_owner@barbemnt.com"
  const SuperAdminEmail: string := "superadmin@barbemnt.com"
  const TeamName: string := "The Barbers Element"

  // ---------------------------------------------------------------------
  // The price list
  // ---------------------------------------------------------------------

  /** One line of the price list; prices are in cents. */
  datatype Entry = Entry(name: string, price: int, durationMinutes: nat)

  /** A positive price, at least a quarter of an hour, and what the service
      form itself would accept. */
  predicate Sound(e: Entry) {
    && e.price > 0 && e.durationMinutes >= 15
    && Services.ServiceConstraints(e.name, e.durationMinutes, e.price)
  }

  function PriceList(): (r: seq<Entry>)
    ensures |r| == 11
    ensures forall k :: 0 <= k < |r| ==> Sound(r[k])
  {
    [ Entry("Mens Style Cut", 3000, 30),
      Entry("Skin Fade", 3500, 45),
      Entry("Crew Cut", 2000, 20),
      Entry("Style Cut & Beard", 4500, 45),
      Entry("Skin Fade & Beard", 5000, 60),
      Entry("Student Cut", 2500, 30),
      Entry("Student Skin Fade", 3000, 45),
      Entry("Kids 12 & Under", 2000, 20),
      Entry("Pensioners", 2000, 20),
      Entry("Beard Trim & Line Up", 2000, 15),
      Entry("Facial Waxing & Threading", 500, 15) ]
  }

  /** The description template `<name> - <duration> minutes`. */
  function Describe(e: Entry): (r: string)
    ensures |r| >= |e.name| + 12
    ensures r[..|e.name|] == e.name
    ensures r[|r| - 8..] == " minutes"
    ensures r[|e.name|..|e.name| + 3] == " - "
    ensures var digits := r[|e.name| + 3..|r| - 8];
      && digits != [] && AllDigits(digits) && (digits[0] == '0' ==> |digits| == 1)
      && DecimalValue(digits) == e.durationMinutes
  {
    var digits := NatToString(e.durationMinutes);
    NatToStringValue(e.durationMinutes);
    var r := e.name + " - " + digits + " minutes";
    assert r[|e.name| + 3..|r| - 8] == digits;
    r
  }

  /** The service row seeded for entry `e`, before it gets its id. */
  function Offer(teamId: int, e: Entry): Service {
    Service(0, teamId, e.name, Some(Describe(e)), e.durationMinutes, e.price, true, 0)
  }

  /** A service row with its id and timestamp blanked: what a re-seed must
      reproduce. */
  function Anonymous(s: Service): Service {
    s.(id := 0, updatedAt := 0)
  }

  /** The rows of one multi-row insert, with consecutive serial ids from `first`. */
  function SeededRows(teamId: int, first: int, now: int): (r: seq<Service>)
    ensures |r| == |PriceList()|
    ensures forall k :: 0 <= k < |r| ==>
      && r[k].teamId == teamId && r[k].isActive
      && r[k].name == PriceList()[k].name && r[k].price == PriceList()[k].price
      && r[k].durationMinutes == PriceList()[k].durationMinutes
      && r[k].description == Some(Describe(PriceList()[k]))
      && r[k].id >= first
    ensures Map(r, Anonymous) == Map(PriceList(), e => Offer(teamId, e))
  {
    var l := PriceList();
    var r := seq(|l|, k requires 0 <= k < |l| => Offer(teamId, l[k]).(id := first + k, updatedAt := now));
    assert Map(r, Anonymous) == Map(l, e => Offer(teamId, e));
    r
  }

  // ---------------------------------------------------------------------
  // Users: find by e-mail, then update the hash or insert
  // ---------------------------------------------------------------------

  function SetHash(id: int, hash: string): User -> User {
    (u: User) => if u.id == id then u.(passwordHash := hash) else u
  }

  /** The user `email` has a row, the first such row has id `id`, and every
      row with that id already carries `hash`. */
  predicate Settled(users: seq<User>, email: string, hash: string, id: int) {
    && FirstWhere(users, UserEmailIs(email)).Some?
    && FirstWhere(users, UserEmailIs(email)).value.id == id
    && forall u :: u in users && u.id == id ==> u.passwordHash == hash
  }

  /** Every row with the id of `u`, the first user with this e-mail, gets
      the new hash; nothing else changes. */
  function UpdateHash(d: Db, email: string, hash: string, u: User): (r: Db)
    requires FirstWhere(d.users, UserEmailIs(email)) == Some(u)
    ensures r == d.(users := r.users)
    ensures Settled(r.users, email, hash, u.id)
    ensures |r.users| == |d.users|
    ensures forall k :: 0 <= k < |d.users| ==>
      && r.users[k].(passwordHash := d.users[k].passwordHash) == d.users[k]
      && (d.users[k].id != u.id ==> r.users[k] == d.users[k])
  {
    var users := Map(d.users, SetHash(u.id, hash));
    FirstWhereMap(d.users, SetHash(u.id, hash), UserEmailIs(email));
    assert forall x :: x in users && x.id == u.id ==> x.passwordHash == hash;
    d.(users := users)
  }

  /** The insert branch: a new live user with this e-mail, role and hash. */
  function CreateUser(d: Db, email: string, hash: string, role: Role, now: int): (r: (Db, int))
    requires !EmailTaken(d.users, email)
    ensures r.0 == d.(users := r.0.users)
    ensures Settled(r.0.users, email, hash, r.1)
    ensures |r.0.users| == |d.users| + 1 && r.0.users[..|d.users|] == d.users
    ensures var u := r.0.users[|d.users|];
      && u.id == r.1 && !HasUser(d.users, u.id)
      && u.email == email && u.role == role && u.passwordHash == hash && IsLive(u)
  {
    var (d', u) := InsertUser(d, email, hash, Some(role), now).value;
    assert forall x :: x in d.users ==> !UserEmailIs(email)(x);
    FirstOfAppended(d.users, u, UserEmailIs(email));
    assert d'.users[..|d.users|] == d.users;
    (d', u.id)
  }

  /** Update the password of the first user with this e-mail, or create the
      user with `role`; returns the user's id. */
  function UpsertUser(d: Db, email: string, hash: string, role: Role, now: int): (r: (Db, int))
    ensures r.0 == d.(users := r.0.users)
    ensures Settled(r.0.users, email, hash, r.1)
    ensures EmailTaken(d.users, email) ==>
      && |r.0.users| == |d.users|
      && r.1 == FirstWhere(d.users, UserEmailIs(email)).value.id
      && forall k :: 0 <= k < |d.users| ==>
        && r.0.users[k].(passwordHash := d.users[k].passwordHash) == d.users[k]
        && (d.users[k].id != r.1 ==> r.0.users[k] == d.users[k])
    ensures !EmailTaken(d.users, email) ==>
      && |r.0.users| == |d.users| + 1 && r.0.users[..|d.users|] == d.users
      && var u := r.0.users[|d.users|];
      && u.id == r.1 && !HasUser(d.users, u.id)
      && u.email == email && u.role == role && u.passwordHash == hash && IsLive(u)
    ensures forall x :: HasUser(d.users, x) ==> HasUser(r.0.users, x)
    ensures UserIdsUnique(d.users) ==> UserIdsUnique(r.0.users)
  {
    match FirstWhere(d.users, UserEmailIs(email))
    case Some(u) =>
      var d' := UpdateHash(d, email, hash, u);
      assert EmailTaken(d.users, email);
      assert forall x :: HasUser(d.users, x) ==> HasUser(d'.users, x) by {
        forall x | HasUser(d.users, x) ensures HasUser(d'.users, x) {
          var y :| y in d.users && y.id == x;
          var k :| 0 <= k < |d.users| && d.users[k] == y;
          assert d'.users[k] in d'.users;
        }
      }
      (d', u.id)
    case None =>
      assert !EmailTaken(d.users, email) by {
        forall x | x in d.users ensures x.email != email {
          assert !UserEmailIs(email)(x);
        }
      }
      var r := CreateUser(d, email, hash, role, now);
      assert forall x :: HasUser(d.users, x) ==> HasUser(r.0.users, x) by {
        forall x | HasUser(d.users, x) ensures HasUser(r.0.users, x) {
          var y :| y in d.users && y.id == x;
          assert y in r.0.users[..|d.users|];
        }
      }
      r
  }

  /** Upserting one e-mail leaves another e-mail's settled row alone. */
  lemma UpsertKeepsOtherSettled(d: Db, email: string, hash: string, role: Role, now: int, other: string, otherHash: string, otherId: int)
    requires email != other && UserIdsUnique(d.users)
    requires Settled(d.users, other, otherHash, otherId)
    ensures Settled(UpsertUser(d, email, hash, role, now).0.users, other, otherHash, otherId)
  {
    var o := FirstWhere(d.users, UserEmailIs(other)).value;
    match FirstWhere(d.users, UserEmailIs(email))
    case Some(a) =>
      var users := Map(d.users, SetHash(a.id, hash));
      FirstWhereMap(d.users, SetHash(a.id, hash), UserEmailIs(other));
      assert a.id != o.id by {
        var i :| 0 <= i < |d.users| && d.users[i] == a;
        var j :| 0 <= j < |d.users| && d.users[j] == o;
        assert i != j;
      }
      forall u | u in users && u.id == otherId ensures u.passwordHash == otherHash {
        var k :| 0 <= k < |users| && users[k] == u;
        assert d.users[k] in d.users;
      }
    case None =>
      var u := UpsertUser(d, email, hash, role, now).0.users[|d.users|];
      assert UpsertUser(d, email, hash, role, now).0.users == d.users + [u];
      assert !UserEmailIs(other)(u);
      FilterAppend(d.users, [u], UserEmailIs(other));
      assert Filter([u], UserEmailIs(other)) == [];
      assert u.id != otherId by {
        assert HasUser(d.users, o.id);
      }
  }

  /** Seeding a user twice with the same hash is the same as seeding once. */
  lemma UpsertSettled(d: Db, email: string, hash: string, role: Role, now: int, id: int)
    requires Settled(d.users, email, hash, id)
    ensures UpsertUser(d, email, hash, role, now) == (d, id)
  {
    var users := Map(d.users, SetHash(id, hash));
    assert users == d.users by {
      forall k | 0 <= k < |d.users| ensures users[k] == d.users[k] {
        assert d.users[k] in d.users;
      }
    }
  }

  // ---------------------------------------------------------------------
  // The owner's shop
  // ---------------------------------------------------------------------

  /** A membership of `userId` in a shop that exists (the inner join). */
  function JoinedMembership(teams: seq<Team>, userId: int): TeamMember -> bool {
    (m: TeamMember) => m.userId == userId && HasTeam(teams, m.teamId)
  }

  function Rename(teamId: int): Team -> Team {
    (t: Team) => if t.id == teamId then t.(name := TeamName) else t
  }

  /** The owner's first joined shop is `teamId`, and every row with that id
      is already called `TeamName`. */
  predicate ShopSettled(d: Db, userId: int, teamId: int) {
    && FirstWhere(d.members, JoinedMembership(d.teams, userId)).Some?
    && FirstWhere(d.members, JoinedMembership(d.teams, userId)).value.teamId == teamId
    && forall t :: t in d.teams && t.id == teamId ==> t.name == TeamName
  }

  /** The shop of the owner's first joined membership gets the seed's name. */
  function RenameShop(d: Db, userId: int, m: TeamMember): (r: Db)
    requires FirstWhere(d.members, JoinedMembership(d.teams, userId)) == Some(m)
    ensures r == d.(teams := r.teams)
    ensures ShopSettled(r, userId, m.teamId)
    ensures forall t :: HasTeam(d.teams, t) <==> HasTeam(r.teams, t)
    ensures |r.teams| == |d.teams|
    ensures forall k :: 0 <= k < |d.teams| ==>
      && r.teams[k].(name := d.teams[k].name) == d.teams[k]
      && (d.teams[k].id != m.teamId ==> r.teams[k] == d.teams[k])
  {
    var teams := Map(d.teams, Rename(m.teamId));
    assert forall t :: HasTeam(d.teams, t) ==> HasTeam(teams, t) by {
      forall t | HasTeam(d.teams, t) ensures HasTeam(teams, t) {
        var y :| y in d.teams && y.id == t;
        var k :| 0 <= k < |d.teams| && d.teams[k] == y;
        assert teams[k] in teams;
      }
    }
    assert forall t :: HasTeam(teams, t) ==> HasTeam(d.teams, t) by {
      forall t | HasTeam(teams, t) ensures HasTeam(d.teams, t) {
        var y :| y in teams && y.id == t;
        var k :| 0 <= k < |teams| && teams[k] == y;
        assert d.teams[k] in d.teams;
      }
    }
    FilterExt(d.members, JoinedMembership(d.teams, userId), JoinedMembership(teams, userId));
    assert forall t :: t in teams && t.id == m.teamId ==> t.name == TeamName;
    d.(teams := teams)
  }

  /** A new shop named by the seed, with the user as its owner member. */
  function CreateShop(d: Db, userId: int, now: int): (r: (Db, int))
    requires forall x :: x in d.members ==> x.userId != userId
    ensures r.0 == d.(teams := r.0.teams, members := r.0.members)
    ensures ShopSettled(r.0, userId, r.1)
    ensures !HasTeam(d.teams, r.1)
    ensures |r.0.teams| == |d.teams| + 1 && r.0.teams[..|d.teams|] == d.teams
    ensures r.0.teams[|d.teams|].name == TeamName && r.0.teams[|d.teams|].id == r.1
    ensures |r.0.members| == |d.members| + 1 && r.0.members[..|d.members|] == d.members
    ensures var m := r.0.members[|d.members|];
      m.userId == userId && m.teamId == r.1 && m.role == Owner
  {
    var t := Team(NextId(d.teams, TeamKey), TeamName, now, now, None, None, None, None, None);
    assert !HasTeam(d.teams, t.id) by {
      forall y | y in d.teams ensures y.id != t.id {
        assert TeamKey(y) < t.id;
      }
    }
    var teams := d.teams + [t];
    var m := TeamMember(NextId(d.members, MemberKey), userId, t.id, Owner, now);
    assert HasTeam(teams, t.id) by { assert t in teams; }
    assert forall x :: x in d.members ==> !JoinedMembership(teams, userId)(x);
    FirstOfAppended(d.members, m, JoinedMembership(teams, userId));
    assert teams[..|d.teams|] == d.teams;
    assert (d.members + [m])[..|d.members|] == d.members;
    assert forall x :: x in teams && x.id == t.id ==> x.name == TeamName;
    (d.(teams := teams, members := d.members + [m]), t.id)
  }

  /** Rename the owner's first shop, or create the shop and an owner
      membership in it; returns the shop's id. */
  function EnsureShop(d: Db, userId: int, now: int): (r: (Db, int))
    requires forall m :: m in d.members ==> HasTeam(d.teams, m.teamId)
    ensures r.0 == d.(teams := r.0.teams, members := r.0.members)
    ensures ShopSettled(r.0, userId, r.1)
    ensures forall m :: m in r.0.members ==> HasTeam(r.0.teams, m.teamId)
    ensures forall t :: HasTeam(d.teams, t) ==> HasTeam(r.0.teams, t)
    ensures (exists m :: m in d.members && m.userId == userId) ==>
      && r.0.members == d.members
      && |r.0.teams| == |d.teams|
      && forall k :: 0 <= k < |d.teams| ==>
        && r.0.teams[k].(name := d.teams[k].name) == d.teams[k]
        && (d.teams[k].id != r.1 ==> r.0.teams[k] == d.teams[k])
    ensures (forall m :: m in d.members ==> m.userId != userId) ==>
      && !HasTeam(d.teams, r.1)
      && |r.0.teams| == |d.teams| + 1 && r.0.teams[..|d.teams|] == d.teams
      && r.0.teams[|d.teams|].name == TeamName
      && |r.0.members| == |d.members| + 1 && r.0.members[..|d.members|] == d.members
      && var m := r.0.members[|d.members|];
      && m.userId == userId && m.teamId == r.1 && m.role == Owner
  {
    match FirstWhere(d.members, JoinedMembership(d.teams, userId))
    case Some(m) =>
      (RenameShop(d, userId, m), m.teamId)
    case None =>
      assert forall x :: x in d.members ==> x.userId != userId by {
        forall x | x in d.members ensures x.userId != userId {
          assert !JoinedMembership(d.teams, userId)(x);
        }
      }
      var r := CreateShop(d, userId, now);
      assert forall t :: HasTeam(d.teams, t) ==> HasTeam(r.0.teams, t) by {
        forall t | HasTeam(d.teams, t) ensures HasTeam(r.0.teams, t) {
          var y :| y in d.teams && y.id == t;
          assert y in r.0.teams[..|d.teams|];
        }
      }
      assert forall x :: x in r.0.members ==> HasTeam(r.0.teams, x.teamId) by {
        forall x | x in r.0.members ensures HasTeam(r.0.teams, x.teamId) {
          if x in d.members {
          } else {
            assert x == r.0.members[|d.members|];
            assert r.0.teams[|d.teams|] in r.0.teams;
          }
        }
      }
      r
  }

  /** Ensuring the shop a second time changes nothing. */
  lemma EnsureShopSettled(d: Db, userId: int, now: int, teamId: int)
    requires forall m :: m in d.members ==> HasTeam(d.teams, m.teamId)
    requires ShopSettled(d, userId, teamId)
    ensures EnsureShop(d, userId, now) == (d, teamId)
  {
    var teams := Map(d.teams, Rename(teamId));
    assert teams == d.teams by {
      forall k | 0 <= k < |d.teams| ensures teams[k] == d.teams[k] {
        assert d.teams[k] in d.teams;
      }
    }
  }

  // ---------------------------------------------------------------------
  // The shop's services
  // ---------------------------------------------------------------------

  function ServiceTeamIsNot(teamId: int): Service -> bool {
    (s: Service) => s.teamId != teamId
  }

  function ServiceTeamIs(teamId: int): Service -> bool {
    (s: Service) => s.teamId == teamId
  }

  /** A booking would lose its service when `kept` replaces `services`. */
  predicate Orphans(bookings: seq<Booking>, services: seq<Service>, kept: seq<Service>) {
    exists b | b in bookings :: HasService(services, b.serviceId) && !HasService(kept, b.serviceId)
  }

  /** Delete the shop's services, then insert the price list. The delete is
      refused, as the foreign key from bookings demands, when a booking still
      names one of the deleted services. */
  function ReplaceServices(d: Db, teamId: int, now: int): (r: Result<Db, DbError>)
    ensures r.Err? <==> Orphans(d.bookings, d.services, Filter(d.services, ServiceTeamIsNot(teamId)))
    ensures r.Ok? ==>
      && r.value == d.(services := r.value.services)
      && Filter(r.value.services, ServiceTeamIsNot(teamId)) == Filter(d.services, ServiceTeamIsNot(teamId))
      && Map(Filter(r.value.services, ServiceTeamIs(teamId)), Anonymous) == Map(PriceList(), e => Offer(teamId, e))
  {
    var kept := Filter(d.services, ServiceTeamIsNot(teamId));
    if Orphans(d.bookings, d.services, kept) then Err(ForeignKeyViolation("service_id"))
    else
      var rows := SeededRows(teamId, NextId(d.services, ServiceKey), now);
      NewRowsSplit(kept, rows, teamId);
      Ok(d.(services := kept + rows))
  }

  lemma NewRowsSplit(kept: seq<Service>, rows: seq<Service>, teamId: int)
    requires forall s :: s in kept ==> s.teamId != teamId
    requires forall s :: s in rows ==> s.teamId == teamId
    ensures Filter(kept + rows, ServiceTeamIsNot(teamId)) == kept
    ensures Filter(kept + rows, ServiceTeamIs(teamId)) == rows
  {
    FilterAppend(kept, rows, ServiceTeamIsNot(teamId));
    FilterAppend(kept, rows, ServiceTeamIs(teamId));
    FilterAll(kept, ServiceTeamIsNot(teamId));
    FilterNone(rows, ServiceTeamIsNot(teamId));
    FilterNone(kept, ServiceTeamIs(teamId));
    FilterAll(rows, ServiceTeamIs(teamId));
  }

  // ---------------------------------------------------------------------
  // The whole seed
  // ---------------------------------------------------------------------

  /** What one run leaves: the ids of the owner, the shop and the admin. */
  datatype Seeded = Seeded(db: Db, ownerId: int, teamId: int, adminId: int)

  function SeedGenesis(d: Db, ownerHash: string, adminHash: string, now: int): (r: Result<Seeded, DbError>)
    requires forall m :: m in d.members ==> HasTeam(d.teams, m.teamId)
    ensures r.Ok? && UserIdsUnique(d.users) ==> Settled(r.value.db.users, OwnerEmail, ownerHash, r.value.ownerId)
    ensures r.Ok? ==>
      && Settled(r.value.db.users, SuperAdminEmail, adminHash, r.value.adminId)
      && FirstWhere(r.value.db.members, JoinedMembership(r.value.db.teams, r.value.ownerId)).Some?
      && Map(Filter(r.value.db.services, ServiceTeamIs(r.value.teamId)), Anonymous) == Map(PriceList(), e => Offer(r.value.teamId, e))
      && r.value.db.bookings == d.bookings && r.value.db.posts == d.posts && r.value.db.logs == d.logs
      && r.value.db.invitations == d.invitations && r.value.db.profiles == d.profiles && r.value.db.products == d.products
  {
    var (d1, ownerId) := UpsertUser(d, OwnerEmail, ownerHash, Owner, now);
    var (d2, teamId) := EnsureShop(d1, ownerId, now);
    var d3 :- ReplaceServices(d2, teamId, now);
    var (d4, adminId) := UpsertUser(d3, SuperAdminEmail, adminHash, SuperAdmin, now);
    assert UserIdsUnique(d.users) ==> Settled(d4.users, OwnerEmail, ownerHash, ownerId) by {
      if UserIdsUnique(d.users) {
        UpsertKeepsOtherSettled(d3, SuperAdminEmail, adminHash, SuperAdmin, now, OwnerEmail, ownerHash, ownerId);
      }
    }
    Ok(Seeded(d4, ownerId, teamId, adminId))
  }

  /** What the first run establishes, with its services split into the
      rows it kept and the rows it inserted. */
  lemma FirstRun(d: Db, ownerHash: string, adminHash: string, now: int) returns (kept: seq<Service>, rows: seq<Service>)
    requires RefIntegrity(d) && UserIdsUnique(d.users)
    requires SeedGenesis(d, ownerHash, adminHash, now).Ok?
    ensures var s := SeedGenesis(d, ownerHash, adminHash, now).value;
      && Settled(s.db.users, OwnerEmail, ownerHash, s.ownerId)
      && Settled(s.db.users, SuperAdminEmail, adminHash, s.adminId)
      && ShopSettled(s.db, s.ownerId, s.teamId)
      && (forall m :: m in s.db.members ==> HasTeam(s.db.teams, m.teamId))
      && s.db.services == kept + rows
      && Filter(s.db.services, ServiceTeamIsNot(s.teamId)) == kept
      && (forall b :: b in s.db.bookings ==> HasService(kept, b.serviceId))
      && Map(rows, Anonymous) == Map(PriceList(), e => Offer(s.teamId, e))
  {
    var (d1, ownerId) := UpsertUser(d, OwnerEmail, ownerHash, Owner, now);
    var (d2, teamId) := EnsureShop(d1, ownerId, now);
    kept := Filter(d2.services, ServiceTeamIsNot(teamId));
    rows := SeededRows(teamId, NextId(d2.services, ServiceKey), now);
    var d3 := ReplaceServices(d2, teamId, now).value;
    assert d3.services == kept + rows;
    NewRowsSplit(kept, rows, teamId);
    forall b | b in d3.bookings ensures HasService(kept, b.serviceId) {
      assert HasService(d.services, b.serviceId);
    }
  }

  /** A run on a store where everything is already seeded. */
  lemma SecondRun(d: Db, ownerHash: string, adminHash: string, later: int, ownerId: int, teamId: int, adminId: int, kept: seq<Service>)
    requires forall m :: m in d.members ==> HasTeam(d.teams, m.teamId)
    requires Settled(d.users, OwnerEmail, ownerHash, ownerId)
    requires Settled(d.users, SuperAdminEmail, adminHash, adminId)
    requires ShopSettled(d, ownerId, teamId)
    requires Filter(d.services, ServiceTeamIsNot(teamId)) == kept
    requires forall b :: b in d.bookings ==> HasService(kept, b.serviceId)
    ensures SeedGenesis(d, ownerHash, adminHash, later)
      == Ok(Seeded(d.(services := kept + SeededRows(teamId, NextId(d.services, ServiceKey), later)), ownerId, teamId, adminId))
  {
    UpsertSettled(d, OwnerEmail, ownerHash, Owner, later, ownerId);
    EnsureShopSettled(d, ownerId, later, teamId);
    assert !Orphans(d.bookings, d.services, kept);
    var d5 := d.(services := kept + SeededRows(teamId, NextId(d.services, ServiceKey), later));
    assert ReplaceServices(d, teamId, later) == Ok(d5);
    UpsertSettled(d5, SuperAdminEmail, adminHash, SuperAdmin, later, adminId);
  }

  /** A second run on the seeded store finds the same owner, shop and admin,
      changes no user, shop or membership, and puts back the same price list:
      the services differ from the first run's at most in ids and timestamps.
      Foreign keys are assumed to hold before the first run. */
  lemma SeedConverges(d: Db, ownerHash: string, adminHash: string, now: int, later: int)
    requires RefIntegrity(d) && UserIdsUnique(d.users)
    requires SeedGenesis(d, ownerHash, adminHash, now).Ok?
    ensures var s := SeedGenesis(d, ownerHash, adminHash, now).value;
      && (forall m :: m in s.db.members ==> HasTeam(s.db.teams, m.teamId))
      && SeedGenesis(s.db, ownerHash, adminHash, later).Ok?
      && var t := SeedGenesis(s.db, ownerHash, adminHash, later).value;
      && t.ownerId == s.ownerId && t.teamId == s.teamId && t.adminId == s.adminId
      && t.db == s.db.(services := t.db.services)
      && Map(t.db.services, Anonymous) == Map(s.db.services, Anonymous)
  {
    var s := SeedGenesis(d, ownerHash, adminHash, now).value;
    var kept, rows := FirstRun(d, ownerHash, adminHash, now);
    SecondRun(s.db, ownerHash, adminHash, later, s.ownerId, s.teamId, s.adminId, kept);
    var rows' := SeededRows(s.teamId, NextId(s.db.services, ServiceKey), later);
    MapAppend(kept, rows, Anonymous);
    MapAppend(kept, rows', Anonymous);
  }

  /** On a store whose foreign keys hold and that has no owner account yet,
      the seed cannot fail: the owner is new, so it has no membership and
      gets a new shop, whose id no existing service carries, so the delete
      of that shop's services removes nothing a booking needs. */
  lemma FreshSeedSucceeds(d: Db, ownerHash: string, adminHash: string, now: int)
    requires RefIntegrity(d) && !EmailTaken(d.users, OwnerEmail)
    ensures SeedGenesis(d, ownerHash, adminHash, now).Ok?
  {
    var (d1, ownerId) := UpsertUser(d, OwnerEmail, ownerHash, Owner, now);
    assert !HasUser(d.users, ownerId);
    assert forall m :: m in d1.members ==> m.userId != ownerId;
    var (d2, teamId) := EnsureShop(d1, ownerId, now);
    assert !HasTeam(d.teams, teamId);
    assert d2.services == d.services;
    assert forall s :: s in d2.services ==> ServiceTeamIsNot(teamId)(s);
    FilterAll(d2.services, ServiceTeamIsNot(teamId));
    assert !Orphans(d2.bookings, d2.services, Filter(d2.services, ServiceTeamIsNot(teamId)));
  }
}

=== FILE: invitations.dfy ===
/** The invitation flow (scripts/test-invitation-flow.ts): an owner invites
    an e-mail address with a role; accepting checks the invitation, creates
    the user with that role and a membership in the inviting team, and marks
    the invitation accepted; a cleanup removes what the flow created. */
module Invitations {
  import opened Results
  import opened Seqs
  import opened Schema
  import opened Queries

  /** `INSERT INTO invitations ... status 'pending'`; the team and the
      inviting user must exist. */
  function CreateInvitation(db: Db, teamId: int, email: string, role: Role, invitedBy: int, now: int): (r: Result<(Db, Invitation), DbError>)
    ensures r.Err? <==> !HasTeam(db.teams, teamId) || !HasUser(db.users, invitedBy)
    ensures r.Ok? ==>
      var (d', inv) := r.value;
      && d' == db.(invitations := db.invitations + [inv])
      && inv.status == InvitePending && inv.teamId == teamId && inv.email == email
      && inv.role == role && inv.invitedBy == invitedBy
      && forall x :: x in db.invitations ==> x.id != inv.id
    ensures r.Ok? && RefIntegrity(db) ==> RefIntegrity(r.value.0)
  {
    if !HasTeam(db.teams, teamId) then Err(ForeignKeyViolation("team_id"))
    else if !HasUser(db.users, invitedBy) then Err(ForeignKeyViolation("invited_by"))
    else
      var inv := Invitation(NextId(db.invitations, InvitationKey), teamId, email, role, invitedBy, now, InvitePending);
      assert forall x :: x in db.invitations ==> InvitationKey(x) < inv.id;
      Ok((db.(invitations := db.invitations + [inv]), inv))
  }

  function PendingMatch(id: int, email: string): Invitation -> bool {
    (i: Invitation) => i.id == id && i.email == email && i.status == InvitePending
  }

  /** The invitation with this id and e-mail, if it is still pending. */
  function ValidInvitation(db: Db, id: int, email: string): (r: Option<Invitation>)
    ensures r.None? <==> forall i :: i in db.invitations ==> !(i.id == id && i.email == email && i.status == InvitePending)
    ensures r.Some? ==> r.value in db.invitations && r.value.id == id && r.value.email == email && r.value.status == InvitePending
  {
    var r := FirstWhere(db.invitations, PendingMatch(id, email));
    if r.None? then
      assert forall i :: i in db.invitations ==> !PendingMatch(id, email)(i);
      None
    else r
  }

  datatype AcceptError = InvalidInvitation | Rejected(e: DbError)

  function MarkAccepted(id: int): Invitation -> Invitation {
    (i: Invitation) => if i.id == id then i.(status := InviteAccepted) else i
  }

  /** The rows an acceptance adds. */
  datatype Acceptance = Acceptance(db: Db, user: User, membership: TeamMember)

  /** Accepting invitation `id` as `email`: validation, then the user with
      the invitation's role, then a membership in the invitation's team with
      the same role, then the status change. */
  function AcceptInvitation(db: Db, id: int, email: string, passwordHash: string, now: int): (r: Result<Acceptance, AcceptError>)
    ensures ValidInvitation(db, id, email).None? ==> r == Err(InvalidInvitation)
    ensures r.Ok? ==>
      var inv := ValidInvitation(db, id, email).value;
      var a := r.value;
      && a.user.email == email && a.user.role == inv.role && !HasUser(db.users, a.user.id)
      && a.membership.userId == a.user.id && a.membership.teamId == inv.teamId && a.membership.role == inv.role
      && a.db.users == db.users + [a.user]
      && a.db.members == db.members + [a.membership]
      && a.db.invitations == Map(db.invitations, MarkAccepted(id))
      && a.db == db.(users := a.db.users, members := a.db.members, invitations := a.db.invitations)
    ensures ValidInvitation(db, id, email).Some? && !EmailTaken(db.users, email) && HasTeam(db.teams, ValidInvitation(db, id, email).value.teamId) ==> r.Ok?
  {
    match ValidInvitation(db, id, email)
    case None => Err(InvalidInvitation)
    case Some(inv) =>
      match InsertUser(db, email, passwordHash, Some(inv.role), now)
      case Err(e) => Err(Rejected(e))
      case Ok((d1, user)) =>
        if !HasTeam(d1.teams, inv.teamId) then Err(Rejected(ForeignKeyViolation("team_id")))
        else
          var m := TeamMember(NextId(d1.members, MemberKey), user.id, inv.teamId, inv.role, now);
          var d2 := d1.(members := d1.members + [m]);
          Ok(Acceptance(d2.(invitations := Map(d2.invitations, MarkAccepted(id))), user, m))
  }

  /** After an acceptance the invitation no longer validates: it cannot be
      used twice. */
  lemma AcceptedInvitationIsSpent(db: Db, id: int, email: string, passwordHash: string, now: int)
    requires AcceptInvitation(db, id, email, passwordHash, now).Ok?
    ensures ValidInvitation(AcceptInvitation(db, id, email, passwordHash, now).value.db, id, email).None?
  {
    var d' := AcceptInvitation(db, id, email, passwordHash, now).value.db;
    forall i | i in d'.invitations
      ensures !(i.id == id && i.email == email && i.status == InvitePending)
    {
      var k :| 0 <= k < |d'.invitations| && d'.invitations[k] == i;
      assert i == MarkAccepted(id)(db.invitations[k]);
    }
  }

  /** An acceptance keeps the store's foreign keys. */
  lemma AcceptKeepsIntegrity(db: Db, id: int, email: string, passwordHash: string, now: int)
    requires RefIntegrity(db)
    requires AcceptInvitation(db, id, email, passwordHash, now).Ok?
    ensures RefIntegrity(AcceptInvitation(db, id, email, passwordHash, now).value.db)
  {
    var a := AcceptInvitation(db, id, email, passwordHash, now).value;
    var d' := a.db;
    var inv := ValidInvitation(db, id, email).value;
    assert HasTeam(db.teams, inv.teamId);
    forall u | HasUser(db.users, u) ensures HasUser(d'.users, u) {
      var x :| x in db.users && x.id == u;
      assert x in d'.users;
    }
    assert HasUser(d'.users, a.user.id) by {
      assert a.user in d'.users;
    }
    forall i | i in d'.invitations ensures HasTeam(d'.teams, i.teamId) && HasUser(d'.users, i.invitedBy) {
      var k :| 0 <= k < |d'.invitations| && d'.invitations[k] == i;
      assert db.invitations[k] in db.invitations;
    }
  }

  /** Sign-up without an invitation stores the default role. */
  lemma SignUpWithoutInviteIsRegular(db: Db, email: string, passwordHash: string, now: int)
    requires !EmailTaken(db.users, email)
    ensures InsertUser(db, email, passwordHash, None, now).Ok?
    ensures InsertUser(db, email, passwordHash, None, now).value.1.role == Regular
  {
  }

  function EmailIsNot(email: string): Invitation -> bool {
    (i: Invitation) => i.email != email
  }

  function NotMemberUser(id: int): TeamMember -> bool {
    (m: TeamMember) => m.userId != id
  }

  function NotUser(id: int): User -> bool {
    (u: User) => u.id != id
  }

  /** The script's cleanup: every invitation to `email`, then the memberships
      and the row of the first user with that e-mail. */
  function Cleanup(db: Db, email: string): (r: Db)
    ensures forall i :: i in r.invitations <==> i in db.invitations && i.email != email
    ensures forall u :: u in r.users ==> u in db.users
    ensures EmailsUnique(db.users) ==> forall u :: u in r.users ==> u.email != email
    ensures forall m :: m in r.members ==> m in db.members
    ensures EmailsUnique(db.users) ==> forall m, u :: m in r.members && u in db.users && u.email == email ==> m.userId != u.id
    ensures r == db.(users := r.users, members := r.members, invitations := r.invitations)
    ensures FirstWhere(db.users, UserEmailIs(email)).None? ==> r.users == db.users && r.members == db.members
    ensures FirstWhere(db.users, UserEmailIs(email)).Some? ==>
      var id := FirstWhere(db.users, UserEmailIs(email)).value.id;
      && (forall u :: u in r.users <==> u in db.users && u.id != id)
      && (forall m :: m in r.members <==> m in db.members && m.userId != id)
  {
    var invs := Filter(db.invitations, EmailIsNot(email));
    assert forall i :: i in db.invitations ==> (EmailIsNot(email)(i) <==> i.email != email);
    match FirstWhere(db.users, UserEmailIs(email))
    case None =>
      assert forall u :: u in db.users ==> !UserEmailIs(email)(u);
      db.(invitations := invs)
    case Some(u) =>
      var users := Filter(db.users, NotUser(u.id));
      assert EmailsUnique(db.users) ==> forall x :: x in users ==> x.email != email by {
        if EmailsUnique(db.users) {
          forall x | x in users ensures x.email != email {
            assert x.id != u.id;
            var i :| 0 <= i < |db.users| && db.users[i] == x;
            var j :| 0 <= j < |db.users| && db.users[j] == u;
            assert i != j;
          }
        }
      }
      assert EmailsUnique(db.users) ==> forall x :: x in db.users && x.email == email ==> x.id == u.id by {
        if EmailsUnique(db.users) {
          forall x | x in db.users && x.email == email ensures x.id == u.id {
            var i :| 0 <= i < |db.users| && db.users[i] == x;
            var j :| 0 <= j < |db.users| && db.users[j] == u;
            assert i == j;
          }
        }
      }
      var members := Filter(db.members, NotMemberUser(u.id));
      assert forall m :: m in members <==> m in db.members && m.userId != u.id by {
        forall m ensures m in members <==> m in db.members && m.userId != u.id {
          assert NotMemberUser(u.id)(m) <==> m.userId != u.id;
        }
      }
      assert forall x :: x in users <==> x in db.users && x.id != u.id by {
        forall x ensures x in users <==> x in db.users && x.id != u.id {
          assert NotUser(u.id)(x) <==> x.id != u.id;
        }
      }
      db.(users := users, members := members, invitations := invs)
  }

  /** The whole flow (invite, accept, clean up) leaves a consistent store
      exactly as it found it, when the e-mail was not in use before. */
  lemma FlowThenCleanupRestores(db: Db, teamId: int, email: string, role: Role, invitedBy: int, passwordHash: string, now: int)
    requires RefIntegrity(db)
    requires !EmailTaken(db.users, email)
    requires forall i :: i in db.invitations ==> i.email != email
    requires HasTeam(db.teams, teamId) && HasUser(db.users, invitedBy)
    ensures var (d1, inv) := CreateInvitation(db, teamId, email, role, invitedBy, now).value;
      var a := AcceptInvitation(d1, inv.id, email, passwordHash, now);
      a.Ok? && Cleanup(a.value.db, email) == db
  {
    var (d1, inv) := CreateInvitation(db, teamId, email, role, invitedBy, now).value;
    assert inv in d1.invitations && PendingMatch(inv.id, email)(inv);
    assert ValidInvitation(d1, inv.id, email) == Some(inv) by {
      FirstOfAppended(db.invitations, inv, PendingMatch(inv.id, email));
    }
    assert !EmailTaken(d1.users, email);
    var a := AcceptInvitation(d1, inv.id, email, passwordHash, now).value;
    var d2 := a.db;
    CleanupUsers(db, a.user, email);
    CleanupMembers(db, a.user, a.membership);
    CleanupInvitations(db, inv, email);
  }

  lemma CleanupUsers(db: Db, u: User, email: string)
    requires !HasUser(db.users, u.id) && u.email == email
    requires !EmailTaken(db.users, email)
    ensures FirstWhere(db.users + [u], UserEmailIs(email)) == Some(u)
    ensures Filter(db.users + [u], NotUser(u.id)) == db.users
  {
    forall x | x in db.users ensures !UserEmailIs(email)(x) && NotUser(u.id)(x) { }
    FirstOfAppended(db.users, u, UserEmailIs(email));
    FilterDropsAppended(db.users, u, NotUser(u.id));
  }

  lemma CleanupMembers(db: Db, u: User, m: TeamMember)
    requires RefIntegrity(db) && !HasUser(db.users, u.id) && m.userId == u.id
    ensures Filter(db.members + [m], NotMemberUser(u.id)) == db.members
  {
    forall x | x in db.members ensures NotMemberUser(u.id)(x) {
      assert HasUser(db.users, x.userId);
    }
    FilterDropsAppended(db.members, m, NotMemberUser(u.id));
  }

  lemma CleanupInvitations(db: Db, inv: Invitation, email: string)
    requires forall i :: i in db.invitations ==> i.email != email && i.id != inv.id
    requires inv.email == email
    ensures Filter(Map(db.invitations + [inv], MarkAccepted(inv.id)), EmailIsNot(email)) == db.invitations
  {
    var accepted := inv.(status := InviteAccepted);
    assert Map(db.invitations + [inv], MarkAccepted(inv.id)) == db.invitations + [accepted] by {
      var l := Map(db.invitations + [inv], MarkAccepted(inv.id));
      forall k | 0 <= k < |db.invitations|
        ensures l[k] == db.invitations[k]
      {
        assert db.invitations[k] in db.invitations;
      }
    }
    forall x | x in db.invitations ensures EmailIsNot(email)(x) { }
    FilterDropsAppended(db.invitations, accepted, EmailIsNot(email));
  }
}

=== FILE: post_card.dfy ===
/** The decisions of the storefront post card (components/storefront/PostCard.tsx):
    which URLs count as images, the barber's display name and initials, the
    header label, the media area and the caption line. URL parsing is an
    input: `protocolOf` gives a URL's protocol, or `None` when it does not
    parse. Markup and styling are not modelled. */
module PostCard {
  import opened Results
  import opened Seqs
  import opened Strings
  import opened Schema
  import opened Queries

  /** `isValidUrl`: a non-empty string whose protocol is `http:` or `https:`. */
  function IsValidUrl(url: Option<string>, protocolOf: string -> Option<string>): (r: bool)
    ensures url.None? || url == Some("") ==> !r
    ensures r <==> url.Some? && url.value != "" && (protocolOf(url.value) == Some("http:") || protocolOf(url.value) == Some("https:"))
  {
    if url.None? || url.value == "" then false
    else match protocolOf(url.value)
      case None => false
      case Some(p) => p == "http:" || p == "https:"
  }

  const UnknownBarber: string := "Unknown Barber"

  /** `post.barber?.name || 'Unknown Barber'`. */
  function DisplayName(post: FeedPost): (r: string)
    ensures r != ""
    ensures post.barber.Some? && post.barber.value.name.Some? && post.barber.value.name.value != "" ==> r == post.barber.value.name.value
    ensures post.barber.None? || post.barber.value.name.None? || post.barber.value.name == Some("") ==> r == UnknownBarber
  {
    if post.barber.Some? && post.barber.value.name.Some? && post.barber.value.name.value != "" then post.barber.value.name.value
    else UnknownBarber
  }

  /** `parts.map(n => n[0]).join('')`: the first character of each part;
      an empty part contributes nothing, since `undefined` joins as "". */
  function FirstChars(parts: seq<string>): (r: string)
    ensures |r| <= |parts|
    ensures (forall i :: 0 <= i < |parts| ==> parts[i] != "") ==> |r| == |parts| && forall i :: 0 <= i < |parts| ==> r[i] == parts[i][0]
    ensures forall c :: c in r ==> exists i :: 0 <= i < |parts| && parts[i] != "" && parts[i][0] == c
  {
    if parts == [] then ""
    else
      var rest := FirstChars(parts[1..]);
      forall c | c in rest
        ensures exists i :: 0 <= i < |parts| && parts[i] != "" && parts[i][0] == c
      {
        var i :| 0 <= i < |parts[1..]| && parts[1..][i] != "" && parts[1..][i][0] == c;
        assert parts[i + 1] == parts[1..][i];
      }
      if parts[0] == "" then rest else [parts[0][0]] + rest
  }

  predicate NonEmptyWord(w: string) {
    w != ""
  }

  /** The avatar fallback: the upper-cased first letters of the first two
      non-empty space-separated words of the display name. */
  function Initials(name: string): (r: string)
    ensures var words := Filter(Split(name, ' '), NonEmptyWord);
      && |r| == (if |words| < 2 then |words| else 2)
      && forall k :: 0 <= k < |r| ==> words[k] != "" && r[k] == UpperChar(words[k][0])
  {
    var parts := Split(name, ' ');
    var words := Filter(parts, NonEmptyWord);
    var firsts := FirstChars(parts);
    FirstCharsSkipsEmpty(parts);
    forall i | 0 <= i < |words|
      ensures words[i] != ""
    {
      assert words[i] in words;
    }
    var up := ToUpper(firsts);
    Take(up, 2)
  }

  /** Empty words contribute no first character, so only the non-empty
      words are read. */
  lemma {:induction false} FirstCharsSkipsEmpty(parts: seq<string>)
    ensures FirstChars(parts) == FirstChars(Filter(parts, NonEmptyWord))
  {
    if parts != [] {
      FirstCharsSkipsEmpty(parts[1..]);
      if parts[0] != "" {
        var rest := Filter(parts[1..], NonEmptyWord);
        assert ([parts[0]] + rest)[1..] == rest;
      }
    }
  }

  /** Two words give their two initials. */
  lemma TwoWordInitials(first: string, last: string)
    requires first != "" && last != ""
    requires ' ' !in first && ' ' !in last
    ensures Initials(first + " " + last) == [UpperChar(first[0]), UpperChar(last[0])]
  {
    assert first + " " + last == Join([first, last], ' ');
    SplitJoin([first, last], ' ');
    assert FirstChars([first, last]) == [first[0], last[0]];
  }

  /** Extra spaces add empty words, which add no initials. */
  lemma SpacesAddNoInitials(first: string, last: string)
    requires first != "" && last != ""
    requires ' ' !in first && ' ' !in last
    ensures Initials(first + "  " + last) == Initials(first + " " + last)
  {
    TwoWordInitials(first, last);
    assert [first, "", last][1..] == ["", last] && ["", last][1..] == [last];
    assert Join(["", last], ' ') == " " + last;
    assert Join([first, "", last], ' ') == first + " " + ("" + " " + last);
    assert first + " " + ("" + " " + last) == first + "  " + last;
    SplitJoin([first, "", last], ' ');
    assert FirstChars([first, "", last]) == [first[0], last[0]];
  }

  /** What the media area shows. */
  datatype Media = NoMedia | ShowImage(url: string) | Placeholder

  /** The caption line: its bold heading and the caption itself. */
  datatype CaptionLine = CaptionLine(heading: string, text: string)

  datatype Card = Card(header: string, initials: string, media: Media, caption: Option<CaptionLine>)

  function RenderCard(post: FeedPost, protocolOf: string -> Option<string>): (r: Card)
    ensures post.kind == Announcement ==> r.media == NoMedia
    ensures post.kind == Announcement ==> r.header == (if post.title.Some? && post.title.value != "" then post.title.value else "Announcement")
    ensures post.kind == Portfolio ==> r.header == DisplayName(post)
    ensures post.kind == Portfolio ==> (r.media.ShowImage? <==> IsValidUrl(post.imageUrl, protocolOf))
    ensures post.kind == Portfolio ==> r.media != NoMedia
    ensures r.media.ShowImage? ==> Some(r.media.url) == post.imageUrl
    ensures r.caption.Some? <==> post.caption.Some? && post.caption.value != ""
    ensures r.caption.Some? ==>
      && r.caption.value.text == post.caption.value
      && r.caption.value.heading == (if post.kind == Announcement then "Shop Update" else DisplayName(post))
    ensures r.initials == Initials(DisplayName(post))
  {
    var name := DisplayName(post);
    var announcement := post.kind == Announcement;
    var header := if announcement then (if post.title.Some? && post.title.value != "" then post.title.value else "Announcement") else name;
    var media := if announcement then NoMedia else if IsValidUrl(post.imageUrl, protocolOf) then ShowImage(post.imageUrl.value) else Placeholder;
    var caption := if post.caption.Some? && post.caption.value != "" then Some(CaptionLine(if announcement then "Shop Update" else name, post.caption.value)) else None;
    Card(header, Initials(name), media, caption)
  }
}

=== FILE: posts.dfy ===
/** Post actions of lib/actions/posts.ts: the staff guard, `createPost` with
    its two-branch validation, `uploadImage` with its file normalisation and
    checks, and `deletePost` with its ownership rule. The signed-in user is
    an input (what `getUser` returned); the team comes from `getTeamForUser`
    over the same store. */
module Posts {
  import opened Results
  import opened Seqs
  import opened Strings
  import opened Schema
  import opened Store
  import opened Queries
  import opened Storage

  // ---------------------------------------------------------------------
  // The staff guard
  // ---------------------------------------------------------------------

  datatype StaffError = SignedOut | NotStaff | NoTeam

  predicate IsStaff(u: User) {
    u.role == Owner || u.role == Barber
  }

  /** Signed in, then owner or barber, then a member of some team. */
  function RequireStaff(caller: Option<User>, db: Db): (r: Result<(User, TeamDetail), StaffError>)
    ensures caller.None? ==> r == Err(SignedOut)
    ensures caller.Some? && !IsStaff(caller.value) ==> r == Err(NotStaff)
    ensures caller.Some? && IsStaff(caller.value) ==> (r.Err? <==> GetTeamForUser(caller, db).None?)
    ensures r.Err? && r.error == NoTeam ==> caller.Some? && IsStaff(caller.value)
    ensures r.Ok? ==> r.value.0 == caller.value && GetTeamForUser(caller, db) == Some(r.value.1)
  {
    if caller.None? then Err(SignedOut)
    else if !IsStaff(caller.value) then Err(NotStaff)
    else match GetTeamForUser(caller, db)
      case None => Err(NoTeam)
      case Some(t) => Ok((caller.value, t))
  }

  const SignedOutMessage: string := "Unauthorized: You must be logged in"
  const NoTeamMessage: string := "Team not found"

  function StaffMessage(e: StaffError, forbidden: string): string {
    match e
    case SignedOut => SignedOutMessage
    case NotStaff => forbidden
    case NoTeam => NoTeamMessage
  }

  // ---------------------------------------------------------------------
  // createPost
  // ---------------------------------------------------------------------

  /** The form as submitted; absent optional fields are `None`. `kind` is
      the raw `type` string. */
  datatype PostInput = PostInput(kind: string, title: Option<string>, imageUrl: Option<string>, caption: Option<string>)

  datatype ValidPost = ValidPost(kind: PostType, title: Option<string>, imageUrl: Option<string>, caption: Option<string>)

  const InvalidInput: string := "Invalid input"
  const NeedImage: string := "Please upload an image"
  const NeedTitle: string := "Title is required for announcements"

  /** The union of the portfolio and announcement schemas. A branch whose
      `type` literal matches and whose required field is present but empty
      reports that field's own message; a required field that is absent, or
      an unknown type, fails both branches outright and reports the union's
      generic message. */
  function ValidatePost(input: PostInput): (r: Result<ValidPost, string>)
    ensures r.Ok? <==>
      || (input.kind == "portfolio" && input.imageUrl.Some? && input.imageUrl.value != "")
      || (input.kind == "announcement" && input.title.Some? && input.title.value != "")
    ensures r.Ok? ==>
      && r.value.title == input.title && r.value.imageUrl == input.imageUrl && r.value.caption == input.caption
      && (r.value.kind == Portfolio <==> input.kind == "portfolio")
    ensures input.kind == "portfolio" && input.imageUrl == Some("") ==> r == Err(NeedImage)
    ensures input.kind == "announcement" && input.title == Some("") ==> r == Err(NeedTitle)
    ensures r.Err? ==> r.error in {InvalidInput, NeedImage, NeedTitle}
  {
    if input.kind == "portfolio" then
      if input.imageUrl.None? then Err(InvalidInput)
      else if input.imageUrl.value == "" then Err(NeedImage)
      else Ok(ValidPost(Portfolio, input.title, input.imageUrl, input.caption))
    else if input.kind == "announcement" then
      if input.title.None? then Err(InvalidInput)
      else if input.title.value == "" then Err(NeedTitle)
      else Ok(ValidPost(Announcement, input.title, input.imageUrl, input.caption))
    else Err(InvalidInput)
  }

  /** `value || null` on an optional string: empty and absent both become null. */
  function NonEmpty(s: Option<string>): (r: Option<string>)
    ensures r.Some? <==> s.Some? && s.value != ""
    ensures r.Some? ==> r == s
  {
    if s.Some? && s.value != "" then s else None
  }

  /** What every stored post satisfies: a portfolio post has an image and an
      announcement has a title. */
  predicate PostShapeOk(p: Post) {
    && (p.kind == Portfolio ==> p.imageUrl.Some? && p.imageUrl.value != "")
    && (p.kind == Announcement ==> p.title.Some? && p.title.value != "")
  }

  /** The barber a post is credited to: none for an owner's shop-level post,
      the author for a barber. */
  function PostBarberFor(u: User): (r: Option<int>)
    ensures u.role == Owner ==> r.None?
    ensures u.role != Owner ==> r == Some(u.id)
  {
    if u.role == Owner then None else Some(u.id)
  }

  /** `createPost`: the guard, then validation, then one inserted row. */
  function CreatePost(caller: Option<User>, db: Db, input: PostInput, now: int): (r: Result<Db, string>)
    ensures caller.None? ==> r == Err(SignedOutMessage)
    ensures caller.Some? && !IsStaff(caller.value) ==> r == Err("Forbidden: Only owners and barbers can create posts")
    ensures RequireStaff(caller, db).Err? ==> r.Err? && r.error != InvalidInput && r.error != NeedImage && r.error != NeedTitle
    ensures RequireStaff(caller, db).Ok? ==> (r.Err? <==> ValidatePost(input).Err?)
    ensures RequireStaff(caller, db).Err? ==>
      r == Err(StaffMessage(RequireStaff(caller, db).error, "Forbidden: Only owners and barbers can create posts"))
    ensures RequireStaff(caller, db).Ok? && ValidatePost(input).Err? ==> r == Err(ValidatePost(input).error)
    ensures r.Ok? ==> var team := RequireStaff(caller, db).value.1.team; var v := ValidatePost(input).value;
      exists p ::
        && r.value == db.(posts := db.posts + [p])
        && (forall q :: q in db.posts ==> q.id != p.id)
        && p.teamId == team.id && p.kind == v.kind && p.barberId == PostBarberFor(caller.value)
        && p.title == NonEmpty(input.title) && p.imageUrl == NonEmpty(input.imageUrl) && p.caption == NonEmpty(input.caption)
        && p.createdAt == now && PostShapeOk(p)
  {
    match RequireStaff(caller, db)
    case Err(e) => Err(StaffMessage(e, "Forbidden: Only owners and barbers can create posts"))
    case Ok((user, detail)) =>
      var v :- ValidatePost(input);
      var p := Post(NextId(db.posts, PostKey), detail.team.id, PostBarberFor(user), v.kind,
                    NonEmpty(v.title), NonEmpty(v.imageUrl), NonEmpty(v.caption), now);
      assert forall q :: q in db.posts ==> q.id != p.id by {
        assert forall q :: q in db.posts ==> PostKey(q) < p.id;
      }
      Ok(db.(posts := db.posts + [p]))
  }

  /** A created post appears on its shop's page and in the public feed. */
  lemma CreatedPostIsListed(caller: Option<User>, db: Db, input: PostInput, now: int)
    requires CreatePost(caller, db, input, now).Ok?
    ensures var d' := CreatePost(caller, db, input, now).value;
      exists p :: p in d'.posts && p !in db.posts
        && FeedViewer(d'.users)(p) in GetTeamPosts(d', RequireStaff(caller, db).value.1.team.id)
        && FeedViewer(d'.users)(p) in GetPublicFeed(d')
  {
    var d' := CreatePost(caller, db, input, now).value;
    var t := RequireStaff(caller, db).value.1.team.id;
    var p :| d' == db.(posts := db.posts + [p]) && (forall q :: q in db.posts ==> q.id != p.id) && p.teamId == t;
    assert p in d'.posts && p !in db.posts;
    assert FeedViewer(d'.users)(p) in GetTeamPosts(d', t);
    assert FeedViewer(d'.users)(p) in GetPublicFeed(d');
  }

  /** The new row's foreign keys hold when the author is a stored user. */
  lemma CreatePostKeepsIntegrity(caller: Option<User>, db: Db, input: PostInput, now: int)
    requires CreatePost(caller, db, input, now).Ok?
    requires RefIntegrity(db) && caller.Some? && caller.value in db.users
    ensures RefIntegrity(CreatePost(caller, db, input, now).value)
  {
    var d' := CreatePost(caller, db, input, now).value;
    var team := RequireStaff(caller, db).value.1.team;
    var p :| d' == db.(posts := db.posts + [p]) && p.teamId == team.id && p.barberId == PostBarberFor(caller.value);
    assert team in db.teams;
    assert HasTeam(d'.teams, p.teamId);
    assert MaybeUser(d'.users, p.barberId);
  }

  // ---------------------------------------------------------------------
  // uploadImage
  // ---------------------------------------------------------------------

  /** The `data` member of a serialized payload. */
  datatype Payload = Uint8Payload(byteLength: nat) | ArrayPayload(length: nat) | OtherPayload

  /** The incoming `file` value. `hasArrayBuffer` says whether it is a
      browser file (it has an `arrayBuffer()` method); an absent name or
      type is "", an absent size is 0. */
  datatype RawFile = RawFile(hasArrayBuffer: bool, name: string, mime: string, size: int, data: Option<Payload>)

  datatype NormalizedFile = NormalizedFile(name: string, mime: string, size: int)

  const AllowedImageTypes: seq<string> := ["image/jpeg", "image/jpg", "image/png", "image/webp"]

  /** 10 MiB. */
  const MaxImageBytes: int := 10 * 1024 * 1024

  predicate AllowedImageType(mime: string) {
    ToLower(mime) in AllowedImageTypes
  }

  function OrDefault(s: string, d: string): (r: string)
    ensures r != "" || d == ""
  {
    if s == "" then d else s
  }

  /** One shape: a browser file keeps its declared size and type; a byte
      payload is measured by its length and its type is lower-cased; any
      other shape is rejected. Names default to `file.jpg` and types to
      `application/octet-stream`. */
  function Normalize(f: RawFile): (r: Option<NormalizedFile>)
    ensures r.None? <==> !f.hasArrayBuffer && (f.data.None? || f.data.value.OtherPayload?)
    ensures r.Some? ==> r.value.name != "" && r.value.mime != ""
    ensures r.Some? ==> r.value.name == OrDefault(f.name, "file.jpg")
    ensures f.hasArrayBuffer ==> r == Some(NormalizedFile(OrDefault(f.name, "file.jpg"), OrDefault(f.mime, "application/octet-stream"), f.size))
    ensures !f.hasArrayBuffer && r.Some? ==>
      && r.value.mime == ToLower(OrDefault(f.mime, "application/octet-stream"))
      && r.value.size == (if f.data.value.Uint8Payload? then f.data.value.byteLength else f.data.value.length)
  {
    var name := OrDefault(f.name, "file.jpg");
    var mime := OrDefault(f.mime, "application/octet-stream");
    if f.hasArrayBuffer then Some(NormalizedFile(name, mime, f.size))
    else match f.data
      case Some(Uint8Payload(n)) => Some(NormalizedFile(name, ToLower(mime), n))
      case Some(ArrayPayload(n)) => Some(NormalizedFile(name, ToLower(mime), n))
      case _ => None
  }

  const NoFileMessage: string := "No image file detected in the request."
  const UnsupportedMessage: string := "Unsupported format. Use JPEG, PNG, or WebP."
  const TooLargeMessage: string := "File too large. Maximum size is 10MB."

  /** The type check, then the size check. */
  function CheckImage(mime: string, size: int): (r: Option<string>)
    ensures r.None? <==> AllowedImageType(mime) && size <= MaxImageBytes
    ensures !AllowedImageType(mime) ==> r == Some(UnsupportedMessage)
    ensures AllowedImageType(mime) && size > MaxImageBytes ==> r == Some(TooLargeMessage)
  {
    if !AllowedImageType(mime) then Some(UnsupportedMessage)
    else if size > MaxImageBytes then Some(TooLargeMessage)
    else None
  }

  /** `uploadImage`: the public URL of the stored image or an error message.
      The storage outcome (`storageError`) and the UUID are inputs. */
  function UploadImage(caller: Option<User>, db: Db, file: Option<RawFile>, c: Credentials, uuid: string, storageError: Option<string>): (r: Result<string, string>)
    ensures RequireStaff(caller, db).Err? ==>
      r == Err(StaffMessage(RequireStaff(caller, db).error, "Forbidden: Only owners and barbers can upload images"))
    ensures RequireStaff(caller, db).Ok? && (file.None? || Normalize(file.value).None?) ==> r == Err(NoFileMessage)
    ensures RequireStaff(caller, db).Ok? && file.Some? && Normalize(file.value).Some? ==>
      var nf := Normalize(file.value).value;
      && (CheckImage(nf.mime, nf.size).Some? ==> r == Err(CheckImage(nf.mime, nf.size).value))
      && (CheckImage(nf.mime, nf.size).None? ==>
            var stored := UploadPortfolioImage(c, nf.name, RequireStaff(caller, db).value.1.team.id, uuid, storageError);
            && (stored.Ok? ==> r == stored)
            && (stored.Err? ==> r == Err("Failed to upload image. " + stored.error)))
    ensures r.Ok? ==> storageError.None? && Configured(c)
  {
    match RequireStaff(caller, db)
    case Err(e) => Err(StaffMessage(e, "Forbidden: Only owners and barbers can upload images"))
    case Ok((_, detail)) =>
      if file.None? then Err(NoFileMessage)
      else match Normalize(file.value)
        case None => Err(NoFileMessage)
        case Some(nf) =>
          match CheckImage(nf.mime, nf.size)
          case Some(m) => Err(m)
          case None =>
            match UploadPortfolioImage(c, nf.name, detail.team.id, uuid, storageError)
            case Ok(url) => Ok(url)
            case Err(m) => Err("Failed to upload image. " + m)
  }

  lemma LowerUpper(s: string)
    ensures ToLower(ToUpper(s)) == ToLower(s)
  {
  }

  /** The type check ignores case: "IMAGE/PNG" passes like "image/png". */
  lemma ImageTypeIgnoresCase(mime: string)
    ensures AllowedImageType(ToUpper(mime)) <==> AllowedImageType(mime)
  {
    LowerUpper(mime);
  }

  /** The bound is inclusive: an allowed image of exactly 10 MiB passes and
      one byte more does not. */
  lemma SizeBoundIsInclusive(mime: string)
    requires AllowedImageType(mime)
    ensures CheckImage(mime, MaxImageBytes).None?
    ensures CheckImage(mime, MaxImageBytes + 1) == Some(TooLargeMessage)
  {
  }

  // ---------------------------------------------------------------------
  // deletePost
  // ---------------------------------------------------------------------

  function PostOfTeam(postId: int, teamId: int): Post -> bool {
    (p: Post) => p.id == postId && p.teamId == teamId
  }

  /** The row the action deletes and the image URL it asks storage to remove
      first (`None` when the post has no image). The storage outcome does
      not appear: the row is deleted whatever it is. */
  datatype PostDeletion = PostDeletion(db: Db, image: Option<string>)

  const NotFoundMessage: string := "Post not found or you do not have permission to delete it"
  const NotYoursMessage: string := "You can only delete your own posts"

  /** `deletePost`: signed in, then a team (no role check), then a post with
      that id in the caller's team, then, for barbers only, authorship. */
  function DeletePost(caller: Option<User>, db: Db, postId: int): (r: Result<PostDeletion, string>)
    ensures caller.None? ==> r == Err(SignedOutMessage)
    ensures caller.Some? && GetTeamForUser(caller, db).None? ==> r == Err(NoTeamMessage)
    ensures caller.Some? && GetTeamForUser(caller, db).Some? ==>
      var teamId := GetTeamForUser(caller, db).value.team.id;
      && ((forall p :: p in db.posts ==> !(p.id == postId && p.teamId == teamId)) ==> r == Err(NotFoundMessage))
      && (r.Ok? ==> exists p ::
            && p in db.posts && p.id == postId && p.teamId == teamId
            && (caller.value.role == Barber ==> p.barberId == Some(caller.value.id))
            && r.value.image == NonEmpty(p.imageUrl))
    ensures r.Ok? ==> r.value.db == db.(posts := Filter(db.posts, KeyIsNot(PostKey, postId)))
    ensures r.Err? && r.error == NotYoursMessage ==> caller.Some? && caller.value.role == Barber
    ensures caller.Some? && GetTeamForUser(caller, db).Some? ==>
      var found := FirstWhere(db.posts, PostOfTeam(postId, GetTeamForUser(caller, db).value.team.id));
      found.Some? ==> (r.Ok? <==> caller.value.role != Barber || found.value.barberId == Some(caller.value.id))
  {
    if caller.None? then Err(SignedOutMessage)
    else match GetTeamForUser(caller, db)
      case None => Err(NoTeamMessage)
      case Some(detail) =>
        match FirstWhere(db.posts, PostOfTeam(postId, detail.team.id))
        case None =>
          assert forall p :: p in db.posts ==> !PostOfTeam(postId, detail.team.id)(p);
          Err(NotFoundMessage)
        case Some(post) =>
          if caller.value.role == Barber && post.barberId != Some(caller.value.id) then Err(NotYoursMessage)
          else Ok(PostDeletion(db.(posts := Filter(db.posts, KeyIsNot(PostKey, postId))), NonEmpty(post.imageUrl)))
  }

  /** A deleted post is gone from its shop's page and every other post stays;
      no foreign key breaks, since nothing references a post. */
  lemma DeletedPostLeavesOthers(caller: Option<User>, db: Db, postId: int)
    requires DeletePost(caller, db, postId).Ok?
    ensures var d' := DeletePost(caller, db, postId).value.db;
      && (forall p :: p in d'.posts <==> p in db.posts && p.id != postId)
      && (RefIntegrity(db) ==> RefIntegrity(d'))
  {
    var d' := DeletePost(caller, db, postId).value.db;
    forall p | p in db.posts
      ensures p in d'.posts <==> p.id != postId
    {
      assert PostKey(p) == p.id;
    }
  }

  /** Only barbers are held to authorship: an owner, or a member of any
      other role, may delete any post of the team. */
  lemma NonBarbersDeleteAnyTeamPost(caller: Option<User>, db: Db, p: Post)
    requires caller.Some? && caller.value.role != Barber
    requires GetTeamForUser(caller, db).Some? && p in db.posts && p.teamId == GetTeamForUser(caller, db).value.team.id
    ensures DeletePost(caller, db, p.id).Ok?
  {
    assert PostOfTeam(p.id, p.teamId)(p);
  }

  /** A barber may delete a post credited to them: the authorship check
      refuses only another barber's post. Post ids are the primary key, so
      the lookup finds this post. */
  lemma BarberDeletesOwnPost(caller: Option<User>, db: Db, p: Post)
    requires caller.Some? && caller.value.role == Barber
    requires GetTeamForUser(caller, db).Some? && p in db.posts && p.teamId == GetTeamForUser(caller, db).value.team.id
    requires p.barberId == Some(caller.value.id)
    requires forall q :: q in db.posts && q.id == p.id ==> q == p
    ensures DeletePost(caller, db, p.id).Ok?
  {
    var found := FirstWhere(db.posts, PostOfTeam(p.id, p.teamId));
    assert PostOfTeam(p.id, p.teamId)(p);
    assert found == Some(p);
  }
}

=== FILE: queries.dfy ===
/** Read queries and the one subscription update of lib/db/queries.ts, and
    the pending-invitations endpoint of app/api/invitations/route.ts. The
    session cookie, the clock and the token verifier are inputs. */
module Queries {
  import opened Results
  import opened Seqs
  import opened Sorting
  import opened Schema

  // ---------------------------------------------------------------------
  // getUser
  // ---------------------------------------------------------------------

  /** The `user.id` claim of a session token: JavaScript's `typeof` either
      says 'number' or it does not. */
  datatype ClaimId = NumericId(n: int) | NonNumericId

  /** A verified token's payload. `expires` is `None` when it does not parse
      as a date; such a date is never "before now". */
  datatype SessionData = SessionData(user: Option<ClaimId>, expires: Option<int>)

  predicate Expired(s: SessionData, now: int) {
    s.expires.Some? && s.expires.value < now
  }

  function LiveWithId(id: int): User -> bool {
    (u: User) => u.id == id && IsLive(u)
  }

  /** `WHERE id = ? AND deleted_at IS NULL LIMIT 1`. */
  function FindLiveUser(users: seq<User>, id: int): (r: Option<User>)
    ensures r.Some? ==> r.value in users && r.value.id == id && IsLive(r.value)
    ensures r.None? <==> forall u :: u in users ==> !(u.id == id && IsLive(u))
  {
    var found := Filter(users, LiveWithId(id));
    if found == [] then
      forall u | u in users ensures !(u.id == id && IsLive(u)) {
        assert u !in found;
      }
      None
    else
      assert found[0] in found;
      Some(found[0])
  }

  /** The signed-in user, or `None` when the cookie is missing or empty, the
      token does not verify, it carries no numeric user id, it has expired,
      or no live user has that id. */
  function GetUser(cookie: Option<string>, verify: string -> Option<SessionData>, now: int, users: seq<User>): (r: Option<User>)
    ensures cookie.None? || cookie.value == "" ==> r.None?
    ensures cookie.Some? && cookie.value != "" ==>
      var s := verify(cookie.value);
      && (s.None? || s.value.user.None? || s.value.user.value.NonNumericId? ==> r.None?)
      && (s.Some? && s.value.user.Some? && s.value.user.value.NumericId? ==>
            (Expired(s.value, now) ==> r.None?)
            && (!Expired(s.value, now) ==>
                  (r.Some? <==> exists u :: u in users && u.id == s.value.user.value.n && IsLive(u))))
    ensures r.Some? ==> r.value in users && IsLive(r.value)
    ensures r.Some? ==>
      && cookie.Some? && verify(cookie.value).Some?
      && verify(cookie.value).value.user.Some? && verify(cookie.value).value.user.value.NumericId?
      && !Expired(verify(cookie.value).value, now)
      && r.value.id == verify(cookie.value).value.user.value.n
  {
    if cookie.None? || cookie.value == "" then None
    else
      var s := verify(cookie.value);
      if s.None? || s.value.user.None? || s.value.user.value.NonNumericId? then None
      else if Expired(s.value, now) then None
      else FindLiveUser(users, s.value.user.value.n)
  }

  /** Only an unexpired session can sign anyone in: at any later time than
      its expiry the same cookie gives `None`. */
  lemma ExpiredSessionSignsNobodyIn(cookie: string, verify: string -> Option<SessionData>, now: int, users: seq<User>)
    requires cookie != "" && verify(cookie).Some? && verify(cookie).value.expires.Some?
    requires verify(cookie).value.expires.value < now
    ensures GetUser(Some(cookie), verify, now, users).None?
  {
  }

  /** Soft deletion signs a user out: once `deletedAt` is set, no session
      resolves to them. */
  lemma SoftDeletedUserIsSignedOut(cookie: Option<string>, verify: string -> Option<SessionData>, now: int, users: seq<User>, i: nat, at: int)
    requires i < |users|
    requires forall j :: 0 <= j < |users| && j != i ==> users[j].id != users[i].id
    ensures var users' := users[i := users[i].(deletedAt := Some(at))];
      GetUser(cookie, verify, now, users').Some? ==> GetUser(cookie, verify, now, users').value.id != users[i].id
  {
    var users' := users[i := users[i].(deletedAt := Some(at))];
    var r := GetUser(cookie, verify, now, users');
    if r.Some? {
      var k :| 0 <= k < |users'| && users'[k] == r.value;
      assert k != i;
    }
  }

  // ---------------------------------------------------------------------
  // getUserWithTeam and the pending-invitations endpoint
  // ---------------------------------------------------------------------

  datatype UserWithTeam = UserWithTeam(user: User, teamId: Option<int>)

  function FirstWhere<T(!new)>(rows: seq<T>, keep: T -> bool): (r: Option<T>)
    ensures r.Some? ==> r.value in rows && keep(r.value)
    ensures r.None? ==> forall x :: x in rows ==> !keep(x)
  {
    var found := Filter(rows, keep);
    if found == [] then
      assert forall x :: x in rows ==> x !in found;
      None
    else
      assert found[0] in found;
      Some(found[0])
  }

  /** A new row that alone passes the filter is the filter's first match. */
  lemma FirstOfAppended<T(!new)>(s: seq<T>, x: T, p: T -> bool)
    requires forall y :: y in s ==> !p(y)
    requires p(x)
    ensures FirstWhere(s + [x], p) == Some(x)
  {
    FilterAppend(s, [x], p);
    FilterNone(s, p);
    assert Filter([x], p) == [x];
  }

  /** Applying a map that keeps the predicate moves the first match along. */
  lemma FirstWhereMap<T(!new)>(s: seq<T>, f: T -> T, p: T -> bool)
    requires forall x :: p(f(x)) == p(x)
    ensures FirstWhere(Map(s, f), p) == if FirstWhere(s, p).Some? then Some(f(FirstWhere(s, p).value)) else None
  {
    FilterMap(s, f, p);
  }

  function UserEmailIs(email: string): User -> bool {
    (u: User) => u.email == email
  }

  function UserIdIs(id: int): User -> bool {
    (u: User) => u.id == id
  }

  function MemberOf(id: int): TeamMember -> bool {
    (m: TeamMember) => m.userId == id
  }

  /** `users LEFT JOIN team_members ... LIMIT 1`: the user with the team of
      one of its memberships, or no team when it has none. Soft-deleted
      users are not filtered out here. */
  function GetUserWithTeam(db: Db, userId: int): (r: Option<UserWithTeam>)
    ensures r.None? <==> !HasUser(db.users, userId)
    ensures r.Some? ==> r.value.user in db.users && r.value.user.id == userId
    ensures r.Some? ==> (r.value.teamId.None? <==> forall m :: m in db.members ==> m.userId != userId)
    ensures r.Some? && r.value.teamId.Some? ==> exists m :: m in db.members && m.userId == userId && m.teamId == r.value.teamId.value
  {
    match FirstWhere(db.users, UserIdIs(userId))
    case None =>
      forall u | u in db.users ensures u.id != userId {
        assert !UserIdIs(userId)(u);
      }
      None
    case Some(u) =>
      var m := FirstWhere(db.members, MemberOf(userId));
      if m.None? then
        forall x | x in db.members ensures x.userId != userId {
          assert !MemberOf(userId)(x);
        }
        Some(UserWithTeam(u, None))
      else
        Some(UserWithTeam(u, Some(m.value.teamId)))
  }

  datatype HttpError = HttpError(status: int, message: string)

  function PendingIn(teamId: int): Invitation -> bool {
    (i: Invitation) => i.teamId == teamId && i.status == InvitePending
  }

  function InvitedAt(i: Invitation): int { i.invitedAt }

  /** `GET /api/invitations`: 401 when signed out, 400 when the caller has
      no team (a team id of 0 counts as none), otherwise the team's pending
      invitations, oldest first. */
  function PendingInvitations(caller: Option<User>, db: Db): (r: Result<seq<Invitation>, HttpError>)
    ensures caller.None? ==> r == Err(HttpError(401, "Unauthorized"))
    ensures caller.Some? ==> var uwt := GetUserWithTeam(db, caller.value.id);
      && (uwt.None? || uwt.value.teamId.None? || uwt.value.teamId.value == 0 ==> r == Err(HttpError(400, "User is not part of a team")))
      && (r.Ok? ==>
            && uwt.Some? && uwt.value.teamId.Some? && uwt.value.teamId.value != 0
            && Sorted(r.value, ByKey(InvitedAt))
            && multiset(r.value) == multiset(Filter(db.invitations, PendingIn(uwt.value.teamId.value)))
            && |r.value| == |Filter(db.invitations, PendingIn(uwt.value.teamId.value))|
            && forall i :: i in r.value <==> i in db.invitations && i.teamId == uwt.value.teamId.value && i.status == InvitePending)
    ensures caller.Some? ==> var uwt := GetUserWithTeam(db, caller.value.id);
      uwt.Some? && uwt.value.teamId.Some? && uwt.value.teamId.value != 0 ==> r.Ok?
    ensures r.Err? ==> r.error.status in {400, 401}
  {
    if caller.None? then Err(HttpError(401, "Unauthorized"))
    else
      var uwt := GetUserWithTeam(db, caller.value.id);
      if uwt.None? || uwt.value.teamId.None? || uwt.value.teamId.value == 0 then Err(HttpError(400, "User is not part of a team"))
      else
        var t := uwt.value.teamId.value;
        ByKeyIsTotal(InvitedAt);
        var r := OrderedView(db.invitations, PendingIn(t), (i: Invitation) => i, ByKey(InvitedAt));
        assert Map(Filter(db.invitations, PendingIn(t)), (i: Invitation) => i) == Filter(db.invitations, PendingIn(t));
        assert forall i :: i in db.invitations ==> (PendingIn(t)(i) <==> i.teamId == t && i.status == InvitePending);
        Ok(r)
  }

  // ---------------------------------------------------------------------
  // getActivityLogs
  // ---------------------------------------------------------------------

  /** The columns `getActivityLogs` selects, with the author's name from the
      left join (absent when no user has the log's user id). */
  datatype LogView = LogView(id: int, action: string, timestamp: int, userName: Option<string>)

  function NameOf(users: seq<User>, id: Option<int>): Option<string> {
    if id.None? then None
    else match FirstWhere(users, UserIdIs(id.value))
      case None => None
      case Some(u) => u.name
  }

  function LogViewer(users: seq<User>): ActivityLog -> LogView {
    (l: ActivityLog) => LogView(l.id, l.action, l.timestamp, NameOf(users, l.userId))
  }

  function LoggedBy(id: int): ActivityLog -> bool {
    (l: ActivityLog) => l.userId == Some(id)
  }

  function ViewTime(v: LogView): int { v.timestamp }

  const ActivityPageSize: nat := 10

  /** The caller's ten newest activity entries. */
  function GetActivityLogs(caller: Option<User>, db: Db): (r: Result<seq<LogView>, string>)
    ensures r.Err? <==> caller.None?
    ensures r.Err? ==> r.error == "User not authenticated"
    ensures r.Ok? ==> var mine := Filter(db.logs, LoggedBy(caller.value.id));
      && |r.value| == (if |mine| < ActivityPageSize then |mine| else ActivityPageSize)
      && multiset(r.value) <= multiset(Map(mine, LogViewer(db.users)))
    ensures r.Ok? ==> Sorted(r.value, ByKeyDesc(ViewTime))
    ensures r.Ok? ==> forall v :: v in r.value ==> exists l :: l in db.logs && l.userId == Some(caller.value.id) && LogViewer(db.users)(l) == v
    ensures r.Ok? ==> forall l :: l in db.logs && l.userId == Some(caller.value.id) && LogViewer(db.users)(l) !in r.value ==>
      |r.value| == ActivityPageSize && forall v :: v in r.value ==> v.timestamp >= l.timestamp
  {
    if caller.None? then Err("User not authenticated")
    else
      var id := caller.value.id;
      ByKeyIsTotal(ViewTime);
      var all := OrderedView(db.logs, LoggedBy(id), LogViewer(db.users), ByKeyDesc(ViewTime));
      var page := Take(all, ActivityPageSize);
      PageHoldsNewest(all, db.logs, LoggedBy(id), LogViewer(db.users));
      forall v | v in page
        ensures exists l :: l in db.logs && l.userId == Some(id) && LogViewer(db.users)(l) == v
      {
        assert v in all;
        var l :| l in db.logs && LoggedBy(id)(l) && LogViewer(db.users)(l) == v;
      }
      forall l | l in db.logs && l.userId == Some(id) && LogViewer(db.users)(l) !in page
        ensures |page| == ActivityPageSize && forall v :: v in page ==> v.timestamp >= l.timestamp
      {
        assert LoggedBy(id)(l);
        assert LogViewer(db.users)(l).timestamp == l.timestamp;
      }
      Ok(page)
  }

  /** `ORDER BY desc(timestamp) LIMIT 10` returns the newest rows: a view
      that did not make the page is no newer than any view on it, and is
      only left out when the page is full. */
  lemma PageHoldsNewest(all: seq<LogView>, logs: seq<ActivityLog>, keep: ActivityLog -> bool, view: ActivityLog -> LogView)
    requires Sorted(all, ByKeyDesc(ViewTime))
    requires forall v :: v in all <==> exists x :: x in logs && keep(x) && view(x) == v
    ensures var page := Take(all, ActivityPageSize);
      forall x :: x in logs && keep(x) && view(x) !in page ==>
        |page| == ActivityPageSize && forall v :: v in page ==> ViewTime(v) >= ViewTime(view(x))
  {
    var page := Take(all, ActivityPageSize);
    if |all| <= ActivityPageSize {
      assert page == all;
    } else {
      PrefixIsFirst(all, ActivityPageSize, ByKeyDesc(ViewTime));
      assert all == page + all[ActivityPageSize..];
      forall x | x in logs && keep(x) && view(x) !in page
        ensures forall v :: v in page ==> ViewTime(v) >= ViewTime(view(x))
      {
        assert view(x) in all;
        assert view(x) in all[ActivityPageSize..];
        forall v | v in page
          ensures ViewTime(v) >= ViewTime(view(x))
        {
          assert ByKeyDesc(ViewTime)(v, view(x));
        }
      }
    }
  }

  // ---------------------------------------------------------------------
  // Public feed and team posts
  // ---------------------------------------------------------------------

  datatype BarberView = BarberView(id: int, name: Option<string>, avatarUrl: Option<string>)

  /** One feed entry: the post's columns with its barber from the left join. */
  datatype FeedPost = FeedPost(
    id: int,
    kind: PostType,
    title: Option<string>,
    imageUrl: Option<string>,
    caption: Option<string>,
    createdAt: int,
    barber: Option<BarberView>)

  function BarberOf(users: seq<User>, id: Option<int>): (r: Option<BarberView>)
    ensures r.Some? <==> id.Some? && HasUser(users, id.value)
    ensures r.Some? ==> r.value.id == id.value
  {
    if id.None? then None
    else match FirstWhere(users, UserIdIs(id.value))
      case None =>
        assert forall u :: u in users ==> !UserIdIs(id.value)(u);
        None
      case Some(u) => Some(BarberView(u.id, u.name, u.avatarUrl))
  }

  function FeedViewer(users: seq<User>): Post -> FeedPost {
    (p: Post) => FeedPost(p.id, p.kind, p.title, p.imageUrl, p.caption, p.createdAt, BarberOf(users, p.barberId))
  }

  function FeedCreated(f: FeedPost): int { f.createdAt }

  function AnyPost(p: Post): bool { true }

  /** Every post of every shop, newest first. */
  function GetPublicFeed(db: Db): (r: seq<FeedPost>)
    ensures Sorted(r, ByKeyDesc(FeedCreated))
    ensures |r| == |db.posts|
    ensures multiset(r) == multiset(Map(db.posts, FeedViewer(db.users)))
    ensures forall f :: f in r <==> exists p :: p in db.posts && FeedViewer(db.users)(p) == f
  {
    ByKeyIsTotal(FeedCreated);
    FilterAll(db.posts, AnyPost);
    OrderedView(db.posts, AnyPost, FeedViewer(db.users), ByKeyDesc(FeedCreated))
  }

  function PostIn(teamId: int): Post -> bool {
    (p: Post) => p.teamId == teamId
  }

  /** One shop's posts, newest first. */
  function GetTeamPosts(db: Db, teamId: int): (r: seq<FeedPost>)
    ensures Sorted(r, ByKeyDesc(FeedCreated))
    ensures |r| == |Filter(db.posts, PostIn(teamId))|
    ensures multiset(r) == multiset(Map(Filter(db.posts, PostIn(teamId)), FeedViewer(db.users)))
    ensures forall f :: f in r <==> exists p :: p in db.posts && p.teamId == teamId && FeedViewer(db.users)(p) == f
  {
    ByKeyIsTotal(FeedCreated);
    var r := OrderedView(db.posts, PostIn(teamId), FeedViewer(db.users), ByKeyDesc(FeedCreated));
    assert forall p :: p in db.posts ==> (PostIn(teamId)(p) <==> p.teamId == teamId);
    r
  }

  /** A shop's page shows a subset of the public feed. */
  lemma TeamPostsAreInFeed(db: Db, teamId: int)
    ensures forall f :: f in GetTeamPosts(db, teamId) ==> f in GetPublicFeed(db)
  {
  }

  // ---------------------------------------------------------------------
  // getTeamForUser, getTeamByStripeCustomerId, updateTeamSubscription
  // ---------------------------------------------------------------------

  datatype UserBrief = UserBrief(id: int, name: Option<string>, email: string)
  datatype MemberDetail = MemberDetail(member: TeamMember, user: Option<UserBrief>)
  datatype TeamDetail = TeamDetail(team: Team, members: seq<MemberDetail>)

  function BriefOf(users: seq<User>): TeamMember -> MemberDetail {
    (m: TeamMember) =>
      MemberDetail(m, match FirstWhere(users, UserIdIs(m.userId))
        case None => None
        case Some(u) => Some(UserBrief(u.id, u.name, u.email)))
  }

  function TeamIdIs(id: int): Team -> bool {
    (t: Team) => t.id == id
  }

  function MemberTeamIs(id: int): TeamMember -> bool {
    (m: TeamMember) => m.teamId == id
  }

  /** The team of the caller's first membership with all of its members, or
      `None` when signed out or without a membership. */
  function GetTeamForUser(caller: Option<User>, db: Db): (r: Option<TeamDetail>)
    ensures caller.None? ==> r.None?
    ensures caller.Some? && (forall m :: m in db.members ==> m.userId != caller.value.id) ==> r.None?
    ensures r.Some? ==>
      && r.value.team in db.teams
      && (exists m :: m in db.members && m.userId == caller.value.id && m.teamId == r.value.team.id)
      && |r.value.members| == |Filter(db.members, MemberTeamIs(r.value.team.id))|
      && (forall d :: d in r.value.members ==> d.member in db.members && d.member.teamId == r.value.team.id)
      && (forall m :: m in db.members && m.teamId == r.value.team.id ==> exists d :: d in r.value.members && d.member == m)
      && (forall d :: d in r.value.members ==> (d.user.Some? <==> HasUser(db.users, d.member.userId)))
      && (forall d :: d in r.value.members && d.user.Some? ==>
            exists u :: u in db.users && u.id == d.member.userId && d.user.value == UserBrief(u.id, u.name, u.email))
    ensures RefIntegrity(db) && caller.Some? && (exists m :: m in db.members && m.userId == caller.value.id) ==> r.Some?
  {
    if caller.None? then None
    else match FirstWhere(db.members, MemberOf(caller.value.id))
      case None =>
        assert forall m :: m in db.members ==> !MemberOf(caller.value.id)(m);
        None
      case Some(m) =>
        match FirstWhere(db.teams, TeamIdIs(m.teamId))
        case None =>
          assert forall t :: t in db.teams ==> !TeamIdIs(m.teamId)(t);
          None
        case Some(t) =>
          var mine := Filter(db.members, MemberTeamIs(t.id));
          var details := Map(mine, BriefOf(db.users));
          forall d | d in details
            ensures d.member in db.members && d.member.teamId == t.id
            ensures d.user.Some? <==> HasUser(db.users, d.member.userId)
            ensures d.user.Some? ==> exists u :: u in db.users && u.id == d.member.userId && d.user.value == UserBrief(u.id, u.name, u.email)
          {
            var i :| 0 <= i < |details| && details[i] == d;
            assert mine[i] in mine;
            var found := FirstWhere(db.users, UserIdIs(d.member.userId));
            if found.None? {
              forall u | u in db.users ensures u.id != d.member.userId {
                assert !UserIdIs(d.member.userId)(u);
              }
            }
          }
          forall m | m in db.members && m.teamId == t.id
            ensures exists d :: d in details && d.member == m
          {
            assert MemberTeamIs(t.id)(m);
            assert m in mine;
            var i :| 0 <= i < |mine| && mine[i] == m;
            assert details[i] in details;
          }
          Some(TeamDetail(t, details))
  }

  function CustomerIs(c: string): Team -> bool {
    (t: Team) => t.stripeCustomerId == Some(c)
  }

  /** The first team billed to the given Stripe customer, if any. */
  function GetTeamByStripeCustomerId(db: Db, customerId: string): (r: Option<Team>)
    ensures r.Some? ==> r.value in db.teams && r.value.stripeCustomerId == Some(customerId)
    ensures r.None? <==> forall t :: t in db.teams ==> t.stripeCustomerId != Some(customerId)
  {
    var r := FirstWhere(db.teams, CustomerIs(customerId));
    if r.None? then None
    else
      assert r.value in db.teams && r.value.stripeCustomerId == Some(customerId);
      r
  }

  /** The subscription fields a billing event writes; the status is never null. */
  datatype SubscriptionData = SubscriptionData(
    stripeSubscriptionId: Option<string>,
    stripeProductId: Option<string>,
    planName: Option<string>,
    subscriptionStatus: string)

  function SetSubscription(teamId: int, data: SubscriptionData, now: int): Team -> Team {
    (t: Team) =>
      if t.id == teamId then
        t.(stripeSubscriptionId := data.stripeSubscriptionId,
           stripeProductId := data.stripeProductId,
           planName := data.planName,
           subscriptionStatus := Some(data.subscriptionStatus),
           updatedAt := now)
      else t
  }

  /** `UPDATE teams SET <subscription fields>, updated_at = now WHERE id = ?`. */
  function UpdateTeamSubscription(db: Db, teamId: int, data: SubscriptionData, now: int): (r: Db)
    ensures r == db.(teams := r.teams)
    ensures |r.teams| == |db.teams|
    ensures forall i :: 0 <= i < |db.teams| && db.teams[i].id != teamId ==> r.teams[i] == db.teams[i]
    ensures forall i :: 0 <= i < |db.teams| && db.teams[i].id == teamId ==>
      var t, t' := db.teams[i], r.teams[i];
      && t'.id == t.id && t'.name == t.name && t'.createdAt == t.createdAt && t'.stripeCustomerId == t.stripeCustomerId
      && t'.stripeSubscriptionId == data.stripeSubscriptionId && t'.stripeProductId == data.stripeProductId
      && t'.planName == data.planName && t'.subscriptionStatus == Some(data.subscriptionStatus) && t'.updatedAt == now
  {
    db.(teams := Map(db.teams, SetSubscription(teamId, data, now)))
  }

  /** The update keeps every team id, so no foreign key breaks. */
  lemma UpdateSubscriptionKeepsIntegrity(db: Db, teamId: int, data: SubscriptionData, now: int)
    requires RefIntegrity(db)
    ensures RefIntegrity(UpdateTeamSubscription(db, teamId, data, now))
  {
    var r := UpdateTeamSubscription(db, teamId, data, now);
    forall id | HasTeam(db.teams, id)
      ensures HasTeam(r.teams, id)
    {
      var t :| t in db.teams && t.id == id;
      var i :| 0 <= i < |db.teams| && db.teams[i] == t;
      assert r.teams[i] in r.teams;
    }
  }

  /** Delivering the same billing event twice has the effect of once. */
  lemma UpdateSubscriptionIdempotent(db: Db, teamId: int, data: SubscriptionData, now: int)
    ensures var once := UpdateTeamSubscription(db, teamId, data, now);
      UpdateTeamSubscription(once, teamId, data, now) == once
  {
    var once := UpdateTeamSubscription(db, teamId, data, now);
    var twice := UpdateTeamSubscription(once, teamId, data, now);
    assert twice.teams == once.teams;
  }
}

=== FILE: results.dfy ===
/** Failure-compatible carriers shared by every module of the model: an
    optional value (a nullable column, a `findFirst` that may find nothing)
    and a result (a value or the error a server action returns or throws). */
module Results {

  datatype Option<+T> = None | Some(value: T) {

    /** The value, or `default` when absent (JavaScript's `x ?? d`). */
    function GetOr(default: T): T {
      match this
      case Some(v) => v
      case None => default
    }
  }

  datatype Result<+T, +E> = Ok(value: T) | Err(error: E) {

    predicate IsFailure() {
      Err?
    }

    function PropagateFailure<U>(): Result<U, E>
      requires Err?
    {
      Err(error)
    }

    function Extract(): T
      requires Ok?
    {
      value
    }
  }
}

=== FILE: schema.dfy ===
/** The relational store (lib/db/schema.ts): one row type per table, the
    closed enumerations, the store as one sequence of rows per table, and the
    constraints the schema declares (unique e-mail, one barber profile per
    user, foreign keys). Timestamps are opaque integers. */
module Schema {
  import opened Results
  import opened Seqs
  import opened Availability

  // ---------------------------------------------------------------------
  // Enumerations
  // ---------------------------------------------------------------------

  /** `UserRole`; `Regular` is the role stored as 'user'. */
  datatype Role = SuperAdmin | Owner | Barber | Regular

  function RoleName(r: Role): string {
    match r
    case SuperAdmin => "super_admin"
    case Owner => "owner"
    case Barber => "barber"
    case Regular => "user"
  }

  /** Reads a stored role string; anything outside the four names is rejected. */
  function ParseRole(s: string): (r: Option<Role>)
    ensures r.Some? ==> RoleName(r.value) == s
    ensures forall role :: RoleName(role) == s ==> r == Some(role)
  {
    if s == "super_admin" then Some(SuperAdmin)
    else if s == "owner" then Some(Owner)
    else if s == "barber" then Some(Barber)
    else if s == "user" then Some(Regular)
    else None
  }

  /** The `role` column's default. */
  const DefaultRole: Role := Regular

  datatype BookingStatus = Pending | Confirmed | Cancelled | Completed

  datatype InvitationStatus = InvitePending | InviteAccepted

  datatype PostType = Portfolio | Announcement

  // ---------------------------------------------------------------------
  // Rows
  // ---------------------------------------------------------------------

  datatype User = User(
    id: int,
    name: Option<string>,
    email: string,
    passwordHash: string,
    role: Role,
    avatarUrl: Option<string>,
    createdAt: int,
    deletedAt: Option<int>)

  datatype Team = Team(
    id: int,
    name: string,
    createdAt: int,
    updatedAt: int,
    stripeCustomerId: Option<string>,
    stripeSubscriptionId: Option<string>,
    stripeProductId: Option<string>,
    planName: Option<string>,
    subscriptionStatus: Option<string>)

  datatype TeamMember = TeamMember(id: int, userId: int, teamId: int, role: Role, joinedAt: int)

  datatype BarberProfile = BarberProfile(
    id: int,
    userId: int,
    bio: string,
    specialties: seq<string>,
    availability: WeeklyAvailability,
    instagramHandle: string,
    updatedAt: int)

  /** Prices are in cents. */
  datatype Service = Service(
    id: int,
    teamId: int,
    name: string,
    description: Option<string>,
    durationMinutes: int,
    price: int,
    isActive: bool,
    updatedAt: int)

  datatype Product = Product(id: int, teamId: int, name: string, price: int, stock: int)

  datatype Booking = Booking(
    id: int,
    teamId: int,
    customerId: int,
    barberId: int,
    serviceId: int,
    appointmentDate: int,
    status: BookingStatus)

  datatype ActivityLog = ActivityLog(id: int, teamId: int, userId: Option<int>, action: string, timestamp: int)

  datatype Invitation = Invitation(
    id: int,
    teamId: int,
    email: string,
    role: Role,
    invitedBy: int,
    invitedAt: int,
    status: InvitationStatus)

  datatype Post = Post(
    id: int,
    teamId: int,
    barberId: Option<int>,
    kind: PostType,
    title: Option<string>,
    imageUrl: Option<string>,
    caption: Option<string>,
    createdAt: int)

  /** The whole store: one sequence of rows per table, in storage order. */
  datatype Db = Db(
    users: seq<User>,
    teams: seq<Team>,
    members: seq<TeamMember>,
    profiles: seq<BarberProfile>,
    services: seq<Service>,
    products: seq<Product>,
    bookings: seq<Booking>,
    logs: seq<ActivityLog>,
    invitations: seq<Invitation>,
    posts: seq<Post>)

  // ---------------------------------------------------------------------
  // Key selectors (named so that every use denotes the same function)
  // ---------------------------------------------------------------------

  function UserKey(u: User): int { u.id }
  function TeamKey(t: Team): int { t.id }
  function MemberKey(m: TeamMember): int { m.id }
  function ProfileKey(p: BarberProfile): int { p.id }
  function ServiceKey(s: Service): int { s.id }
  function BookingKey(b: Booking): int { b.id }
  function LogKey(l: ActivityLog): int { l.id }
  function InvitationKey(i: Invitation): int { i.id }
  function PostKey(p: Post): int { p.id }

  // ---------------------------------------------------------------------
  // Constraints
  // ---------------------------------------------------------------------

  predicate HasUser(users: seq<User>, id: int) {
    exists u | u in users :: u.id == id
  }

  predicate HasTeam(teams: seq<Team>, id: int) {
    exists t | t in teams :: t.id == id
  }

  predicate HasService(services: seq<Service>, id: int) {
    exists s | s in services :: s.id == id
  }

  /** `isNull(users.deletedAt)`: the user has not been soft-deleted. */
  predicate IsLive(u: User) {
    u.deletedAt.None?
  }

  predicate MaybeUser(users: seq<User>, id: Option<int>) {
    id.Some? ==> HasUser(users, id.value)
  }

  /** Every foreign key of every row names an existing row. */
  predicate RefIntegrity(d: Db) {
    && (forall m | m in d.members :: HasUser(d.users, m.userId) && HasTeam(d.teams, m.teamId))
    && (forall p | p in d.profiles :: HasUser(d.users, p.userId))
    && (forall s | s in d.services :: HasTeam(d.teams, s.teamId))
    && (forall p | p in d.products :: HasTeam(d.teams, p.teamId))
    && (forall b | b in d.bookings ::
          && HasTeam(d.teams, b.teamId)
          && HasUser(d.users, b.customerId)
          && HasUser(d.users, b.barberId)
          && HasService(d.services, b.serviceId))
    && (forall l | l in d.logs :: HasTeam(d.teams, l.teamId) && MaybeUser(d.users, l.userId))
    && (forall i | i in d.invitations :: HasTeam(d.teams, i.teamId) && HasUser(d.users, i.invitedBy))
    && (forall p | p in d.posts :: HasTeam(d.teams, p.teamId) && MaybeUser(d.users, p.barberId))
  }

  /** A booking's service belongs to the booking's own shop. The schema does
      not declare this; the application only ever books a shop's own services. */
  predicate BookingsUseOwnServices(d: Db) {
    forall b, s | b in d.bookings && s in d.services && s.id == b.serviceId :: s.teamId == b.teamId
  }

  predicate WellFormed(d: Db) {
    RefIntegrity(d) && BookingsUseOwnServices(d)
  }

  /** `users.email` is `unique()`. */
  predicate EmailsUnique(users: seq<User>) {
    forall i, j :: 0 <= i < j < |users| ==> users[i].email != users[j].email
  }

  /** `users.id` is the primary key. */
  predicate UserIdsUnique(users: seq<User>) {
    forall i, j :: 0 <= i < j < |users| ==> users[i].id != users[j].id
  }

  /** `barber_profiles.user_id` is `unique()`. */
  predicate OneProfilePerUser(profiles: seq<BarberProfile>) {
    forall i, j :: 0 <= i < j < |profiles| ==> profiles[i].userId != profiles[j].userId
  }

  predicate EmailTaken(users: seq<User>, email: string) {
    exists u | u in users :: u.email == email
  }

  // ---------------------------------------------------------------------
  // Inserts with the schema's defaults and constraints
  // ---------------------------------------------------------------------

  datatype DbError = UniqueViolation(column: string) | ForeignKeyViolation(column: string)

  /** `INSERT INTO users`: a fresh serial id, the role defaulting to 'user',
      and a unique-constraint error when the e-mail is already taken. */
  function InsertUser(d: Db, email: string, passwordHash: string, role: Option<Role>, now: int): (r: Result<(Db, User), DbError>)
    ensures r.Err? <==> EmailTaken(d.users, email)
    ensures r.Ok? ==> var (d', u) := r.value;
      && d' == d.(users := d.users + [u])
      && !HasUser(d.users, u.id)
      && u.email == email && u.passwordHash == passwordHash
      && u.role == role.GetOr(DefaultRole)
      && u.deletedAt.None?
    ensures r.Ok? && EmailsUnique(d.users) ==> EmailsUnique(r.value.0.users)
    ensures r.Ok? && RefIntegrity(d) ==> RefIntegrity(r.value.0)
  {
    if EmailTaken(d.users, email) then Err(UniqueViolation("email"))
    else
      var u := User(NextId(d.users, UserKey), None, email, passwordHash, role.GetOr(DefaultRole), None, now, None);
      var d' := d.(users := d.users + [u]);
      assert forall x :: x in d.users ==> x in d'.users;
      Ok((d', u))
  }

  /** `INSERT INTO bookings`: every foreign key must name an existing row,
      and the status defaults to 'pending'. */
  function InsertBooking(d: Db, teamId: int, customerId: int, barberId: int, serviceId: int, date: int, status: Option<BookingStatus>): (r: Result<(Db, Booking), DbError>)
    ensures r.Err? <==> !HasTeam(d.teams, teamId) || !HasUser(d.users, customerId) || !HasUser(d.users, barberId) || !HasService(d.services, serviceId)
    ensures r.Ok? ==> var (d', b) := r.value;
      && d' == d.(bookings := d.bookings + [b])
      && b.status == status.GetOr(Pending)
      && b.teamId == teamId && b.customerId == customerId && b.barberId == barberId && b.serviceId == serviceId
    ensures r.Ok? && RefIntegrity(d) ==> RefIntegrity(r.value.0)
  {
    if !HasTeam(d.teams, teamId) then Err(ForeignKeyViolation("team_id"))
    else if !HasUser(d.users, customerId) then Err(ForeignKeyViolation("customer_id"))
    else if !HasUser(d.users, barberId) then Err(ForeignKeyViolation("barber_id"))
    else if !HasService(d.services, serviceId) then Err(ForeignKeyViolation("service_id"))
    else
      var b := Booking(NextId(d.bookings, BookingKey), teamId, customerId, barberId, serviceId, date, status.GetOr(Pending));
      Ok((d.(bookings := d.bookings + [b]), b))
  }

  /** `INSERT INTO barber_profiles`: the user must exist and may hold at most one profile. */
  function InsertProfile(d: Db, userId: int, bio: string, specialties: seq<string>, availability: WeeklyAvailability, handle: string, now: int): (r: Result<(Db, BarberProfile), DbError>)
    ensures r.Err? <==> !HasUser(d.users, userId) || exists p | p in d.profiles :: p.userId == userId
    ensures r.Ok? ==> var (d', p) := r.value;
      && d' == d.(profiles := d.profiles + [p])
      && p.userId == userId && p.bio == bio && p.specialties == specialties
      && p.availability == availability && p.instagramHandle == handle
    ensures r.Ok? && OneProfilePerUser(d.profiles) ==> OneProfilePerUser(r.value.0.profiles)
    ensures r.Ok? && RefIntegrity(d) ==> RefIntegrity(r.value.0)
  {
    if !HasUser(d.users, userId) then Err(ForeignKeyViolation("user_id"))
    else if exists p | p in d.profiles :: p.userId == userId then Err(UniqueViolation("user_id"))
    else
      var p := BarberProfile(NextId(d.profiles, ProfileKey), userId, bio, specialties, availability, handle, now);
      Ok((d.(profiles := d.profiles + [p]), p))
  }
}

=== FILE: seqs.dfy ===
/** Sequence helpers used to model table scans: `WHERE` is `Filter`,
    projections are `Map`, `LIMIT n` is `Take`, and a `serial` column hands
    out `NextId`. */
module Seqs {

  /** The elements of `s` that satisfy `keep`, in their original order. */
  function Filter<T(!new)>(s: seq<T>, keep: T -> bool): (r: seq<T>)
    ensures |r| <= |s|
    ensures forall x {:trigger x in r} :: x in r <==> x in s && keep(x)
  {
    if s == [] then []
    else if keep(s[0]) then [s[0]] + Filter(s[1..], keep)
    else Filter(s[1..], keep)
  }

  /** Two successive filters are one filter by the conjunction. */
  lemma {:induction false} FilterFilter<T(!new)>(s: seq<T>, p: T -> bool, q: T -> bool)
    ensures Filter(Filter(s, p), q) == Filter(s, x => p(x) && q(x))
  {
    if s != [] {
      FilterFilter(s[1..], p, q);
      if p(s[0]) {
        var t := Filter(s[1..], p);
        assert ([s[0]] + t)[0] == s[0];
        assert ([s[0]] + t)[1..] == t;
      }
    }
  }

  /** Filters by predicates that agree on the elements give the same sequence. */
  lemma {:induction false} FilterExt<T(!new)>(s: seq<T>, p: T -> bool, q: T -> bool)
    requires forall x :: x in s ==> p(x) == q(x)
    ensures Filter(s, p) == Filter(s, q)
  {
    if s != [] {
      FilterExt(s[1..], p, q);
    }
  }

  /** A filter that keeps every element is the identity. */
  lemma {:induction false} FilterAll<T(!new)>(s: seq<T>, p: T -> bool)
    requires forall x :: x in s ==> p(x)
    ensures Filter(s, p) == s
  {
    if s != [] {
      FilterAll(s[1..], p);
    }
  }

  /** A filter that keeps no element is empty. */
  lemma {:induction false} FilterNone<T(!new)>(s: seq<T>, p: T -> bool)
    requires forall x :: x in s ==> !p(x)
    ensures Filter(s, p) == []
  {
    if s != [] {
      FilterNone(s[1..], p);
    }
  }

  /** A filter distributes over concatenation. */
  lemma {:induction false} FilterAppend<T(!new)>(a: seq<T>, b: seq<T>, p: T -> bool)
    ensures Filter(a + b, p) == Filter(a, p) + Filter(b, p)
  {
    if a != [] {
      FilterAppend(a[1..], b, p);
      assert (a + b)[1..] == a[1..] + b;
    } else {
      assert a + b == b;
    }
  }

  /** Appending a row and then filtering it out again gives back a table the
      filter keeps whole. */
  lemma FilterDropsAppended<T(!new)>(s: seq<T>, x: T, p: T -> bool)
    requires forall y :: y in s ==> p(y)
    requires !p(x)
    ensures Filter(s + [x], p) == s
  {
    FilterAppend(s, [x], p);
    FilterAll(s, p);
    assert Filter([x], p) == [];
  }

  /** A filter keeps its input in order, so the first kept element is the
      first element of the input that satisfies the predicate. */
  lemma {:induction false} FilterHead<T(!new)>(s: seq<T>, p: T -> bool)
    requires Filter(s, p) != []
    ensures exists i :: 0 <= i < |s| && s[i] == Filter(s, p)[0] && p(s[i]) && forall j :: 0 <= j < i ==> !p(s[j])
  {
    if p(s[0]) {
      assert s[0] == Filter(s, p)[0];
    } else {
      FilterHead(s[1..], p);
      var i :| 0 <= i < |s[1..]| && s[1..][i] == Filter(s[1..], p)[0] && p(s[1..][i]) && forall j :: 0 <= j < i ==> !p(s[1..][j]);
      assert s[i + 1] == Filter(s, p)[0];
      forall j | 0 <= j < i + 1
        ensures !p(s[j])
      {
        if j > 0 {
          assert s[j] == s[1..][j - 1];
        }
      }
    }
  }

  /** Point-wise image of a sequence. */
  function Map<A, B>(s: seq<A>, f: A -> B): (r: seq<B>)
    ensures |r| == |s|
    ensures forall i :: 0 <= i < |s| ==> r[i] == f(s[i])
  {
    seq(|s|, i requires 0 <= i < |s| => f(s[i]))
  }

  /** Filtering an image is the image of the filter, when the map keeps the
      predicate's verdict. */
  lemma {:induction false} FilterMap<T(!new)>(s: seq<T>, f: T -> T, p: T -> bool)
    requires forall x :: p(f(x)) == p(x)
    ensures Filter(Map(s, f), p) == Map(Filter(s, p), f)
  {
    if s != [] {
      FilterMap(s[1..], f, p);
      assert Map(s, f)[1..] == Map(s[1..], f);
      if p(s[0]) {
        var t := Filter(s[1..], p);
        assert Map([s[0]] + t, f) == [f(s[0])] + Map(t, f);
      }
    }
  }

  /** The image of a concatenation is the concatenation of the images. */
  lemma MapAppend<A, B>(a: seq<A>, b: seq<A>, f: A -> B)
    ensures Map(a + b, f) == Map(a, f) + Map(b, f)
  {
    assert forall i :: 0 <= i < |a| ==> (a + b)[i] == a[i];
    assert forall i :: |a| <= i < |a + b| ==> (a + b)[i] == b[i - |a|];
  }

  /** `LIMIT n`: the first `n` elements, or all of them when there are fewer. */
  function Take<T>(s: seq<T>, n: nat): (r: seq<T>)
    ensures |r| == if |s| < n then |s| else n
    ensures r <= s
    ensures multiset(r) <= multiset(s)
  {
    if |s| <= n then s
    else
      assert s == s[..n] + s[n..];
      s[..n]
  }

  /** JavaScript's `slice(-n)`: the last `n` elements, or all of them. */
  function TakeLast<T>(s: seq<T>, n: nat): (r: seq<T>)
    ensures |r| == if |s| < n then |s| else n
    ensures forall i :: 0 <= i < |r| ==> r[i] == s[|s| - |r| + i]
  {
    if |s| <= n then s else s[|s| - n..]
  }

  /** An id larger than every id in the table, and at least 1: the value a
      `serial` primary key hands out on insert. */
  function NextId<T(!new)>(rows: seq<T>, id: T -> int): (r: int)
    ensures r >= 1
    ensures forall x :: x in rows ==> id(x) < r
  {
    if rows == [] then 1
    else
      var rest := NextId(rows[1..], id);
      assert forall x :: x in rows ==> x == rows[0] || x in rows[1..];
      if id(rows[0]) < rest then rest else id(rows[0]) + 1
  }
}

=== FILE: services.dfy ===
/** Service catalogue actions (lib/actions/services.ts): the creation form's
    constraints, the team listing sorted by name, and create, delete and
    toggle, each checking team membership before the owner role. The
    signed-in user is an input. */
module Services {
  import opened Results
  import opened Seqs
  import opened Sorting
  import opened Strings
  import opened Schema
  import opened Queries

  // ---------------------------------------------------------------------
  // The creation form
  // ---------------------------------------------------------------------

  /** A form value after `z.coerce.number()`: an integer, a finite number
      with a fractional part, or NaN (text that is not a number). */
  datatype Coerced = IntValue(n: int) | Fractional | NotANumber

  datatype ServiceForm = ServiceForm(name: string, description: Option<string>, durationMinutes: Coerced, price: Coerced)

  datatype ServiceData = ServiceData(name: string, description: Option<string>, durationMinutes: int, price: int)

  /** What a valid service satisfies: a name of 1 to 255 characters, a
      duration of at least one minute, and a price of at least 0 cents. */
  predicate ServiceConstraints(name: string, durationMinutes: int, price: int) {
    1 <= |name| <= 255 && durationMinutes >= 1 && price >= 0
  }

  /** The first problem with a coerced integer field with minimum `min`. */
  function IntIssue(v: Coerced, min: int, tooSmall: string): (r: Option<string>)
    ensures r.None? <==> v.IntValue? && v.n >= min
  {
    match v
    case NotANumber => Some("Expected number, received nan")
    case Fractional => Some("Expected integer, received float")
    case IntValue(n) => if n < min then Some(tooSmall) else None
  }

  /** The schema's issues in field order; the reported message is the first. */
  function ValidateService(form: ServiceForm): (r: Result<ServiceData, string>)
    ensures r.Ok? <==>
      && form.durationMinutes.IntValue? && form.price.IntValue?
      && ServiceConstraints(form.name, form.durationMinutes.n, form.price.n)
    ensures r.Ok? ==> r.value == ServiceData(form.name, form.description, form.durationMinutes.n, form.price.n)
    ensures form.name == "" ==> r == Err("Name is required")
    ensures |form.name| > 255 ==> r == Err("String must contain at most 255 character(s)")
  {
    if |form.name| < 1 then Err("Name is required")
    else if |form.name| > 255 then Err("String must contain at most 255 character(s)")
    else match IntIssue(form.durationMinutes, 1, "Duration must be at least 1 minute")
      case Some(m) => Err(m)
      case None =>
        match IntIssue(form.price, 0, "Price cannot be negative")
        case Some(m) => Err(m)
        case None => Ok(ServiceData(form.name, form.description, form.durationMinutes.n, form.price.n))
  }

  // ---------------------------------------------------------------------
  // The caller's team
  // ---------------------------------------------------------------------

  /** `userWithTeam?.teamId` when it is truthy: a membership's team, never 0. */
  function TeamIdOf(db: Db, userId: int): (r: Option<int>)
    ensures r.Some? ==> r.value != 0 && exists m :: m in db.members && m.userId == userId && m.teamId == r.value
    ensures
      (&& HasUser(db.users, userId)
       && (exists m :: m in db.members && m.userId == userId)
       && (forall m :: m in db.members ==> m.teamId != 0))
      ==> r.Some?
  {
    var uwt := GetUserWithTeam(db, userId);
    if uwt.None? || uwt.value.teamId.None? || uwt.value.teamId.value == 0 then None
    else uwt.value.teamId
  }

  // ---------------------------------------------------------------------
  // getServices
  // ---------------------------------------------------------------------

  function ByName(a: Service, b: Service): bool {
    StrLe(a.name, b.name)
  }

  lemma ByNameIsTotal()
    ensures TotalPreorder(ByName)
  {
    forall a: Service, b: Service
      ensures ByName(a, b) || ByName(b, a)
    {
      StrLeTotal(a.name, b.name);
    }
    forall a: Service, b: Service, c: Service | ByName(a, b) && ByName(b, c)
      ensures ByName(a, c)
    {
      StrLeTrans(a.name, b.name, c.name);
    }
  }

  function OfTeam(teamId: int): Service -> bool {
    (s: Service) => s.teamId == teamId
  }

  /** The caller's team's services by name; none when the caller has no team. */
  function GetServices(caller: Option<User>, db: Db): (r: Result<seq<Service>, string>)
    ensures r.Err? <==> caller.None?
    ensures r.Err? ==> r.error == "User not authenticated"
    ensures r.Ok? && TeamIdOf(db, caller.value.id).None? ==> r.value == []
    ensures r.Ok? && TeamIdOf(db, caller.value.id).Some? ==>
      && Sorted(r.value, ByName)
      && multiset(r.value) == multiset(Filter(db.services, OfTeam(TeamIdOf(db, caller.value.id).value)))
      && |r.value| == |Filter(db.services, OfTeam(TeamIdOf(db, caller.value.id).value))|
      && forall s :: s in r.value <==> s in db.services && s.teamId == TeamIdOf(db, caller.value.id).value
  {
    if caller.None? then Err("User not authenticated")
    else match TeamIdOf(db, caller.value.id)
      case None => Ok([])
      case Some(t) =>
        ByNameIsTotal();
        var r := OrderedView(db.services, OfTeam(t), (s: Service) => s, ByName);
        assert Map(Filter(db.services, OfTeam(t)), (s: Service) => s) == Filter(db.services, OfTeam(t));
        assert forall s :: s in db.services ==> (OfTeam(t)(s) <==> s.teamId == t);
        Ok(r)
  }

  // ---------------------------------------------------------------------
  // createService, deleteService, toggleServiceActive
  // ---------------------------------------------------------------------

  const NoTeamMessage: string := "You are not part of a team"

  /** `createService`: the form is validated first, then the team, then the
      owner role; the new service is active and an empty description is
      stored as null. */
  function CreateService(user: User, db: Db, form: ServiceForm, now: int): (r: Result<Db, string>)
    ensures ValidateService(form).Err? ==> r == Err(ValidateService(form).error)
    ensures ValidateService(form).Ok? && TeamIdOf(db, user.id).None? ==> r == Err(NoTeamMessage)
    ensures ValidateService(form).Ok? && TeamIdOf(db, user.id).Some? && user.role != Owner ==> r == Err("Only owners can create services")
    ensures r.Ok? <==> ValidateService(form).Ok? && TeamIdOf(db, user.id).Some? && user.role == Owner
    ensures r.Ok? ==> exists s ::
      && r.value == db.(services := db.services + [s])
      && !HasService(db.services, s.id)
      && s.teamId == TeamIdOf(db, user.id).value && s.isActive && s.updatedAt == now
      && s.name == form.name && ServiceConstraints(s.name, s.durationMinutes, s.price)
      && s.durationMinutes == form.durationMinutes.n && s.price == form.price.n
      && s.description == (if form.description == Some("") then None else form.description)
  {
    var data :- ValidateService(form);
    match TeamIdOf(db, user.id)
    case None => Err(NoTeamMessage)
    case Some(t) =>
      if user.role != Owner then Err("Only owners can create services")
      else
        var desc := if data.description.Some? && data.description.value != "" then data.description else None;
        var s := Service(NextId(db.services, ServiceKey), t, data.name, desc, data.durationMinutes, data.price, true, now);
        assert !HasService(db.services, s.id) by {
          assert forall x :: x in db.services ==> ServiceKey(x) < s.id;
        }
        Ok(db.(services := db.services + [s]))
  }

  /** A created service belongs to an existing team, so no foreign key breaks. */
  lemma CreateServiceKeepsIntegrity(user: User, db: Db, form: ServiceForm, now: int)
    requires RefIntegrity(db) && CreateService(user, db, form, now).Ok?
    ensures RefIntegrity(CreateService(user, db, form, now).value)
  {
    var d' := CreateService(user, db, form, now).value;
    var s :| d' == db.(services := db.services + [s]) && s.teamId == TeamIdOf(db, user.id).value;
    var m :| m in db.members && m.userId == user.id && m.teamId == s.teamId;
    assert HasTeam(db.teams, s.teamId);
    forall b | b in d'.bookings ensures HasService(d'.services, b.serviceId) {
      var x :| x in db.services && x.id == b.serviceId;
      assert x in d'.services;
    }
  }

  function ServiceOfTeam(id: int, teamId: int): Service -> bool {
    (s: Service) => s.id == id && s.teamId == teamId
  }

  predicate TeamHasService(db: Db, id: int, teamId: int) {
    exists s :: s in db.services && s.id == id && s.teamId == teamId
  }

  function NotService(id: int): Service -> bool {
    (s: Service) => s.id != id
  }

  /** The store refuses the delete while a booking still references the
      service: `bookings.service_id` has no cascade. */
  const StillBookedMessage: string := "update or delete on table \"services\" violates foreign key constraint"

  /** `deleteService`: validation, then team, then owner role, then the
      service must belong to the caller's team. */
  function DeleteService(user: User, db: Db, serviceId: Coerced): (r: Result<Db, string>)
    ensures serviceId.NotANumber? ==> r == Err("Expected number, received nan")
    ensures serviceId.Fractional? ==> r == Err("Expected integer, received float")
    ensures serviceId.IntValue? && TeamIdOf(db, user.id).None? ==> r == Err(NoTeamMessage)
    ensures serviceId.IntValue? && TeamIdOf(db, user.id).Some? && user.role != Owner ==> r == Err("Only owners can delete services")
    ensures serviceId.IntValue? && TeamIdOf(db, user.id).Some? && user.role == Owner ==>
      && (!TeamHasService(db, serviceId.n, TeamIdOf(db, user.id).value) ==> r == Err("Service not found"))
      && (r.Ok? <==> TeamHasService(db, serviceId.n, TeamIdOf(db, user.id).value)
                     && forall b :: b in db.bookings ==> b.serviceId != serviceId.n)
    ensures r.Ok? ==> r.value == db.(services := Filter(db.services, NotService(serviceId.n)))
  {
    match serviceId
    case NotANumber => Err("Expected number, received nan")
    case Fractional => Err("Expected integer, received float")
    case IntValue(id) =>
      match TeamIdOf(db, user.id)
      case None => Err(NoTeamMessage)
      case Some(t) =>
        if user.role != Owner then Err("Only owners can delete services")
        else match FirstWhere(db.services, ServiceOfTeam(id, t))
          case None =>
            assert forall s :: s in db.services ==> !ServiceOfTeam(id, t)(s);
            Err("Service not found")
          case Some(_) =>
            if exists b :: b in db.bookings && b.serviceId == id then Err(StillBookedMessage)
            else Ok(db.(services := Filter(db.services, NotService(id))))
  }

  /** A delete that goes through leaves every foreign key intact and every
      other service in place. */
  lemma DeleteServiceKeepsIntegrity(user: User, db: Db, serviceId: Coerced)
    requires DeleteService(user, db, serviceId).Ok?
    ensures var d' := DeleteService(user, db, serviceId).value;
      && (forall s :: s in d'.services <==> s in db.services && s.id != serviceId.n)
      && (RefIntegrity(db) ==> RefIntegrity(d'))
  {
    var d' := DeleteService(user, db, serviceId).value;
    var id := serviceId.n;
    forall s | s in db.services ensures s in d'.services <==> s.id != id {
      assert NotService(id)(s) == (s.id != id);
    }
    if RefIntegrity(db) {
      forall b | b in d'.bookings ensures HasService(d'.services, b.serviceId) {
        var x :| x in db.services && x.id == b.serviceId;
        assert x.id != id;
      }
    }
  }

  function SetActive(id: int, isActive: bool, now: int): Service -> Service {
    (s: Service) => if s.id == id then s.(isActive := isActive, updatedAt := now) else s
  }

  /** `toggleServiceActive`: signed in, then team, then owner role, then the
      service must belong to the caller's team; only its `isActive` and
      `updatedAt` change. */
  function ToggleServiceActive(caller: Option<User>, db: Db, serviceId: int, isActive: bool, now: int): (r: Result<Db, string>)
    ensures caller.None? ==> r == Err("User not authenticated")
    ensures caller.Some? && TeamIdOf(db, caller.value.id).None? ==> r == Err("Team not found")
    ensures caller.Some? && TeamIdOf(db, caller.value.id).Some? && caller.value.role != Owner ==> r == Err("Only owners can toggle services")
    ensures r.Ok? <==>
      && caller.Some? && TeamIdOf(db, caller.value.id).Some? && caller.value.role == Owner
      && TeamHasService(db, serviceId, TeamIdOf(db, caller.value.id).value)
    ensures r.Ok? ==>
      && r.value == db.(services := r.value.services)
      && |r.value.services| == |db.services|
      && forall i :: 0 <= i < |db.services| ==>
           var s, s' := db.services[i], r.value.services[i];
           if s.id == serviceId then s' == s.(isActive := isActive, updatedAt := now) else s' == s
  {
    if caller.None? then Err("User not authenticated")
    else match TeamIdOf(db, caller.value.id)
      case None => Err("Team not found")
      case Some(t) =>
        if caller.value.role != Owner then Err("Only owners can toggle services")
        else match FirstWhere(db.services, ServiceOfTeam(serviceId, t))
          case None =>
            assert forall s :: s in db.services ==> !ServiceOfTeam(serviceId, t)(s);
            Err("Service not found")
          case Some(_) => Ok(db.(services := Map(db.services, SetActive(serviceId, isActive, now))))
  }

  /** Setting the same flag twice is the same as setting it once, and the
      listing then shows the service with that flag. */
  lemma ToggleIdempotent(caller: Option<User>, db: Db, serviceId: int, isActive: bool, now: int)
    requires ToggleServiceActive(caller, db, serviceId, isActive, now).Ok?
    ensures var once := ToggleServiceActive(caller, db, serviceId, isActive, now).value;
      && ToggleServiceActive(caller, once, serviceId, isActive, now) == Ok(once)
      && forall s :: s in once.services && s.id == serviceId ==> s.isActive == isActive
  {
    var once := ToggleServiceActive(caller, db, serviceId, isActive, now).value;
    var t := TeamIdOf(db, caller.value.id).value;
    assert once.members == db.members && once.users == db.users;
    var x :| x in db.services && x.id == serviceId && x.teamId == t;
    var i :| 0 <= i < |db.services| && db.services[i] == x;
    assert once.services[i] in once.services;
    var twice := ToggleServiceActive(caller, once, serviceId, isActive, now).value;
    assert twice.services == once.services;
  }
}

=== FILE: sorting.dfy ===
/** `ORDER BY`: a stable insertion sort under a total preorder `le`
    (`le(a, b)` means `a` may come before `b`). Ties keep table order, which
    is one of the orders the database is free to return. */
module Sorting {
  import opened Seqs

  ghost predicate TotalPreorder<T(!new)>(le: (T, T) -> bool) {
    && (forall a, b :: le(a, b) || le(b, a))
    && (forall a, b, c :: le(a, b) && le(b, c) ==> le(a, c))
  }

  predicate Sorted<T>(s: seq<T>, le: (T, T) -> bool) {
    forall i, j :: 0 <= i < j < |s| ==> le(s[i], s[j])
  }

  function Insert<T(!new)>(x: T, s: seq<T>, le: (T, T) -> bool): (r: seq<T>)
    requires TotalPreorder(le)
    requires Sorted(s, le)
    ensures Sorted(r, le)
    ensures multiset(r) == multiset(s) + multiset{x}
    ensures forall y :: y in r <==> y == x || y in s
  {
    if s == [] then [x]
    else if le(x, s[0]) then
      assert forall j :: 0 <= j < |s| ==> le(x, s[j]);
      [x] + s
    else
      var t := Insert(x, s[1..], le);
      assert s == [s[0]] + s[1..];
      assert forall y :: y in t ==> le(s[0], y);
      [s[0]] + t
  }

  /** The rows of `s` rearranged into `le` order. */
  function Sort<T(!new)>(s: seq<T>, le: (T, T) -> bool): (r: seq<T>)
    requires TotalPreorder(le)
    ensures Sorted(r, le)
    ensures multiset(r) == multiset(s)
    ensures |r| == |s|
    ensures forall y :: y in r <==> y in s
  {
    if s == [] then []
    else
      assert s == [s[0]] + s[1..];
      Insert(s[0], Sort(s[1..], le), le)
  }

  /** A prefix of a sorted sequence is sorted, and every element left out
      comes no earlier than every element kept: `ORDER BY ... LIMIT n`
      returns the first rows of the order. */
  lemma PrefixIsFirst<T>(s: seq<T>, n: nat, le: (T, T) -> bool)
    requires Sorted(s, le)
    requires n <= |s|
    ensures Sorted(s[..n], le)
    ensures forall x, y :: x in s[..n] && y in s[n..] ==> le(x, y)
  {
    forall x, y | x in s[..n] && y in s[n..]
      ensures le(x, y)
    {
      var i :| 0 <= i < n && s[..n][i] == x;
      var j :| 0 <= j < |s| - n && s[n..][j] == y;
      assert s[i] == x && s[n + j] == y;
    }
  }

  /** `ORDER BY key` (ascending). */
  function ByKey<T>(key: T -> int): (T, T) -> bool {
    (a: T, b: T) => key(a) <= key(b)
  }

  /** `ORDER BY desc(key)`. */
  function ByKeyDesc<T>(key: T -> int): (T, T) -> bool {
    (a: T, b: T) => key(a) >= key(b)
  }

  lemma ByKeyIsTotal<T(!new)>(key: T -> int)
    ensures TotalPreorder(ByKey(key))
    ensures TotalPreorder(ByKeyDesc(key))
  {
  }

  /** `SELECT view FROM rows WHERE keep ORDER BY le`: the views of the kept
      rows, one per kept row, in `le` order. */
  function OrderedView<R(!new), V(!new)>(rows: seq<R>, keep: R -> bool, view: R -> V, le: (V, V) -> bool): (r: seq<V>)
    requires TotalPreorder(le)
    ensures Sorted(r, le)
    ensures |r| == |Filter(rows, keep)|
    ensures multiset(r) == multiset(Map(Filter(rows, keep), view))
    ensures forall v :: v in r <==> exists x :: x in rows && keep(x) && view(x) == v
  {
    var kept := Filter(rows, keep);
    var views := Map(kept, view);
    forall v | v in views
      ensures exists x :: x in rows && keep(x) && view(x) == v
    {
      var i :| 0 <= i < |views| && views[i] == v;
      assert kept[i] in kept;
    }
    forall x | x in rows && keep(x)
      ensures view(x) in views
    {
      assert x in kept;
      var i :| 0 <= i < |kept| && kept[i] == x;
      assert views[i] == view(x);
    }
    Sort(views, le)
  }
}

=== FILE: storage.dfy ===
/** The string logic of the image store helpers (lib/supabase.ts): the object
    path an upload is stored under, the public URL it is served from, and
    the path a deletion extracts from that URL. The storage client, the
    random UUID and URL parsing are inputs. */
module Storage {
  import opened Results
  import opened Seqs
  import opened Strings

  const PortfolioBucket: string := "portfolio"

  /** Public objects are served under
      `<project url>/storage/v1/object/public/<bucket>/<object path>`; these
      are the pathname's segments before the object path. */
  const PublicSegments: seq<string> := ["", "storage", "v1", "object", "public", PortfolioBucket]

  /** `SUPABASE_URL` and `SUPABASE_SERVICE_ROLE_KEY`; an unset variable is "". */
  datatype Credentials = Credentials(url: string, serviceKey: string)

  predicate Configured(c: Credentials) {
    c.url != "" && c.serviceKey != ""
  }

  const NotConfigured: string := "Supabase credentials not configured"

  /** `name.split('.').pop() || 'jpg'`: the text after the last dot, the
      whole name when it has no dot, and "jpg" only when that text is empty. */
  function FileExtension(name: string): (r: string)
    ensures r != "" && '.' !in r
    ensures '.' !in name && name != "" ==> r == name
    ensures r == "jpg" || r == Split(name, '.')[|Split(name, '.')| - 1]
  {
    var parts := Split(name, '.');
    var last := parts[|parts| - 1];
    assert '.' !in name ==> parts == [name] by {
      if '.' !in name {
        SplitFree(name, '.');
      }
    }
    if last == "" then "jpg" else last
  }

  /** A name ending in `.<ext>` has extension `ext`. */
  lemma ExtensionAfterLastDot(base: string, ext: string)
    requires ext != "" && '.' !in ext
    ensures FileExtension(base + "." + ext) == ext
  {
    var parts := Split(base, '.');
    JoinSplit(base, '.');
    JoinAppend(parts, [ext], '.');
    assert base + "." + ext == Join(parts + [ext], '.');
    SplitJoin(parts + [ext], '.');
  }

  /** `team_<teamId>/<uuid>.<ext>`. */
  function UploadPath(teamId: int, uuid: string, ext: string): string {
    "team_" + IntToString(teamId) + "/" + uuid + "." + ext
  }

  /** The pathname of an object's public URL. */
  function ObjectPathname(path: string): string {
    Join(PublicSegments, '/') + "/" + path
  }

  function PublicUrl(c: Credentials, path: string): string {
    c.url + ObjectPathname(path)
  }

  /** `uploadPortfolioImage`: the public URL of the stored object, or the
      error it throws. `storageError` is what the storage client reports. */
  function UploadPortfolioImage(c: Credentials, fileName: string, teamId: int, uuid: string, storageError: Option<string>): (r: Result<string, string>)
    ensures r.Err? <==> !Configured(c) || storageError.Some?
    ensures !Configured(c) ==> r == Err(NotConfigured)
    ensures Configured(c) && storageError.Some? ==> r == Err("Failed to upload image: " + storageError.value)
    ensures r.Ok? ==> exists ext :: ext != "" && '.' !in ext && r.value == PublicUrl(c, UploadPath(teamId, uuid, ext))
    ensures r.Ok? ==> r.value == PublicUrl(c, UploadPath(teamId, uuid, FileExtension(fileName)))
  {
    if !Configured(c) then Err(NotConfigured)
    else if storageError.Some? then Err("Failed to upload image: " + storageError.value)
    else
      var ext := FileExtension(fileName);
      Ok(PublicUrl(c, UploadPath(teamId, uuid, ext)))
  }

  /** The object path a deletion extracts from a URL pathname: the last
      `keep` `/`-separated segments, joined again with `/`. */
  function LastSegments(pathname: string, keep: nat): (r: string)
    ensures keep >= 1 ==> Split(r, '/') == TakeLast(Split(pathname, '/'), keep)
  {
    var parts := TakeLast(Split(pathname, '/'), keep);
    assert keep >= 1 ==> Split(Join(parts, '/'), '/') == parts by {
      if keep >= 1 {
        SplitJoin(parts, '/');
      }
    }
    Join(parts, '/')
  }

  /** The number of segments `deletePortfolioImage` keeps as written. */
  const SegmentsKeptAsWritten: nat := 3

  /** The number that leaves out the bucket, as the comment there intends. */
  const SegmentsKept: nat := 2

  /** What a deletion asked the store to remove and whether it reports success. */
  datatype Removal = Removal(path: Option<string>, removed: bool)

  /** `deletePortfolioImage` keeping `keep` segments. `pathname` is the
      parsed URL's pathname, `None` when the URL does not parse;
      `removeFails` is whether the storage client reports an error. Only a
      missing configuration throws. */
  function DeleteKeeping(c: Credentials, pathname: Option<string>, removeFails: bool, keep: nat): (r: Result<Removal, string>)
    ensures r.Err? <==> !Configured(c)
    ensures r.Err? ==> r.error == NotConfigured
    ensures r.Ok? ==> (r.value.removed <==> pathname.Some? && !removeFails)
    ensures r.Ok? ==> (r.value.path.Some? <==> pathname.Some?)
    ensures r.Ok? && pathname.Some? ==> r.value.path.value == LastSegments(pathname.value, keep)
  {
    if !Configured(c) then Err(NotConfigured)
    else if pathname.None? then Ok(Removal(None, false))
    else Ok(Removal(Some(LastSegments(pathname.value, keep)), !removeFails))
  }

  function DeletePortfolioImageAsWritten(c: Credentials, pathname: Option<string>, removeFails: bool): Result<Removal, string> {
    DeleteKeeping(c, pathname, removeFails, SegmentsKeptAsWritten)
  }

  function DeletePortfolioImage(c: Credentials, pathname: Option<string>, removeFails: bool): Result<Removal, string> {
    DeleteKeeping(c, pathname, removeFails, SegmentsKept)
  }

  /** The segments of an object URL's pathname. */
  lemma PathnameSegments(teamId: int, uuid: string, ext: string)
    requires '/' !in uuid && '/' !in ext
    ensures Split(ObjectPathname(UploadPath(teamId, uuid, ext)), '/')
      == ["", "storage", "v1", "object", "public", PortfolioBucket, "team_" + IntToString(teamId), uuid + "." + ext]
  {
    var team := "team_" + IntToString(teamId);
    var file := uuid + "." + ext;
    var parts := PublicSegments + [team, file];
    assert UploadPath(teamId, uuid, ext) == Join([team, file], '/');
    JoinAppend(PublicSegments, [team, file], '/');
    assert forall k :: 0 <= k < |team| ==> team[k] != '/' by {
      assert forall k :: 0 <= k < |IntToString(teamId)| ==> IntToString(teamId)[k] != '/';
      assert forall k :: 5 <= k < |team| ==> team[k] == IntToString(teamId)[k - 5];
    }
    assert '/' !in file;
    SplitJoin(parts, '/');
  }

  /** `deletePortfolioImage` keeping three segments: deleting the image an upload returned asks the store to
      remove `portfolio/team_<id>/<file>` inside the portfolio bucket, which
      is not the object the upload stored. */
  lemma AsWrittenDeleteMissesUpload(c: Credentials, teamId: int, uuid: string, ext: string, removeFails: bool)
    requires Configured(c)
    requires '/' !in uuid && '/' !in ext
    ensures var path := UploadPath(teamId, uuid, ext);
      var r := DeletePortfolioImageAsWritten(c, Some(ObjectPathname(path)), removeFails);
      && r.Ok? && r.value.path == Some(PortfolioBucket + "/" + path)
      && r.value.path != Some(path)
  {
    var path := UploadPath(teamId, uuid, ext);
    PathnameSegments(teamId, uuid, ext);
    var parts := Split(ObjectPathname(path), '/');
    var team := "team_" + IntToString(teamId);
    var file := uuid + "." + ext;
    assert TakeLast(parts, 3) == [PortfolioBucket, team, file];
    assert path == Join([team, file], '/');
    assert [PortfolioBucket, team, file][1..] == [team, file];
    assert Join([PortfolioBucket, team, file], '/') == PortfolioBucket + "/" + path;
    assert |PortfolioBucket + "/" + path| > |path|;
  }

  /** Keeping two segments removes exactly the object the upload stored. */
  lemma DeleteFindsUpload(c: Credentials, teamId: int, uuid: string, ext: string, removeFails: bool)
    requires Configured(c)
    requires '/' !in uuid && '/' !in ext
    ensures DeletePortfolioImage(c, Some(ObjectPathname(UploadPath(teamId, uuid, ext))), removeFails)
      == Ok(Removal(Some(UploadPath(teamId, uuid, ext)), !removeFails))
  {
    var path := UploadPath(teamId, uuid, ext);
    PathnameSegments(teamId, uuid, ext);
    var parts := Split(ObjectPathname(path), '/');
    var team := "team_" + IntToString(teamId);
    var file := uuid + "." + ext;
    assert TakeLast(parts, 2) == [team, file];
    assert path == Join([team, file], '/');
  }

  /** An upload's URL, once parsed, is removed by the corrected deletion:
      the file name's own extension survives the round trip. */
  lemma UploadThenDeleteRoundTrip(c: Credentials, base: string, ext: string, teamId: int, uuid: string)
    requires Configured(c)
    requires ext != "" && '.' !in ext && '/' !in ext && '/' !in uuid
    ensures var u := UploadPortfolioImage(c, base + "." + ext, teamId, uuid, None);
      && u == Ok(PublicUrl(c, UploadPath(teamId, uuid, ext)))
      && DeletePortfolioImage(c, Some(ObjectPathname(UploadPath(teamId, uuid, ext))), false)
         == Ok(Removal(Some(UploadPath(teamId, uuid, ext)), true))
  {
    ExtensionAfterLastDot(base, ext);
    DeleteFindsUpload(c, teamId, uuid, ext, false);
  }
}

=== FILE: store.dfy ===
/** The statements the cascade issues against the store, their effect, and a
    transaction runner. The store enforces the schema's foreign keys: a
    statement whose result would leave a row pointing at a missing row fails,
    and so does a statement at which the store is told to fail (an injected
    fault standing for a lost connection or an aborted transaction). Either
    failure aborts the whole transaction. */
module Store {
  import opened Results
  import opened Seqs
  import opened Schema

  // ---------------------------------------------------------------------
  // Column selectors and row filters. Named so that the same filter
  // written in two places denotes the same function.
  // ---------------------------------------------------------------------

  function MemberUser(m: TeamMember): int { m.userId }
  function MemberTeam(m: TeamMember): int { m.teamId }
  function ProfileUser(p: BarberProfile): int { p.userId }
  function ServiceTeam(s: Service): int { s.teamId }
  function ProductTeam(p: Product): int { p.teamId }
  function BookingTeam(b: Booking): int { b.teamId }
  function BookingCustomer(b: Booking): int { b.customerId }
  function BookingBarber(b: Booking): int { b.barberId }
  function LogTeam(l: ActivityLog): int { l.teamId }
  function LogUser(l: ActivityLog): Option<int> { l.userId }
  function InvitationTeam(i: Invitation): int { i.teamId }
  function InvitationSender(i: Invitation): int { i.invitedBy }
  function PostTeam(p: Post): int { p.teamId }
  function PostBarber(p: Post): Option<int> { p.barberId }

  /** `WHERE key = v`. */
  function KeyIs<T>(key: T -> int, v: int): T -> bool {
    x => key(x) == v
  }

  /** Rows kept by `DELETE ... WHERE key = v`. */
  function KeyIsNot<T>(key: T -> int, v: int): T -> bool {
    x => key(x) != v
  }

  /** Rows kept by `DELETE ... WHERE key = v` on a nullable column: a NULL
      never equals `v`, so those rows stay. */
  function OptKeyIsNot<T>(key: T -> Option<int>, v: int): T -> bool {
    x => key(x) != Some(v)
  }

  /** Rows whose key is outside `S`. */
  function KeyNotIn<T>(key: T -> int, S: set<int>): T -> bool {
    x => key(x) !in S
  }

  // ---------------------------------------------------------------------
  // Statements
  // ---------------------------------------------------------------------

  datatype Stmt =
    | SelectMemberships(userId: int)
    | DeleteProfiles(userId: int)
    | DeleteCustomerBookings(userId: int)
    | DeleteBarberBookings(userId: int)
    | DeleteMemberships(userId: int)
    | DeleteSentInvitations(userId: int)
    | DeleteUserLogs(userId: int)
    | DeleteUserPosts(userId: int)
    | CountMembers(teamId: int)
    | DeleteTeamServices(teamId: int)
    | DeleteTeamProducts(teamId: int)
    | DeleteTeamBookings(teamId: int)
    | DeleteTeamInvitations(teamId: int)
    | DeleteTeamLogs(teamId: int)
    | DeleteTeamPosts(teamId: int)
    | DeleteTeam(teamId: int)
    | DeleteUser(userId: int)

  /** The effect of one statement on the store. Reads change nothing. */
  function Apply(d: Db, s: Stmt): Db {
    match s
    case SelectMemberships(_) => d
    case DeleteProfiles(u) => d.(profiles := Filter(d.profiles, KeyIsNot(ProfileUser, u)))
    case DeleteCustomerBookings(u) => d.(bookings := Filter(d.bookings, KeyIsNot(BookingCustomer, u)))
    case DeleteBarberBookings(u) => d.(bookings := Filter(d.bookings, KeyIsNot(BookingBarber, u)))
    case DeleteMemberships(u) => d.(members := Filter(d.members, KeyIsNot(MemberUser, u)))
    case DeleteSentInvitations(u) => d.(invitations := Filter(d.invitations, KeyIsNot(InvitationSender, u)))
    case DeleteUserLogs(u) => d.(logs := Filter(d.logs, OptKeyIsNot(LogUser, u)))
    case DeleteUserPosts(u) => d.(posts := Filter(d.posts, OptKeyIsNot(PostBarber, u)))
    case CountMembers(_) => d
    case DeleteTeamServices(t) => d.(services := Filter(d.services, KeyNotIn(ServiceTeam, {t})))
    case DeleteTeamProducts(t) => d.(products := Filter(d.products, KeyNotIn(ProductTeam, {t})))
    case DeleteTeamBookings(t) => d.(bookings := Filter(d.bookings, KeyNotIn(BookingTeam, {t})))
    case DeleteTeamInvitations(t) => d.(invitations := Filter(d.invitations, KeyNotIn(InvitationTeam, {t})))
    case DeleteTeamLogs(t) => d.(logs := Filter(d.logs, KeyNotIn(LogTeam, {t})))
    case DeleteTeamPosts(t) => d.(posts := Filter(d.posts, KeyNotIn(PostTeam, {t})))
    case DeleteTeam(t) => d.(teams := Filter(d.teams, KeyNotIn(TeamKey, {t})))
    case DeleteUser(u) => d.(users := Filter(d.users, KeyIsNot(UserKey, u)))
  }

  function ApplyAll(d: Db, ss: seq<Stmt>): Db
    decreases |ss|
  {
    if ss == [] then d else ApplyAll(Apply(d, ss[0]), ss[1..])
  }

  // ---------------------------------------------------------------------
  // Transactions
  // ---------------------------------------------------------------------

  datatype Abort = InjectedFault(at: nat) | ForeignKeyBroken(stmt: Stmt)

  /** The working copy inside a transaction and the number of statements
      issued so far. */
  datatype Tx = Tx(db: Db, issued: nat)

  /** Issues one statement. `fault == Some(k)` makes the store fail on the
      statement numbered `k` (counting from 0). */
  function Exec(t: Tx, s: Stmt, fault: Option<nat>): (r: Result<Tx, Abort>)
    ensures r.Ok? ==> r.value == Tx(Apply(t.db, s), t.issued + 1) && RefIntegrity(r.value.db)
    ensures fault == Some(t.issued) ==> r.Err?
  {
    if fault == Some(t.issued) then Err(InjectedFault(t.issued))
    else
      var d := Apply(t.db, s);
      if RefIntegrity(d) then Ok(Tx(d, t.issued + 1)) else Err(ForeignKeyBroken(s))
  }

  /** Issues statements in order, stopping at the first failure. A success
      leaves the store exactly as the statements' combined effect, with every
      foreign key intact. */
  function ExecAll(t: Tx, ss: seq<Stmt>, fault: Option<nat>): (r: Result<Tx, Abort>)
    ensures r.Ok? ==> r.value == Tx(ApplyAll(t.db, ss), t.issued + |ss|)
    ensures r.Ok? && ss != [] ==> RefIntegrity(r.value.db)
    decreases |ss|
  {
    if ss == [] then Ok(t)
    else
      var t1 :- Exec(t, ss[0], fault);
      ExecAll(t1, ss[1..], fault)
  }

  /** Seven statements applied in turn. */
  lemma ApplyAllSeven(d: Db, ss: seq<Stmt>)
    requires |ss| == 7
    ensures ApplyAll(d, ss) == Apply(Apply(Apply(Apply(Apply(Apply(Apply(d, ss[0]), ss[1]), ss[2]), ss[3]), ss[4]), ss[5]), ss[6])
  {
    var d1 := Apply(d, ss[0]);
    var d2 := Apply(d1, ss[1]);
    var d3 := Apply(d2, ss[2]);
    var d4 := Apply(d3, ss[3]);
    var d5 := Apply(d4, ss[4]);
    var d6 := Apply(d5, ss[5]);
    assert ApplyAll(d6, ss[6..]) == Apply(d6, ss[6]) by { assert ss[6..][1..] == []; }
    assert ApplyAll(d5, ss[5..]) == ApplyAll(d6, ss[6..]) by { assert ss[5..][1..] == ss[6..]; }
    assert ApplyAll(d4, ss[4..]) == ApplyAll(d5, ss[5..]) by { assert ss[4..][1..] == ss[5..]; }
    assert ApplyAll(d3, ss[3..]) == ApplyAll(d4, ss[4..]) by { assert ss[3..][1..] == ss[4..]; }
    assert ApplyAll(d2, ss[2..]) == ApplyAll(d3, ss[3..]) by { assert ss[2..][1..] == ss[3..]; }
    assert ApplyAll(d1, ss[1..]) == ApplyAll(d2, ss[2..]) by { assert ss[1..][1..] == ss[2..]; }
  }

  /** Every statement of `ss`, applied in turn from `d`, leaves the foreign
      keys intact. */
  ghost predicate StepsKeep(d: Db, ss: seq<Stmt>)
    decreases |ss|
  {
    ss == [] || (RefIntegrity(Apply(d, ss[0])) && StepsKeep(Apply(d, ss[0]), ss[1..]))
  }

  /** Without an injected fault, statements that each keep the foreign keys
      intact all commit. */
  lemma {:induction false} ExecAllNoFault(t: Tx, ss: seq<Stmt>)
    requires StepsKeep(t.db, ss)
    ensures ExecAll(t, ss, None) == Ok(Tx(ApplyAll(t.db, ss), t.issued + |ss|))
    decreases |ss|
  {
    if ss != [] {
      ExecAllNoFault(Tx(Apply(t.db, ss[0]), t.issued + 1), ss[1..]);
    }
  }

  lemma StepsKeepSeven(d: Db, ss: seq<Stmt>)
    requires |ss| == 7
    requires RefIntegrity(Apply(d, ss[0]))
    requires RefIntegrity(Apply(Apply(d, ss[0]), ss[1]))
    requires RefIntegrity(Apply(Apply(Apply(d, ss[0]), ss[1]), ss[2]))
    requires RefIntegrity(Apply(Apply(Apply(Apply(d, ss[0]), ss[1]), ss[2]), ss[3]))
    requires RefIntegrity(Apply(Apply(Apply(Apply(Apply(d, ss[0]), ss[1]), ss[2]), ss[3]), ss[4]))
    requires RefIntegrity(Apply(Apply(Apply(Apply(Apply(Apply(d, ss[0]), ss[1]), ss[2]), ss[3]), ss[4]), ss[5]))
    requires RefIntegrity(Apply(Apply(Apply(Apply(Apply(Apply(Apply(d, ss[0]), ss[1]), ss[2]), ss[3]), ss[4]), ss[5]), ss[6]))
    ensures StepsKeep(d, ss)
  {
    var d1 := Apply(d, ss[0]);
    var d2 := Apply(d1, ss[1]);
    var d3 := Apply(d2, ss[2]);
    var d4 := Apply(d3, ss[3]);
    var d5 := Apply(d4, ss[4]);
    var d6 := Apply(d5, ss[5]);
    assert StepsKeep(d6, ss[6..]) by { assert ss[6..][1..] == []; }
    assert StepsKeep(d5, ss[5..]) by { assert ss[5..][1..] == ss[6..]; }
    assert StepsKeep(d4, ss[4..]) by { assert ss[4..][1..] == ss[5..]; }
    assert StepsKeep(d3, ss[3..]) by { assert ss[3..][1..] == ss[4..]; }
    assert StepsKeep(d2, ss[2..]) by { assert ss[2..][1..] == ss[3..]; }
    assert StepsKeep(d1, ss[1..]) by { assert ss[1..][1..] == ss[2..]; }
  }

  lemma ApplyAllThree(d: Db, ss: seq<Stmt>)
    requires |ss| == 3
    ensures ApplyAll(d, ss) == Apply(Apply(Apply(d, ss[0]), ss[1]), ss[2])
  {
    var d1 := Apply(d, ss[0]);
    var d2 := Apply(d1, ss[1]);
    assert ApplyAll(d2, ss[2..]) == Apply(d2, ss[2]) by { assert ss[2..][1..] == []; }
    assert ApplyAll(d1, ss[1..]) == ApplyAll(d2, ss[2..]) by { assert ss[1..][1..] == ss[2..]; }
  }

  lemma StepsKeepThree(d: Db, ss: seq<Stmt>)
    requires |ss| == 3
    requires RefIntegrity(Apply(d, ss[0]))
    requires RefIntegrity(Apply(Apply(d, ss[0]), ss[1]))
    requires RefIntegrity(Apply(Apply(Apply(d, ss[0]), ss[1]), ss[2]))
    ensures StepsKeep(d, ss)
  {
    var d1 := Apply(d, ss[0]);
    var d2 := Apply(d1, ss[1]);
    assert StepsKeep(d2, ss[2..]) by { assert ss[2..][1..] == []; }
    assert StepsKeep(d1, ss[1..]) by { assert ss[1..][1..] == ss[2..]; }
  }

  lemma StepsKeepFour(d: Db, ss: seq<Stmt>)
    requires |ss| == 4
    requires RefIntegrity(Apply(d, ss[0]))
    requires RefIntegrity(Apply(Apply(d, ss[0]), ss[1]))
    requires RefIntegrity(Apply(Apply(Apply(d, ss[0]), ss[1]), ss[2]))
    requires RefIntegrity(Apply(Apply(Apply(Apply(d, ss[0]), ss[1]), ss[2]), ss[3]))
    ensures StepsKeep(d, ss)
  {
    var d1 := Apply(d, ss[0]);
    var d2 := Apply(d1, ss[1]);
    var d3 := Apply(d2, ss[2]);
    assert StepsKeep(d3, ss[3..]) by { assert ss[3..][1..] == []; }
    assert StepsKeep(d2, ss[2..]) by { assert ss[2..][1..] == ss[3..]; }
    assert StepsKeep(d1, ss[1..]) by { assert ss[1..][1..] == ss[2..]; }
  }

  /** Statements that keep the keys intact can be issued one batch after
      another. */
  lemma {:induction false} StepsKeepAppend(d: Db, a: seq<Stmt>, b: seq<Stmt>)
    requires StepsKeep(d, a) && StepsKeep(ApplyAll(d, a), b)
    ensures StepsKeep(d, a + b)
    decreases |a|
  {
    if a == [] {
      assert a + b == b;
    } else {
      assert (a + b)[0] == a[0] && (a + b)[1..] == a[1..] + b;
      StepsKeepAppend(Apply(d, a[0]), a[1..], b);
    }
  }

  // ---------------------------------------------------------------------
  // Removing whole teams
  // ---------------------------------------------------------------------

  /** The store without the teams in `S` and without every team-scoped row
      (service, product, booking, invitation, activity log, post) of them. */
  function DropTeams(d: Db, S: set<int>): Db {
    d.(teams := Filter(d.teams, KeyNotIn(TeamKey, S)),
       services := Filter(d.services, KeyNotIn(ServiceTeam, S)),
       products := Filter(d.products, KeyNotIn(ProductTeam, S)),
       bookings := Filter(d.bookings, KeyNotIn(BookingTeam, S)),
       invitations := Filter(d.invitations, KeyNotIn(InvitationTeam, S)),
       logs := Filter(d.logs, KeyNotIn(LogTeam, S)),
       posts := Filter(d.posts, KeyNotIn(PostTeam, S)))
  }

  // Chains of statements are proved two statements at a time.

  lemma InvitationsLogsSteps(d: Db, t: int)
    ensures Apply(Apply(d, DeleteTeamInvitations(t)), DeleteTeamLogs(t))
            == d.(invitations := Filter(d.invitations, KeyNotIn(InvitationTeam, {t})),
                  logs := Filter(d.logs, KeyNotIn(LogTeam, {t})))
  {
  }

  lemma PostsTeamSteps(d: Db, t: int)
    ensures Apply(Apply(d, DeleteTeamPosts(t)), DeleteTeam(t))
            == d.(posts := Filter(d.posts, KeyNotIn(PostTeam, {t})),
                  teams := Filter(d.teams, KeyNotIn(TeamKey, {t})))
  {
  }

  lemma ServicesProductsSteps(d: Db, t: int)
    ensures Apply(Apply(d, DeleteTeamServices(t)), DeleteTeamProducts(t))
            == d.(services := Filter(d.services, KeyNotIn(ServiceTeam, {t})),
                  products := Filter(d.products, KeyNotIn(ProductTeam, {t})))
  {
  }

  lemma PostsStep(d: Db, t: int)
    ensures Apply(d, DeleteTeamPosts(t)) == d.(posts := Filter(d.posts, KeyNotIn(PostTeam, {t})))
  {
  }

  lemma BookingsStep(d: Db, t: int)
    ensures Apply(d, DeleteTeamBookings(t)) == d.(bookings := Filter(d.bookings, KeyNotIn(BookingTeam, {t})))
  {
  }

  /** Deleting invitations, logs, posts and then the team row. */
  lemma TeamTailSteps(d: Db, t: int)
    ensures Apply(Apply(Apply(Apply(d, DeleteTeamInvitations(t)), DeleteTeamLogs(t)), DeleteTeamPosts(t)), DeleteTeam(t))
            == d.(invitations := Filter(d.invitations, KeyNotIn(InvitationTeam, {t})),
                  logs := Filter(d.logs, KeyNotIn(LogTeam, {t})),
                  posts := Filter(d.posts, KeyNotIn(PostTeam, {t})),
                  teams := Filter(d.teams, KeyNotIn(TeamKey, {t})))
  {
    InvitationsLogsSteps(d, t);
    PostsTeamSteps(Apply(Apply(d, DeleteTeamInvitations(t)), DeleteTeamLogs(t)), t);
  }

  /** Deleting services, products, bookings, invitations, logs, posts and
      then the team row is dropping the team. */
  lemma ServicesFirstSteps(d: Db, t: int)
    ensures Apply(Apply(Apply(Apply(Apply(Apply(Apply(d, DeleteTeamServices(t)), DeleteTeamProducts(t)),
              DeleteTeamBookings(t)), DeleteTeamInvitations(t)), DeleteTeamLogs(t)), DeleteTeamPosts(t)), DeleteTeam(t))
            == DropTeams(d, {t})
  {
    ServicesProductsSteps(d, t);
    var d2 := Apply(Apply(d, DeleteTeamServices(t)), DeleteTeamProducts(t));
    BookingsStep(d2, t);
    TeamTailSteps(Apply(d2, DeleteTeamBookings(t)), t);
  }

  /** The same deletes with the bookings moved to the front. */
  lemma BookingsFirstSteps(d: Db, t: int)
    ensures Apply(Apply(Apply(Apply(Apply(Apply(Apply(d, DeleteTeamBookings(t)), DeleteTeamServices(t)), DeleteTeamProducts(t)),
              DeleteTeamInvitations(t)), DeleteTeamLogs(t)), DeleteTeamPosts(t)), DeleteTeam(t))
            == DropTeams(d, {t})
  {
    BookingsStep(d, t);
    var d1 := Apply(d, DeleteTeamBookings(t));
    ServicesProductsSteps(d1, t);
    TeamTailSteps(Apply(Apply(d1, DeleteTeamServices(t)), DeleteTeamProducts(t)), t);
  }

  lemma KeyNotInTwice<T(!new)>(s: seq<T>, key: T -> int, A: set<int>, B: set<int>)
    ensures Filter(Filter(s, KeyNotIn(key, A)), KeyNotIn(key, B)) == Filter(s, KeyNotIn(key, A + B))
  {
    FilterFilter(s, KeyNotIn(key, A), KeyNotIn(key, B));
    FilterExt(s, x => KeyNotIn(key, A)(x) && KeyNotIn(key, B)(x), KeyNotIn(key, A + B));
  }

  lemma KeyNotInNone<T(!new)>(s: seq<T>, key: T -> int)
    ensures Filter(s, KeyNotIn(key, {})) == s
  {
    FilterAll(s, KeyNotIn(key, {}));
  }

  /** Dropping `A` and then `B` is dropping `A + B`; in particular dropping
      the same team twice is dropping it once. */
  lemma DropTeamsTwice(d: Db, A: set<int>, B: set<int>)
    ensures DropTeams(DropTeams(d, A), B) == DropTeams(d, A + B)
  {
    KeyNotInTwice(d.teams, TeamKey, A, B);
    KeyNotInTwice(d.services, ServiceTeam, A, B);
    KeyNotInTwice(d.products, ProductTeam, A, B);
    KeyNotInTwice(d.bookings, BookingTeam, A, B);
    KeyNotInTwice(d.invitations, InvitationTeam, A, B);
    KeyNotInTwice(d.logs, LogTeam, A, B);
    KeyNotInTwice(d.posts, PostTeam, A, B);
  }

  lemma DropNoTeams(d: Db)
    ensures DropTeams(d, {}) == d
  {
    KeyNotInNone(d.teams, TeamKey);
    KeyNotInNone(d.services, ServiceTeam);
    KeyNotInNone(d.products, ProductTeam);
    KeyNotInNone(d.bookings, BookingTeam);
    KeyNotInNone(d.invitations, InvitationTeam);
    KeyNotInNone(d.logs, LogTeam);
    KeyNotInNone(d.posts, PostTeam);
  }

  // ---------------------------------------------------------------------
  // Which deletes keep the foreign keys intact
  // ---------------------------------------------------------------------

  /** `d'` keeps the users, teams and services of `d` and a subset of every
      other table: nothing any foreign key points at has gone. */
  predicate ShrinksLeaves(d: Db, d': Db) {
    && d'.users == d.users && d'.teams == d.teams && d'.services == d.services
    && (forall x :: x in d'.members ==> x in d.members)
    && (forall x :: x in d'.profiles ==> x in d.profiles)
    && (forall x :: x in d'.products ==> x in d.products)
    && (forall x :: x in d'.bookings ==> x in d.bookings)
    && (forall x :: x in d'.logs ==> x in d.logs)
    && (forall x :: x in d'.invitations ==> x in d.invitations)
    && (forall x :: x in d'.posts ==> x in d.posts)
  }

  /** Deleting rows nothing points at keeps the store well-formed. */
  lemma LeafDeleteKeepsIntegrity(d: Db, d': Db)
    requires WellFormed(d)
    requires ShrinksLeaves(d, d')
    ensures WellFormed(d')
  {
  }

  /** Statements that delete only rows no foreign key points at. */
  predicate IsLeafDelete(s: Stmt) {
    || s.DeleteProfiles? || s.DeleteCustomerBookings? || s.DeleteBarberBookings? || s.DeleteMemberships?
    || s.DeleteSentInvitations? || s.DeleteUserLogs? || s.DeleteUserPosts? || s.DeleteTeamProducts?
    || s.DeleteTeamBookings? || s.DeleteTeamInvitations? || s.DeleteTeamLogs? || s.DeleteTeamPosts?
  }

  lemma LeafStep(d: Db, s: Stmt)
    requires WellFormed(d) && IsLeafDelete(s)
    ensures WellFormed(Apply(d, s))
  {
    LeafDeleteKeepsIntegrity(d, Apply(d, s));
  }

  lemma HasTeamKept(teams: seq<Team>, id: int, S: set<int>)
    requires HasTeam(teams, id) && id !in S
    ensures HasTeam(Filter(teams, KeyNotIn(TeamKey, S)), id)
  {
    var t :| t in teams && t.id == id;
    assert t in Filter(teams, KeyNotIn(TeamKey, S));
  }

  lemma HasUserKept(users: seq<User>, id: int, u: int)
    requires HasUser(users, id) && id != u
    ensures HasUser(Filter(users, KeyIsNot(UserKey, u)), id)
  {
    var x :| x in users && x.id == id;
    assert x in Filter(users, KeyIsNot(UserKey, u));
  }

  /** Deleting a team's services is safe once no booking of that team is
      left, provided bookings use their own team's services. */
  lemma DeleteServicesKeepsIntegrity(d: Db, t: int)
    requires WellFormed(d)
    requires forall b :: b in d.bookings ==> b.teamId != t
    ensures WellFormed(Apply(d, DeleteTeamServices(t)))
  {
    var d' := Apply(d, DeleteTeamServices(t));
    var keep := KeyNotIn(ServiceTeam, {t});
    assert d'.services == Filter(d.services, keep) && d'.bookings == d.bookings;
    forall b | b in d'.bookings
      ensures HasService(d'.services, b.serviceId)
    {
      var s :| s in d.services && s.id == b.serviceId;
      assert s.teamId == b.teamId != t;
      assert ServiceTeam(s) !in {t};
      assert keep(s);
      assert s in d'.services;
    }
  }

  /** Deleting a team row is safe once no row of any table names it. */
  lemma DeleteTeamKeepsIntegrity(d: Db, t: int)
    requires WellFormed(d)
    requires forall x :: x in d.members ==> x.teamId != t
    requires forall x :: x in d.services ==> x.teamId != t
    requires forall x :: x in d.products ==> x.teamId != t
    requires forall x :: x in d.bookings ==> x.teamId != t
    requires forall x :: x in d.invitations ==> x.teamId != t
    requires forall x :: x in d.logs ==> x.teamId != t
    requires forall x :: x in d.posts ==> x.teamId != t
    ensures WellFormed(Apply(d, DeleteTeam(t)))
  {
    var ts := Filter(d.teams, KeyNotIn(TeamKey, {t}));
    forall id | HasTeam(d.teams, id) && id != t
      ensures HasTeam(ts, id)
    {
      HasTeamKept(d.teams, id, {t});
    }
  }

  /** No row other than the user row itself names user `u`. */
  predicate NoRowsOfUser(d: Db, u: int) {
    && (forall m :: m in d.members ==> m.userId != u)
    && (forall p :: p in d.profiles ==> p.userId != u)
    && (forall b :: b in d.bookings ==> b.customerId != u && b.barberId != u)
    && (forall i :: i in d.invitations ==> i.invitedBy != u)
    && (forall l :: l in d.logs ==> l.userId != Some(u))
    && (forall p :: p in d.posts ==> p.barberId != Some(u))
  }

  /** Every statement only deletes, so a store without rows naming `u`
      stays so. */
  lemma StepKeepsNoRows(d: Db, s: Stmt, u: int)
    requires NoRowsOfUser(d, u)
    ensures NoRowsOfUser(Apply(d, s), u)
  {
  }

  /** Dropping teams keeps bookings on their own team's services. */
  lemma DropKeepsOwnServices(d: Db, S: set<int>)
    requires BookingsUseOwnServices(d)
    ensures BookingsUseOwnServices(DropTeams(d, S))
  {
  }

  lemma DropKeepsNoRows(d: Db, S: set<int>, u: int)
    requires NoRowsOfUser(d, u)
    ensures NoRowsOfUser(DropTeams(d, S), u)
  {
  }

  /** Deleting a user row is safe once no other row names the user. */
  lemma DeleteUserKeepsIntegrity(d: Db, u: int)
    requires WellFormed(d)
    requires NoRowsOfUser(d, u)
    ensures WellFormed(Apply(d, DeleteUser(u)))
  {
    var us := Filter(d.users, KeyIsNot(UserKey, u));
    forall id | HasUser(d.users, id) && id != u
      ensures HasUser(us, id)
    {
      HasUserKept(d.users, id, u);
    }
  }
}

=== FILE: strings.dfy ===
/** String operations the application takes from JavaScript: `split` and `join`
    on a one-character separator, ASCII `toLowerCase`/`toUpperCase`,
    `includes`, decimal rendering of integers, and the code-point order
    (the C collation) taken here for `ORDER BY` on text. */
module Strings {

  /** `s.split(sep)`: always at least one piece; no piece holds `sep`. */
  function Split(s: string, sep: char): (r: seq<string>)
    ensures |r| >= 1
    ensures forall i :: 0 <= i < |r| ==> sep !in r[i]
    decreases |s|
  {
    if |s| == 0 then [""]
    else
      var rest := Split(s[1..], sep);
      if s[0] == sep then [""] + rest
      else [[s[0]] + rest[0]] + rest[1..]
  }

  /** `parts.join(sep)`. */
  function Join(parts: seq<string>, sep: char): string
  {
    if |parts| == 0 then ""
    else if |parts| == 1 then parts[0]
    else parts[0] + [sep] + Join(parts[1..], sep)
  }

  /** Joining the pieces of a split restores the string. */
  lemma {:induction false} JoinSplit(s: string, sep: char)
    ensures Join(Split(s, sep), sep) == s
    decreases |s|
  {
    if |s| > 0 {
      var rest := Split(s[1..], sep);
      JoinSplit(s[1..], sep);
      if s[0] == sep {
        assert Split(s, sep) == [""] + rest;
        assert ([""] + rest)[1..] == rest;
        assert s == [sep] + s[1..];
      } else {
        var head := [s[0]] + rest[0];
        assert Split(s, sep) == [head] + rest[1..];
        if |rest| == 1 {
          assert Join(rest, sep) == rest[0];
        } else {
          assert Join(rest, sep) == rest[0] + [sep] + Join(rest[1..], sep);
          assert ([head] + rest[1..])[1..] == rest[1..];
        }
        assert s == [s[0]] + s[1..];
      }
    }
  }

  /** Splitting a join of separator-free pieces gives the pieces back. */
  lemma {:induction false} SplitJoin(parts: seq<string>, sep: char)
    requires |parts| >= 1
    requires forall i :: 0 <= i < |parts| ==> sep !in parts[i]
    ensures Split(Join(parts, sep), sep) == parts
    decreases |parts|, |parts[0]|
  {
    if |parts| == 1 {
      SplitFree(parts[0], sep);
    } else if |parts[0]| == 0 {
      var tail := Join(parts[1..], sep);
      assert Join(parts, sep) == [sep] + tail;
      assert ([sep] + tail)[1..] == tail;
      SplitJoin(parts[1..], sep);
      assert parts == [""] + parts[1..];
    } else {
      var p0 := parts[0];
      var shorter := [p0[1..]] + parts[1..];
      assert shorter[1..] == parts[1..];
      assert Join(shorter, sep) == p0[1..] + [sep] + Join(parts[1..], sep);
      assert Join(parts, sep) == [p0[0]] + Join(shorter, sep);
      assert (forall i :: 0 <= i < |shorter| ==> sep !in shorter[i]) by {
        assert sep !in p0;
      }
      SplitJoin(shorter, sep);
      assert ([p0[0]] + Join(shorter, sep))[1..] == Join(shorter, sep);
      assert p0 == [p0[0]] + p0[1..];
      assert p0[0] != sep;
    }
  }

  /** A string without the separator splits into itself. */
  lemma {:induction false} SplitFree(s: string, sep: char)
    requires sep !in s
    ensures Split(s, sep) == [s]
    decreases |s|
  {
    if |s| > 0 {
      SplitFree(s[1..], sep);
      assert s == [s[0]] + s[1..];
    }
  }

  /** Joining two non-empty lists of pieces puts one separator between them. */
  lemma {:induction false} JoinAppend(a: seq<string>, b: seq<string>, sep: char)
    requires |a| >= 1 && |b| >= 1
    ensures Join(a + b, sep) == Join(a, sep) + [sep] + Join(b, sep)
    decreases |a|
  {
    if |a| == 1 {
      assert (a + b)[1..] == b;
    } else {
      JoinAppend(a[1..], b, sep);
      assert (a + b)[1..] == a[1..] + b;
    }
  }

  function LowerChar(c: char): char {
    if 'A' <= c <= 'Z' then (c as int + 32) as char else c
  }

  function UpperChar(c: char): char {
    if 'a' <= c <= 'z' then (c as int - 32) as char else c
  }

  /** `toLowerCase()`, on the ASCII letters. */
  function ToLower(s: string): (r: string)
    ensures |r| == |s|
    ensures forall i :: 0 <= i < |s| ==> r[i] == LowerChar(s[i])
  {
    seq(|s|, i requires 0 <= i < |s| => LowerChar(s[i]))
  }

  /** `toUpperCase()`, on the ASCII letters. */
  function ToUpper(s: string): (r: string)
    ensures |r| == |s|
    ensures forall i :: 0 <= i < |s| ==> r[i] == UpperChar(s[i])
  {
    seq(|s|, i requires 0 <= i < |s| => UpperChar(s[i]))
  }

  /** `s.includes(sub)`. */
  predicate Contains(s: string, sub: string)
    decreases |s|
  {
    sub <= s || (|s| > 0 && Contains(s[1..], sub))
  }

  function DigitChar(d: nat): (r: char)
    requires d < 10
    ensures '0' <= r <= '9' && DigitValue(r) == d
  {
    "0123456789"[d]
  }

  predicate IsDigit(c: char) {
    '0' <= c <= '9'
  }

  /** The value of one decimal digit. */
  function DigitValue(c: char): nat
    requires IsDigit(c)
  {
    c as int - '0' as int
  }

  predicate AllDigits(s: string) {
    forall i :: 0 <= i < |s| ==> '0' <= s[i] <= '9'
  }

  /** The number a string of decimal digits denotes (`Number(s)` on digits). */
  function DecimalValue(s: string): nat
    requires AllDigits(s)
  {
    if s == [] then 0 else DecimalValue(s[..|s| - 1]) * 10 + DigitValue(s[|s| - 1])
  }

  /** Decimal rendering of a natural number, without leading zeros. */
  function NatToString(n: nat): (r: string)
    ensures |r| >= 1
    ensures AllDigits(r)
    ensures r[0] == '0' <==> n == 0
  {
    if n < 10 then [DigitChar(n)] else NatToString(n / 10) + [DigitChar(n % 10)]
  }

  /** Reading the rendering back gives the number. */
  lemma {:induction false} NatToStringValue(n: nat)
    ensures DecimalValue(NatToString(n)) == n
  {
    if n >= 10 {
      NatToStringValue(n / 10);
      var r := NatToString(n);
      assert r[..|r| - 1] == NatToString(n / 10);
    }
  }

  /** JavaScript's rendering of an integer in a template literal. */
  function IntToString(n: int): (r: string)
    ensures |r| >= 1
    ensures forall i :: 0 <= i < |r| ==> r[i] == '-' || '0' <= r[i] <= '9'
  {
    if n < 0 then "-" + NatToString(-n) else NatToString(n)
  }

  /** Lexicographic order on code points. */
  predicate StrLe(a: string, b: string)
    decreases |a|
  {
    if a == [] then true
    else if b == [] then false
    else if a[0] != b[0] then a[0] < b[0]
    else StrLe(a[1..], b[1..])
  }

  lemma {:induction false} StrLeTotal(a: string, b: string)
    ensures StrLe(a, b) || StrLe(b, a)
    decreases |a|
  {
    if a != [] && b != [] && a[0] == b[0] {
      StrLeTotal(a[1..], b[1..]);
    }
  }

  lemma {:induction false} StrLeTrans(a: string, b: string, c: string)
    requires StrLe(a, b) && StrLe(b, c)
    ensures StrLe(a, c)
    decreases |a|
  {
    if a != [] && b != [] && c != [] && a[0] == b[0] && b[0] == c[0] {
      StrLeTrans(a[1..], b[1..], c[1..]);
    }
  }
}

=== FILE: super_admin.dfy ===
/** Super-admin actions (lib/actions/super-admin.ts): the role guard they
    share, the cascading deletion of a user with reclamation of the teams it
    leaves empty, and the three listing actions. */
module SuperAdmin {
  import opened Results
  import opened Seqs
  import opened Schema
  import opened Store
  import opened Sorting

  datatype AdminError = Unauthorized | SelfDeletionForbidden | DeletionFailed

  function ErrorMessage(e: AdminError): string {
    match e
    case Unauthorized => "Unauthorized: Super Admin access required"
    case SelfDeletionForbidden => "Cannot delete your own super admin account"
    case DeletionFailed => "Failed to delete user"
  }

  const DeletedMessage: string := "User and all related data deleted successfully"

  /** The guard every super-admin action starts with: the caller must be
      signed in and hold the 'super_admin' role. */
  function RequireSuperAdmin(caller: Option<User>): (r: Result<User, AdminError>)
    ensures r.Ok? <==> caller.Some? && caller.value.role == SuperAdmin
    ensures r.Ok? ==> r.value == caller.value
    ensures r.Err? ==> r.error == Unauthorized
  {
    if caller.None? || caller.value.role != SuperAdmin then Err(Unauthorized) else Ok(caller.value)
  }

  // ---------------------------------------------------------------------
  // The cascade as `deleteAnyUser` issues it
  // ---------------------------------------------------------------------

  /** The team ids of the user's memberships, in membership order and with
      repeats, read before any membership is deleted. */
  function TeamIdsOf(members: seq<TeamMember>, u: int): (r: seq<int>)
    ensures forall t :: t in r <==> exists m :: m in members && m.userId == u && m.teamId == t
  {
    var mine := Filter(members, KeyIs(MemberUser, u));
    var r := Map(mine, MemberTeam);
    forall t | t in r
      ensures exists m :: m in members && m.userId == u && m.teamId == t
    {
      var i :| 0 <= i < |r| && r[i] == t;
      var m := mine[i];
      assert m in mine;
      assert MemberUser(m) == m.userId && MemberTeam(m) == m.teamId;
      assert m in members && m.userId == u && m.teamId == t;
    }
    forall m | m in members && m.userId == u
      ensures m.teamId in r
    {
      assert MemberUser(m) == m.userId && MemberTeam(m) == m.teamId;
      assert m in mine;
      var i :| 0 <= i < |mine| && mine[i] == m;
      assert r[i] == m.teamId;
    }
    r
  }

  predicate HasMembers(members: seq<TeamMember>, t: int) {
    exists m | m in members :: m.teamId == t
  }

  /** Steps 2 to 8: every row keyed by the user, other than the user row. */
  function UserRowDeletes(u: int): seq<Stmt> {
    [ DeleteProfiles(u), DeleteCustomerBookings(u), DeleteBarberBookings(u), DeleteMemberships(u),
      DeleteSentInvitations(u), DeleteUserLogs(u), DeleteUserPosts(u) ]
  }

  /** The order in which an emptied team's rows are deleted. `AsWritten` is
      `deleteAnyUser`'s order (services first); `BookingsFirst` deletes the
      bookings before the services they reference. */
  datatype ReclaimOrder = AsWritten | BookingsFirst

  function ReclaimStmts(t: int, order: ReclaimOrder): seq<Stmt> {
    match order
    case AsWritten =>
      [ DeleteTeamServices(t), DeleteTeamProducts(t), DeleteTeamBookings(t), DeleteTeamInvitations(t),
        DeleteTeamLogs(t), DeleteTeamPosts(t), DeleteTeam(t) ]
    case BookingsFirst =>
      [ DeleteTeamBookings(t), DeleteTeamServices(t), DeleteTeamProducts(t), DeleteTeamInvitations(t),
        DeleteTeamLogs(t), DeleteTeamPosts(t), DeleteTeam(t) ]
  }

  /** Step 9 for one collected team id: count the team's remaining members
      and, when there are none, delete the team and its rows. */
  function ReclaimOne(t: Tx, id: int, order: ReclaimOrder, fault: Option<nat>): Result<Tx, Abort> {
    var t1 :- Exec(t, CountMembers(id), fault);
    if HasMembers(t1.db.members, id) then Ok(t1)
    else ExecAll(t1, ReclaimStmts(id, order), fault)
  }

  /** Step 9 for every collected team id, in order. */
  function ReclaimEach(t: Tx, teamIds: seq<int>, order: ReclaimOrder, fault: Option<nat>): Result<Tx, Abort>
    decreases |teamIds|
  {
    if teamIds == [] then Ok(t)
    else
      var t1 :- ReclaimOne(t, teamIds[0], order, fault);
      ReclaimEach(t1, teamIds[1..], order, fault)
  }

  /** The body of `db.transaction(...)`: steps 1 to 10 on a working copy. */
  function Transaction(db: Db, u: int, order: ReclaimOrder, fault: Option<nat>): Result<Db, Abort> {
    var t0 :- Exec(Tx(db, 0), SelectMemberships(u), fault);
    var teamIds := TeamIdsOf(db.members, u);
    var t1 :- ExecAll(t0, UserRowDeletes(u), fault);
    var t2 :- ReclaimEach(t1, teamIds, order, fault);
    var t3 :- Exec(t2, DeleteUser(u), fault);
    Ok(t3.db)
  }

  /** The store after the call and what the caller gets back. */
  datatype Reply = Reply(db: Db, status: Result<string, AdminError>)

  function DeleteAnyUserWith(caller: Option<User>, target: int, db: Db, fault: Option<nat>, order: ReclaimOrder): Reply {
    match RequireSuperAdmin(caller)
    case Err(e) => Reply(db, Err(e))
    case Ok(admin) =>
      if admin.id == target then Reply(db, Err(SelfDeletionForbidden))
      else
        match Transaction(db, target, order, fault)
        case Ok(d) => Reply(d, Ok(DeletedMessage))
        case Err(_) => Reply(db, Err(DeletionFailed))
  }

  // ---------------------------------------------------------------------
  // What the cascade is meant to achieve, stated declaratively
  // ---------------------------------------------------------------------

  /** Ids among `teamIds` whose teams have no member in `members`. */
  function EmptiedAmong(members: seq<TeamMember>, teamIds: seq<int>): set<int> {
    set t | t in teamIds && !HasMembers(members, t)
  }

  /** The teams the user belonged to that have no other member. */
  function Emptied(db: Db, u: int): set<int> {
    EmptiedAmong(Filter(db.members, KeyIsNot(MemberUser, u)), TeamIdsOf(db.members, u))
  }

  function BookingSurvives(u: int, gone: set<int>): Booking -> bool {
    (b: Booking) => b.customerId != u && b.barberId != u && b.teamId !in gone
  }

  function LogSurvives(u: int, gone: set<int>): ActivityLog -> bool {
    (l: ActivityLog) => l.userId != Some(u) && l.teamId !in gone
  }

  function InvitationSurvives(u: int, gone: set<int>): Invitation -> bool {
    (i: Invitation) => i.invitedBy != u && i.teamId !in gone
  }

  function PostSurvives(u: int, gone: set<int>): Post -> bool {
    (p: Post) => p.barberId != Some(u) && p.teamId !in gone
  }

  /** Reference result of deleting user `u`: every row naming `u` is gone,
      every emptied team is gone with all its team-scoped rows, and nothing
      else changes. */
  function Cascade(db: Db, u: int): Db {
    var gone := Emptied(db, u);
    Db(users := Filter(db.users, KeyIsNot(UserKey, u)),
       teams := Filter(db.teams, KeyNotIn(TeamKey, gone)),
       members := Filter(db.members, KeyIsNot(MemberUser, u)),
       profiles := Filter(db.profiles, KeyIsNot(ProfileUser, u)),
       services := Filter(db.services, KeyNotIn(ServiceTeam, gone)),
       products := Filter(db.products, KeyNotIn(ProductTeam, gone)),
       bookings := Filter(db.bookings, BookingSurvives(u, gone)),
       logs := Filter(db.logs, LogSurvives(u, gone)),
       invitations := Filter(db.invitations, InvitationSurvives(u, gone)),
       posts := Filter(db.posts, PostSurvives(u, gone)))
  }

  /** No row anywhere names user `u`, and the user row is gone. */
  predicate NoReferenceTo(d: Db, u: int) {
    !HasUser(d.users, u) && NoRowsOfUser(d, u)
  }

  /** Team `t` and every row scoped to it are gone. */
  predicate TeamGone(d: Db, t: int) {
    && !HasTeam(d.teams, t)
    && !HasMembers(d.members, t)
    && (forall x :: x in d.services ==> x.teamId != t)
    && (forall x :: x in d.products ==> x.teamId != t)
    && (forall x :: x in d.bookings ==> x.teamId != t)
    && (forall x :: x in d.invitations ==> x.teamId != t)
    && (forall x :: x in d.logs ==> x.teamId != t)
    && (forall x :: x in d.posts ==> x.teamId != t)
  }

  /** Which rows of `db` are in `d'`: exactly those not keyed by `u` and not
      scoped to a team in `gone`. No row is added. */
  ghost predicate Survivors(db: Db, d': Db, u: int, gone: set<int>) {
    && (forall x :: x in d'.users <==> x in db.users && x.id != u)
    && (forall x :: x in d'.teams <==> x in db.teams && x.id !in gone)
    && (forall x :: x in d'.members <==> x in db.members && x.userId != u)
    && (forall x :: x in d'.profiles <==> x in db.profiles && x.userId != u)
    && (forall x :: x in d'.services <==> x in db.services && x.teamId !in gone)
    && (forall x :: x in d'.products <==> x in db.products && x.teamId !in gone)
    && (forall x :: x in d'.bookings <==> x in db.bookings && x.customerId != u && x.barberId != u && x.teamId !in gone)
    && (forall x :: x in d'.logs <==> x in db.logs && x.userId != Some(u) && x.teamId !in gone)
    && (forall x :: x in d'.invitations <==> x in db.invitations && x.invitedBy != u && x.teamId !in gone)
    && (forall x :: x in d'.posts <==> x in db.posts && x.barberId != Some(u) && x.teamId !in gone)
  }

  // ---------------------------------------------------------------------
  // The action
  // ---------------------------------------------------------------------

  /** `deleteAnyUser`, with an emptied team's bookings deleted before its
      services (see `DeleteAnyUserAsWritten` for `deleteAnyUser`'s own order). */
  function DeleteAnyUser(caller: Option<User>, target: int, db: Db, fault: Option<nat>): (r: Reply)
    // Guards, in order, before any mutation.
    ensures caller.None? || caller.value.role != SuperAdmin ==> r == Reply(db, Err(Unauthorized))
    ensures caller.Some? && caller.value.role == SuperAdmin && caller.value.id == target
            ==> r == Reply(db, Err(SelfDeletionForbidden))
    // All or nothing.
    ensures r.status.Err? ==> r.db == db
    ensures caller.Some? && caller.value.role == SuperAdmin && caller.value.id != target ==>
      && (r.status.Ok? <==> Transaction(db, target, BookingsFirst, fault).Ok?)
      && (r.status.Err? ==> r.status == Err(DeletionFailed))
    ensures r.status.Ok? ==> r.status.value == DeletedMessage && r.db == Cascade(db, target)
    // Referential completeness, and no dangling foreign key anywhere.
    ensures r.status.Ok? ==> NoReferenceTo(r.db, target) && RefIntegrity(r.db)
    // Every team the user belonged to is re-checked after its memberships go.
    ensures r.status.Ok? ==> forall t :: t in TeamIdsOf(db.members, target) && !HasMembers(r.db.members, t) ==> TeamGone(r.db, t)
    // A team that still has members keeps its team row.
    ensures r.status.Ok? ==> forall x :: x in db.teams && HasMembers(r.db.members, x.id) ==> x in r.db.teams
    // Nothing else changes.
    ensures r.status.Ok? ==> Survivors(db, r.db, target, Emptied(db, target))
  {
    var r := DeleteAnyUserWith(caller, target, db, fault, BookingsFirst);
    if r.status.Ok? then
      TransactionComputesCascade(db, target, BookingsFirst, fault);
      CascadeEffect(db, target);
      r
    else r
  }

  /** `deleteAnyUser` with its own order of the reclamation deletes (services first). */
  function DeleteAnyUserAsWritten(caller: Option<User>, target: int, db: Db, fault: Option<nat>): (r: Reply)
    ensures caller.None? || caller.value.role != SuperAdmin ==> r == Reply(db, Err(Unauthorized))
    ensures caller.Some? && caller.value.role == SuperAdmin && caller.value.id == target
            ==> r == Reply(db, Err(SelfDeletionForbidden))
    ensures r.status.Err? ==> r.db == db
    ensures caller.Some? && caller.value.role == SuperAdmin && caller.value.id != target ==>
      && (r.status.Ok? <==> Transaction(db, target, AsWritten, fault).Ok?)
      && (r.status.Err? ==> r.status == Err(DeletionFailed))
    ensures r.status.Ok? ==> r.status.value == DeletedMessage && r.db == Cascade(db, target)
  {
    var r := DeleteAnyUserWith(caller, target, db, fault, AsWritten);
    if r.status.Ok? then
      TransactionComputesCascade(db, target, AsWritten, fault);
      r
    else r
  }


  // ---------------------------------------------------------------------
  // The step-by-step transaction computes the declarative result
  // ---------------------------------------------------------------------

  lemma ReclaimAsWrittenIsDrop(d: Db, t: int)
    ensures ApplyAll(d, ReclaimStmts(t, AsWritten)) == DropTeams(d, {t})
  {
    var ss := ReclaimStmts(t, AsWritten);
    ApplyAllSeven(d, ss);
    ServicesFirstSteps(d, t);
  }

  lemma ReclaimBookingsFirstIsDrop(d: Db, t: int)
    ensures ApplyAll(d, ReclaimStmts(t, BookingsFirst)) == DropTeams(d, {t})
  {
    var ss := ReclaimStmts(t, BookingsFirst);
    ApplyAllSeven(d, ss);
    BookingsFirstSteps(d, t);
  }

  /** In either order, reclaiming a team deletes the team and exactly its
      team-scoped rows. */
  lemma ReclaimIsDrop(d: Db, t: int, order: ReclaimOrder)
    ensures ApplyAll(d, ReclaimStmts(t, order)) == DropTeams(d, {t})
  {
    if order == AsWritten {
      ReclaimAsWrittenIsDrop(d, t);
    } else {
      ReclaimBookingsFirstIsDrop(d, t);
    }
  }

  /** Deleting the user-keyed rows (steps 2 to 8). */
  function WithoutUserRows(d: Db, u: int): Db {
    d.(profiles := Filter(d.profiles, KeyIsNot(ProfileUser, u)),
       bookings := Filter(Filter(d.bookings, KeyIsNot(BookingCustomer, u)), KeyIsNot(BookingBarber, u)),
       members := Filter(d.members, KeyIsNot(MemberUser, u)),
       invitations := Filter(d.invitations, KeyIsNot(InvitationSender, u)),
       logs := Filter(d.logs, OptKeyIsNot(LogUser, u)),
       posts := Filter(d.posts, OptKeyIsNot(PostBarber, u)))
  }

  lemma ProfilesCustomerSteps(d: Db, u: int)
    ensures Apply(Apply(d, DeleteProfiles(u)), DeleteCustomerBookings(u))
            == d.(profiles := Filter(d.profiles, KeyIsNot(ProfileUser, u)),
                  bookings := Filter(d.bookings, KeyIsNot(BookingCustomer, u)))
  {
  }

  lemma BarberMembershipSteps(d: Db, u: int)
    ensures Apply(Apply(d, DeleteBarberBookings(u)), DeleteMemberships(u))
            == d.(bookings := Filter(d.bookings, KeyIsNot(BookingBarber, u)),
                  members := Filter(d.members, KeyIsNot(MemberUser, u)))
  {
  }

  lemma InvitationsLogsOfUserSteps(d: Db, u: int)
    ensures Apply(Apply(d, DeleteSentInvitations(u)), DeleteUserLogs(u))
            == d.(invitations := Filter(d.invitations, KeyIsNot(InvitationSender, u)),
                  logs := Filter(d.logs, OptKeyIsNot(LogUser, u)))
  {
  }

  lemma PostsOfUserStep(d: Db, u: int)
    ensures Apply(d, DeleteUserPosts(u)) == d.(posts := Filter(d.posts, OptKeyIsNot(PostBarber, u)))
  {
  }

  lemma UserRowDeletesEffect(d: Db, u: int)
    ensures ApplyAll(d, UserRowDeletes(u)) == WithoutUserRows(d, u)
  {
    ApplyAllSeven(d, UserRowDeletes(u));
    ProfilesCustomerSteps(d, u);
    var d2 := Apply(Apply(d, DeleteProfiles(u)), DeleteCustomerBookings(u));
    BarberMembershipSteps(d2, u);
    var d4 := Apply(Apply(d2, DeleteBarberBookings(u)), DeleteMemberships(u));
    InvitationsLogsOfUserSteps(d4, u);
    PostsOfUserStep(Apply(Apply(d4, DeleteSentInvitations(u)), DeleteUserLogs(u)), u);
  }

  lemma WithoutUserRowsClean(d: Db, u: int)
    ensures NoRowsOfUser(WithoutUserRows(d, u), u)
  {
    var w := WithoutUserRows(d, u);
    forall m | m in w.members ensures m.userId != u {
      assert MemberUser(m) == m.userId;
    }
    forall p | p in w.profiles ensures p.userId != u {
      assert ProfileUser(p) == p.userId;
    }
    forall b | b in w.bookings ensures b.customerId != u && b.barberId != u {
      assert BookingCustomer(b) == b.customerId && BookingBarber(b) == b.barberId;
      assert b in Filter(d.bookings, KeyIsNot(BookingCustomer, u));
    }
    forall i | i in w.invitations ensures i.invitedBy != u {
      assert InvitationSender(i) == i.invitedBy;
    }
    forall l | l in w.logs ensures l.userId != Some(u) {
      assert LogUser(l) == l.userId;
    }
    forall p | p in w.posts ensures p.barberId != Some(u) {
      assert PostBarber(p) == p.barberId;
    }
  }

  /** One team id: a team with members is left alone, an empty one dropped. */
  lemma ReclaimOneEffect(t: Tx, id: int, order: ReclaimOrder, fault: Option<nat>)
    requires ReclaimOne(t, id, order, fault).Ok?
    ensures ReclaimOne(t, id, order, fault).value.db
            == if HasMembers(t.db.members, id) then t.db else DropTeams(t.db, {id})
  {
    if !HasMembers(t.db.members, id) {
      ReclaimIsDrop(t.db, id, order);
    }
  }

  lemma EmptiedAmongCons(members: seq<TeamMember>, teamIds: seq<int>)
    requires teamIds != []
    ensures EmptiedAmong(members, teamIds)
            == (if HasMembers(members, teamIds[0]) then {} else {teamIds[0]}) + EmptiedAmong(members, teamIds[1..])
  {
    assert forall x :: x in teamIds <==> x == teamIds[0] || x in teamIds[1..] by {
      assert teamIds == [teamIds[0]] + teamIds[1..];
    }
  }

  lemma ReclaimEachCons(t: Tx, teamIds: seq<int>, order: ReclaimOrder, fault: Option<nat>)
    requires teamIds != [] && ReclaimEach(t, teamIds, order, fault).Ok?
    ensures ReclaimOne(t, teamIds[0], order, fault).Ok?
    ensures ReclaimEach(t, teamIds, order, fault)
            == ReclaimEach(ReclaimOne(t, teamIds[0], order, fault).value, teamIds[1..], order, fault)
  {
  }

  /** A successful reclamation pass drops exactly the collected teams that
      have no members; the memberships themselves are untouched. */
  lemma {:induction false} ReclaimEachComputesDrop(t: Tx, teamIds: seq<int>, order: ReclaimOrder, fault: Option<nat>)
    requires ReclaimEach(t, teamIds, order, fault).Ok?
    ensures ReclaimEach(t, teamIds, order, fault).value.db == DropTeams(t.db, EmptiedAmong(t.db.members, teamIds))
    decreases |teamIds|
  {
    if teamIds == [] {
      assert EmptiedAmong(t.db.members, teamIds) == {};
      DropNoTeams(t.db);
    } else {
      var id := teamIds[0];
      ReclaimEachCons(t, teamIds, order, fault);
      var t1 := ReclaimOne(t, id, order, fault).value;
      ReclaimOneEffect(t, id, order, fault);
      assert t1.db.members == t.db.members;
      ReclaimEachComputesDrop(t1, teamIds[1..], order, fault);
      var rest := EmptiedAmong(t.db.members, teamIds[1..]);
      EmptiedAmongCons(t.db.members, teamIds);
      if !HasMembers(t.db.members, id) {
        DropTeamsTwice(t.db, {id}, rest);
      } else {
        assert EmptiedAmong(t.db.members, teamIds) == rest;
      }
    }
  }

  /** A committed transaction is: the user-keyed deletes, then the emptied
      teams dropped, then the user row deleted. */
  lemma TransactionShape(db: Db, u: int, order: ReclaimOrder, fault: Option<nat>)
    requires Transaction(db, u, order, fault).Ok?
    ensures Transaction(db, u, order, fault).value
            == Apply(DropTeams(WithoutUserRows(db, u), Emptied(db, u)), DeleteUser(u))
  {
    var t0 := Exec(Tx(db, 0), SelectMemberships(u), fault).value;
    var t1 := ExecAll(t0, UserRowDeletes(u), fault).value;
    UserRowDeletesEffect(db, u);
    ReclaimEachComputesDrop(t1, TeamIdsOf(db.members, u), order, fault);
  }

  lemma BookingsCascade(bs: seq<Booking>, u: int, gone: set<int>)
    ensures Filter(Filter(Filter(bs, KeyIsNot(BookingCustomer, u)), KeyIsNot(BookingBarber, u)), KeyNotIn(BookingTeam, gone))
            == Filter(bs, BookingSurvives(u, gone))
  {
    var both := (x: Booking) => KeyIsNot(BookingCustomer, u)(x) && KeyIsNot(BookingBarber, u)(x);
    FilterFilter(bs, KeyIsNot(BookingCustomer, u), KeyIsNot(BookingBarber, u));
    FilterFilter(bs, both, KeyNotIn(BookingTeam, gone));
    var all := (x: Booking) => both(x) && KeyNotIn(BookingTeam, gone)(x);
    forall x | x in bs
      ensures all(x) == BookingSurvives(u, gone)(x)
    {
      assert BookingCustomer(x) == x.customerId && BookingBarber(x) == x.barberId && BookingTeam(x) == x.teamId;
    }
    FilterExt(bs, all, BookingSurvives(u, gone));
  }

  lemma LogsCascade(ls: seq<ActivityLog>, u: int, gone: set<int>)
    ensures Filter(Filter(ls, OptKeyIsNot(LogUser, u)), KeyNotIn(LogTeam, gone)) == Filter(ls, LogSurvives(u, gone))
  {
    FilterFilter(ls, OptKeyIsNot(LogUser, u), KeyNotIn(LogTeam, gone));
    var all := (x: ActivityLog) => OptKeyIsNot(LogUser, u)(x) && KeyNotIn(LogTeam, gone)(x);
    forall x | x in ls
      ensures all(x) == LogSurvives(u, gone)(x)
    {
      assert LogUser(x) == x.userId && LogTeam(x) == x.teamId;
    }
    FilterExt(ls, all, LogSurvives(u, gone));
  }

  lemma InvitationsCascade(ivs: seq<Invitation>, u: int, gone: set<int>)
    ensures Filter(Filter(ivs, KeyIsNot(InvitationSender, u)), KeyNotIn(InvitationTeam, gone)) == Filter(ivs, InvitationSurvives(u, gone))
  {
    FilterFilter(ivs, KeyIsNot(InvitationSender, u), KeyNotIn(InvitationTeam, gone));
    var all := (x: Invitation) => KeyIsNot(InvitationSender, u)(x) && KeyNotIn(InvitationTeam, gone)(x);
    forall x | x in ivs
      ensures all(x) == InvitationSurvives(u, gone)(x)
    {
      assert InvitationSender(x) == x.invitedBy && InvitationTeam(x) == x.teamId;
    }
    FilterExt(ivs, all, InvitationSurvives(u, gone));
  }

  lemma PostsCascade(ps: seq<Post>, u: int, gone: set<int>)
    ensures Filter(Filter(ps, OptKeyIsNot(PostBarber, u)), KeyNotIn(PostTeam, gone)) == Filter(ps, PostSurvives(u, gone))
  {
    FilterFilter(ps, OptKeyIsNot(PostBarber, u), KeyNotIn(PostTeam, gone));
    var all := (x: Post) => OptKeyIsNot(PostBarber, u)(x) && KeyNotIn(PostTeam, gone)(x);
    forall x | x in ps
      ensures all(x) == PostSurvives(u, gone)(x)
    {
      assert PostBarber(x) == x.barberId && PostTeam(x) == x.teamId;
    }
    FilterExt(ps, all, PostSurvives(u, gone));
  }

  lemma CascadeIsStepwise(db: Db, u: int)
    ensures Apply(DropTeams(WithoutUserRows(db, u), Emptied(db, u)), DeleteUser(u)) == Cascade(db, u)
  {
    var gone := Emptied(db, u);
    BookingsCascade(db.bookings, u, gone);
    LogsCascade(db.logs, u, gone);
    InvitationsCascade(db.invitations, u, gone);
    PostsCascade(db.posts, u, gone);
  }

  /** Whatever the order and wherever a fault strikes, a transaction that
      commits leaves the store equal to the declarative `Cascade`, and the
      store checked its foreign keys on the way. */
  lemma TransactionComputesCascade(db: Db, u: int, order: ReclaimOrder, fault: Option<nat>)
    requires Transaction(db, u, order, fault).Ok?
    ensures Transaction(db, u, order, fault).value == Cascade(db, u)
    ensures RefIntegrity(Cascade(db, u))
  {
    TransactionShape(db, u, order, fault);
    CascadeIsStepwise(db, u);
    var t0 := Exec(Tx(db, 0), SelectMemberships(u), fault).value;
    var t1 := ExecAll(t0, UserRowDeletes(u), fault).value;
    var t2 := ReclaimEach(t1, TeamIdsOf(db.members, u), order, fault).value;
    assert Exec(t2, DeleteUser(u), fault).Ok?;
  }

  /** Which rows of `db` survive in `Cascade(db, u)`. */
  lemma CascadeSurvivors(db: Db, u: int)
    ensures Survivors(db, Cascade(db, u), u, Emptied(db, u))
  {
    var c := Cascade(db, u);
    var gone := Emptied(db, u);
    forall x ensures x in c.users <==> x in db.users && x.id != u {
      assert UserKey(x) == x.id;
    }
    forall x ensures x in c.teams <==> x in db.teams && x.id !in gone {
      assert TeamKey(x) == x.id;
    }
    forall x ensures x in c.members <==> x in db.members && x.userId != u {
      assert MemberUser(x) == x.userId;
    }
    forall x ensures x in c.profiles <==> x in db.profiles && x.userId != u {
      assert ProfileUser(x) == x.userId;
    }
    forall x ensures x in c.services <==> x in db.services && x.teamId !in gone {
      assert ServiceTeam(x) == x.teamId;
    }
    forall x ensures x in c.products <==> x in db.products && x.teamId !in gone {
      assert ProductTeam(x) == x.teamId;
    }
  }

  /** Reading off the declarative result: what is removed and what stays. */
  lemma CascadeEffect(db: Db, u: int)
    ensures NoReferenceTo(Cascade(db, u), u)
    ensures forall t :: t in TeamIdsOf(db.members, u) && !HasMembers(Cascade(db, u).members, t) ==> TeamGone(Cascade(db, u), t)
    ensures forall x :: x in db.teams && HasMembers(Cascade(db, u).members, x.id) ==> x in Cascade(db, u).teams
    ensures Survivors(db, Cascade(db, u), u, Emptied(db, u))
  {
    var c := Cascade(db, u);
    var gone := Emptied(db, u);
    CascadeSurvivors(db, u);
    forall t | t in TeamIdsOf(db.members, u) && !HasMembers(c.members, t)
      ensures t in gone
    {
    }
    forall x | x in db.teams && HasMembers(c.members, x.id)
      ensures x in c.teams
    {
      assert x.id !in gone;
    }
  }

  // ---------------------------------------------------------------------
  // On a well-formed store the bookings-first order always commits
  // ---------------------------------------------------------------------

  lemma UserRowStepsKeep(d: Db, u: int)
    requires WellFormed(d)
    ensures StepsKeep(d, UserRowDeletes(u))
  {
    var ss := UserRowDeletes(u);
    var d1 := Apply(d, ss[0]);
    LeafStep(d, ss[0]);
    var d2 := Apply(d1, ss[1]);
    LeafStep(d1, ss[1]);
    var d3 := Apply(d2, ss[2]);
    LeafStep(d2, ss[2]);
    var d4 := Apply(d3, ss[3]);
    LeafStep(d3, ss[3]);
    var d5 := Apply(d4, ss[4]);
    LeafStep(d4, ss[4]);
    var d6 := Apply(d5, ss[5]);
    LeafStep(d5, ss[5]);
    LeafStep(d6, ss[6]);
    StepsKeepSeven(d, ss);
  }

  /** Steps 2 to 8 commit on a well-formed store and leave it well-formed
      with no row naming the user. */
  lemma UserRowDeletesPass(d: Db, u: int, k: nat)
    requires WellFormed(d)
    ensures ExecAll(Tx(d, k), UserRowDeletes(u), None) == Ok(Tx(WithoutUserRows(d, u), k + 7))
    ensures WellFormed(WithoutUserRows(d, u)) && NoRowsOfUser(WithoutUserRows(d, u), u)
  {
    UserRowStepsKeep(d, u);
    ExecAllNoFault(Tx(d, k), UserRowDeletes(u));
    UserRowDeletesEffect(d, u);
    WithoutUserRowsClean(d, u);
    LeafDeleteKeepsIntegrity(d, WithoutUserRows(d, u));
  }

  function ReclaimHead(t: int): seq<Stmt> {
    [DeleteTeamBookings(t), DeleteTeamServices(t), DeleteTeamProducts(t)]
  }

  function ReclaimTail(t: int): seq<Stmt> {
    [DeleteTeamInvitations(t), DeleteTeamLogs(t), DeleteTeamPosts(t), DeleteTeam(t)]
  }

  /** Bookings, then services, then products of team `t`. */
  lemma ReclaimHeadKeeps(d: Db, t: int)
    requires WellFormed(d)
    ensures StepsKeep(d, ReclaimHead(t))
    ensures var d3 := ApplyAll(d, ReclaimHead(t));
            && WellFormed(d3)
            && d3.members == d.members
            && (forall x :: x in d3.bookings ==> x.teamId != t)
            && (forall x :: x in d3.services ==> x.teamId != t)
            && (forall x :: x in d3.products ==> x.teamId != t)
  {
    var d1 := Apply(d, DeleteTeamBookings(t));
    LeafStep(d, DeleteTeamBookings(t));
    BookingsStep(d, t);
    forall x | x in d1.bookings ensures x.teamId != t {
      assert BookingTeam(x) == x.teamId;
    }
    DeleteServicesKeepsIntegrity(d1, t);
    var d2 := Apply(d1, DeleteTeamServices(t));
    LeafStep(d2, DeleteTeamProducts(t));
    ServicesProductsSteps(d1, t);
    var d3 := Apply(d2, DeleteTeamProducts(t));
    forall x | x in d3.services ensures x.teamId != t {
      assert ServiceTeam(x) == x.teamId;
    }
    forall x | x in d3.products ensures x.teamId != t {
      assert ProductTeam(x) == x.teamId;
    }
    StepsKeepThree(d, ReclaimHead(t));
    ApplyAllThree(d, ReclaimHead(t));
  }

  /** Invitations, activity logs, posts, then the team row. */
  lemma ReclaimTailKeeps(d: Db, t: int)
    requires WellFormed(d) && !HasMembers(d.members, t)
    requires forall x :: x in d.bookings ==> x.teamId != t
    requires forall x :: x in d.services ==> x.teamId != t
    requires forall x :: x in d.products ==> x.teamId != t
    ensures StepsKeep(d, ReclaimTail(t))
  {
    var d4 := Apply(d, DeleteTeamInvitations(t));
    LeafStep(d, DeleteTeamInvitations(t));
    var d5 := Apply(d4, DeleteTeamLogs(t));
    LeafStep(d4, DeleteTeamLogs(t));
    var d6 := Apply(d5, DeleteTeamPosts(t));
    LeafStep(d5, DeleteTeamPosts(t));
    InvitationsLogsSteps(d, t);
    PostsStep(d5, t);
    forall x | x in d6.invitations ensures x.teamId != t {
      assert InvitationTeam(x) == x.teamId;
    }
    forall x | x in d6.logs ensures x.teamId != t {
      assert LogTeam(x) == x.teamId;
    }
    forall x | x in d6.posts ensures x.teamId != t {
      assert PostTeam(x) == x.teamId;
    }
    DeleteTeamKeepsIntegrity(d6, t);
    StepsKeepFour(d, ReclaimTail(t));
  }

  lemma ReclaimStepsKeep(d: Db, t: int)
    requires WellFormed(d) && !HasMembers(d.members, t)
    ensures StepsKeep(d, ReclaimStmts(t, BookingsFirst))
  {
    ReclaimHeadKeeps(d, t);
    ReclaimTailKeeps(ApplyAll(d, ReclaimHead(t)), t);
    StepsKeepAppend(d, ReclaimHead(t), ReclaimTail(t));
    assert ReclaimStmts(t, BookingsFirst) == ReclaimHead(t) + ReclaimTail(t);
  }

  lemma ReclaimCommitsIfKept(d: Db, t: int, k: nat)
    requires StepsKeep(d, ReclaimStmts(t, BookingsFirst))
    ensures ExecAll(Tx(d, k), ReclaimStmts(t, BookingsFirst), None) == Ok(Tx(DropTeams(d, {t}), k + 7))
  {
    ReclaimBookingsFirstIsDrop(d, t);
    ExecAllNoFault(Tx(d, k), ReclaimStmts(t, BookingsFirst));
  }

  /** The bookings-first reclamation of an empty team commits. */
  lemma ReclaimCommits(d: Db, t: int, k: nat)
    requires WellFormed(d) && !HasMembers(d.members, t)
    ensures ExecAll(Tx(d, k), ReclaimStmts(t, BookingsFirst), None) == Ok(Tx(DropTeams(d, {t}), k + 7))
  {
    ReclaimStepsKeep(d, t);
    ReclaimCommitsIfKept(d, t, k);
  }

  /** Reclaiming an empty team with its bookings deleted first commits. */
  lemma ReclaimPasses(d: Db, t: int, u: int, k: nat)
    requires WellFormed(d) && NoRowsOfUser(d, u)
    requires !HasMembers(d.members, t)
    ensures ExecAll(Tx(d, k), ReclaimStmts(t, BookingsFirst), None) == Ok(Tx(DropTeams(d, {t}), k + 7))
    ensures WellFormed(DropTeams(d, {t})) && NoRowsOfUser(DropTeams(d, {t}), u)
  {
    ReclaimCommits(d, t, k);
    DropKeepsNoRows(d, {t}, u);
    DropKeepsOwnServices(d, {t});
  }

  lemma ReclaimOnePasses(t: Tx, id: int, u: int)
    requires WellFormed(t.db) && NoRowsOfUser(t.db, u)
    ensures ReclaimOne(t, id, BookingsFirst, None).Ok?
    ensures WellFormed(ReclaimOne(t, id, BookingsFirst, None).value.db)
    ensures NoRowsOfUser(ReclaimOne(t, id, BookingsFirst, None).value.db, u)
  {
    if !HasMembers(t.db.members, id) {
      ReclaimPasses(t.db, id, u, t.issued + 1);
    }
  }

  lemma {:induction false} ReclaimEachPasses(t: Tx, teamIds: seq<int>, u: int)
    requires WellFormed(t.db) && NoRowsOfUser(t.db, u)
    ensures ReclaimEach(t, teamIds, BookingsFirst, None).Ok?
    ensures WellFormed(ReclaimEach(t, teamIds, BookingsFirst, None).value.db)
    ensures NoRowsOfUser(ReclaimEach(t, teamIds, BookingsFirst, None).value.db, u)
    decreases |teamIds|
  {
    if teamIds != [] {
      ReclaimOnePasses(t, teamIds[0], u);
      ReclaimEachPasses(ReclaimOne(t, teamIds[0], BookingsFirst, None).value, teamIds[1..], u);
    }
  }

  /** On a well-formed store, with no injected fault, deleting a user with
      the bookings-first order always commits. */
  lemma WellFormedDeletionCommits(db: Db, u: int)
    requires WellFormed(db)
    ensures Transaction(db, u, BookingsFirst, None).Ok?
  {
    assert Exec(Tx(db, 0), SelectMemberships(u), None) == Ok(Tx(db, 1));
    UserRowDeletesPass(db, u, 1);
    var t1 := Tx(WithoutUserRows(db, u), 8);
    ReclaimEachPasses(t1, TeamIdsOf(db.members, u), u);
    var t2 := ReclaimEach(t1, TeamIdsOf(db.members, u), BookingsFirst, None).value;
    DeleteUserKeepsIntegrity(t2.db, u);
  }

  /** A super admin deleting another user of a well-formed store succeeds. */
  lemma DeleteOnWellFormedStoreSucceeds(caller: Option<User>, target: int, db: Db)
    requires WellFormed(db)
    requires caller.Some? && caller.value.role == SuperAdmin && caller.value.id != target
    ensures DeleteAnyUser(caller, target, db, None).status == Ok(DeletedMessage)
  {
    WellFormedDeletionCommits(db, target);
  }

  // ---------------------------------------------------------------------
  // `deleteAnyUser`'s order fails once an emptied team still has bookings
  // ---------------------------------------------------------------------

  /** Deleting a team's services while one of its bookings still points at
      one of them breaks that booking's foreign key. */
  lemma ServicesDeleteBreaks(d: Db, t: int, b: Booking)
    requires b in d.bookings && b.teamId == t
    requires forall s :: s in d.services && s.id == b.serviceId ==> s.teamId == t
    ensures !RefIntegrity(Apply(d, DeleteTeamServices(t)))
  {
    var d' := Apply(d, DeleteTeamServices(t));
    forall s | s in d'.services
      ensures s.id != b.serviceId
    {
      assert ServiceTeam(s) == s.teamId;
    }
    assert b in d'.bookings && !HasService(d'.services, b.serviceId);
  }

  /** With `deleteAnyUser`'s order, reclaiming an empty team that still has a
      booking fails at the services delete, whatever the fault plan. */
  lemma ReclaimAsWrittenFails(t: Tx, id: int, b: Booking, fault: Option<nat>)
    requires !HasMembers(t.db.members, id)
    requires b in t.db.bookings && b.teamId == id
    requires forall s :: s in t.db.services && s.id == b.serviceId ==> s.teamId == id
    ensures ReclaimOne(t, id, AsWritten, fault).Err?
  {
    var c := Exec(t, CountMembers(id), fault);
    if c.Ok? {
      ServicesDeleteBreaks(t.db, id, b);
      assert ReclaimStmts(id, AsWritten)[0] == DeleteTeamServices(id);
    }
  }

  /** `deleteAnyUser`'s order aborts the whole deletion when the first team the
      user belonged to is left empty but still holds a booking of another
      customer with another barber: the services delete runs while that
      booking still references a service. */
  lemma AsWrittenOrderFails(db: Db, u: int, b: Booking, fault: Option<nat>)
    requires BookingsUseOwnServices(db)
    requires TeamIdsOf(db.members, u) != []
    requires forall m :: m in db.members && m.teamId == TeamIdsOf(db.members, u)[0] ==> m.userId == u
    requires b in db.bookings && b.teamId == TeamIdsOf(db.members, u)[0]
    requires b.customerId != u && b.barberId != u
    ensures Transaction(db, u, AsWritten, fault).Err?
  {
    var teamIds := TeamIdsOf(db.members, u);
    var id := teamIds[0];
    var e0 := Exec(Tx(db, 0), SelectMemberships(u), fault);
    if e0.Ok? {
      var e1 := ExecAll(e0.value, UserRowDeletes(u), fault);
      if e1.Ok? {
        var t1 := e1.value;
        UserRowDeletesEffect(db, u);
        assert t1.db == WithoutUserRows(db, u);
        forall m | m in t1.db.members
          ensures m.teamId != id
        {
          assert MemberUser(m) == m.userId;
        }
        assert BookingCustomer(b) == b.customerId && BookingBarber(b) == b.barberId;
        assert b in Filter(db.bookings, KeyIsNot(BookingCustomer, u));
        assert b in t1.db.bookings;
        ReclaimAsWrittenFails(t1, id, b, fault);
      }
    }
  }

  /** The corrected order commits on that same store. */
  lemma AsWrittenAndCorrectedDiffer(caller: Option<User>, db: Db, u: int, b: Booking)
    requires caller.Some? && caller.value.role == SuperAdmin && caller.value.id != u
    requires WellFormed(db)
    requires TeamIdsOf(db.members, u) != []
    requires forall m :: m in db.members && m.teamId == TeamIdsOf(db.members, u)[0] ==> m.userId == u
    requires b in db.bookings && b.teamId == TeamIdsOf(db.members, u)[0]
    requires b.customerId != u && b.barberId != u
    ensures DeleteAnyUserAsWritten(caller, u, db, None) == Reply(db, Err(DeletionFailed))
    ensures DeleteAnyUser(caller, u, db, None).status == Ok(DeletedMessage)
  {
    AsWrittenOrderFails(db, u, b, None);
    WellFormedDeletionCommits(db, u);
  }

  // ---------------------------------------------------------------------
  // Edge cases named by `deleteAnyUser`'s loop
  // ---------------------------------------------------------------------

  /** Reclaiming the same team id a second time changes nothing: the
      duplicate memberships `teamIds` may hold are harmless. */
  lemma RepeatedReclaimIsNoOp(t: Tx, id: int, order: ReclaimOrder, fault: Option<nat>)
    requires ReclaimOne(t, id, order, fault).Ok?
    ensures var t1 := ReclaimOne(t, id, order, fault).value;
            ReclaimOne(t1, id, order, fault).Ok? ==> ReclaimOne(t1, id, order, fault).value.db == t1.db
  {
    var t1 := ReclaimOne(t, id, order, fault).value;
    ReclaimOneEffect(t, id, order, fault);
    if ReclaimOne(t1, id, order, fault).Ok? {
      ReclaimOneEffect(t1, id, order, fault);
      if !HasMembers(t.db.members, id) {
        DropTeamsTwice(t.db, {id}, {id});
        assert {id} + {id} == {id};
      }
    }
  }

  /** Deleting an id no row mentions leaves a consistent store as it was. */
  lemma AbsentUserCascadeIsIdentity(db: Db, u: int)
    requires RefIntegrity(db) && !HasUser(db.users, u)
    ensures Cascade(db, u) == db
  {
    forall x | x in db.members ensures !KeyIs(MemberUser, u)(x) && KeyIsNot(MemberUser, u)(x) {
      assert HasUser(db.users, x.userId);
      assert MemberUser(x) == x.userId;
    }
    FilterNone(db.members, KeyIs(MemberUser, u));
    assert TeamIdsOf(db.members, u) == [];
    assert Emptied(db, u) == {};
    var gone: set<int> := {};
    forall x | x in db.users ensures KeyIsNot(UserKey, u)(x) {
      assert UserKey(x) == x.id;
    }
    FilterAll(db.users, KeyIsNot(UserKey, u));
    KeyNotInNone(db.teams, TeamKey);
    FilterAll(db.members, KeyIsNot(MemberUser, u));
    forall x | x in db.profiles ensures KeyIsNot(ProfileUser, u)(x) {
      assert HasUser(db.users, x.userId);
      assert ProfileUser(x) == x.userId;
    }
    FilterAll(db.profiles, KeyIsNot(ProfileUser, u));
    KeyNotInNone(db.services, ServiceTeam);
    KeyNotInNone(db.products, ProductTeam);
    forall x | x in db.bookings ensures BookingSurvives(u, gone)(x) {
      assert HasUser(db.users, x.customerId) && HasUser(db.users, x.barberId);
    }
    FilterAll(db.bookings, BookingSurvives(u, gone));
    forall x | x in db.logs ensures LogSurvives(u, gone)(x) {
      assert MaybeUser(db.users, x.userId);
    }
    FilterAll(db.logs, LogSurvives(u, gone));
    forall x | x in db.invitations ensures InvitationSurvives(u, gone)(x) {
      assert HasUser(db.users, x.invitedBy);
    }
    FilterAll(db.invitations, InvitationSurvives(u, gone));
    forall x | x in db.posts ensures PostSurvives(u, gone)(x) {
      assert MaybeUser(db.users, x.barberId);
    }
    FilterAll(db.posts, PostSurvives(u, gone));
  }

  /** A super admin deleting a nonexistent id from a well-formed store is
      told it succeeded, and nothing changes. */
  lemma DeleteAbsentUserChangesNothing(caller: Option<User>, target: int, db: Db)
    requires WellFormed(db) && !HasUser(db.users, target)
    requires caller.Some? && caller.value.role == SuperAdmin && caller.value.id != target
    ensures DeleteAnyUser(caller, target, db, None) == Reply(db, Ok(DeletedMessage))
  {
    WellFormedDeletionCommits(db, target);
    AbsentUserCascadeIsIdentity(db, target);
  }

  // ---------------------------------------------------------------------
  // Listings
  // ---------------------------------------------------------------------

  function UserCreated(u: User): int { u.createdAt }
  function TeamCreated(t: Team): int { t.createdAt }

  /** The columns `getAllUsers` selects. */
  datatype UserSummary = UserSummary(id: int, email: string, name: Option<string>, role: Role, createdAt: int, deletedAt: Option<int>)

  function Summary(u: User): UserSummary {
    UserSummary(u.id, u.email, u.name, u.role, u.createdAt, u.deletedAt)
  }

  function SummaryCreated(s: UserSummary): int { s.createdAt }

  /** Every user that is not soft-deleted, oldest first. */
  function GetAllUsers(caller: Option<User>, db: Db): (r: Result<seq<UserSummary>, AdminError>)
    ensures r.Err? <==> RequireSuperAdmin(caller).Err?
    ensures r.Err? ==> r.error == Unauthorized
    ensures r.Ok? ==> Sorted(r.value, ByKey(SummaryCreated))
    ensures r.Ok? ==> forall x :: x in r.value <==> exists u :: u in db.users && IsLive(u) && Summary(u) == x
    ensures r.Ok? ==> |r.value| == |Filter(db.users, IsLive)|
  {
    var _ :- RequireSuperAdmin(caller);
    ByKeyIsTotal(UserCreated);
    var live := Sort(Filter(db.users, IsLive), ByKey(UserCreated));
    var out := Map(live, Summary);
    assert Sorted(out, ByKey(SummaryCreated)) by {
      forall i, j | 0 <= i < j < |out|
        ensures ByKey(SummaryCreated)(out[i], out[j])
      {
        assert ByKey(UserCreated)(live[i], live[j]);
        assert UserCreated(live[i]) <= UserCreated(live[j]);
        assert SummaryCreated(out[i]) == UserCreated(live[i]) && SummaryCreated(out[j]) == UserCreated(live[j]);
      }
    }
    forall x | x in out
      ensures exists u :: u in db.users && IsLive(u) && Summary(u) == x
    {
      var i :| 0 <= i < |out| && out[i] == x;
      assert live[i] in live;
    }
    forall u | u in db.users && IsLive(u)
      ensures Summary(u) in out
    {
      assert u in live;
      var i :| 0 <= i < |live| && live[i] == u;
      assert out[i] == Summary(u);
    }
    Ok(out)
  }

  /** The columns `getAllTeams` selects. */
  datatype TeamSummary = TeamSummary(id: int, name: string, createdAt: int, planName: Option<string>, subscriptionStatus: Option<string>)

  function TeamSummaryOf(t: Team): TeamSummary {
    TeamSummary(t.id, t.name, t.createdAt, t.planName, t.subscriptionStatus)
  }

  function TeamSummaryCreated(s: TeamSummary): int { s.createdAt }

  /** Every team, oldest first. */
  function GetAllTeams(caller: Option<User>, db: Db): (r: Result<seq<TeamSummary>, AdminError>)
    ensures r.Err? <==> RequireSuperAdmin(caller).Err?
    ensures r.Err? ==> r.error == Unauthorized
    ensures r.Ok? ==> Sorted(r.value, ByKey(TeamSummaryCreated))
    ensures r.Ok? ==> |r.value| == |db.teams|
    ensures r.Ok? ==> forall x :: x in r.value <==> exists t :: t in db.teams && TeamSummaryOf(t) == x
  {
    var _ :- RequireSuperAdmin(caller);
    ByKeyIsTotal(TeamCreated);
    var sorted := Sort(db.teams, ByKey(TeamCreated));
    var out := Map(sorted, TeamSummaryOf);
    assert Sorted(out, ByKey(TeamSummaryCreated)) by {
      forall i, j | 0 <= i < j < |out|
        ensures ByKey(TeamSummaryCreated)(out[i], out[j])
      {
        assert ByKey(TeamCreated)(sorted[i], sorted[j]);
        assert TeamCreated(sorted[i]) <= TeamCreated(sorted[j]);
        assert TeamSummaryCreated(out[i]) == TeamCreated(sorted[i]) && TeamSummaryCreated(out[j]) == TeamCreated(sorted[j]);
      }
    }
    forall x | x in out
      ensures exists t :: t in db.teams && TeamSummaryOf(t) == x
    {
      var i :| 0 <= i < |out| && out[i] == x;
      assert sorted[i] in sorted;
    }
    forall t | t in db.teams
      ensures TeamSummaryOf(t) in out
    {
      assert t in sorted;
      var i :| 0 <= i < |sorted| && sorted[i] == t;
      assert out[i] == TeamSummaryOf(t);
    }
    Ok(out)
  }

  datatype AdminStats = AdminStats(totalUsers: int, totalTeams: int)

  /** JavaScript's `rows[0]?.count || 0` on an integer column: the first
      row's value, with a missing row and a zero both giving 0. */
  function FirstOrZero(values: seq<int>): (r: int)
    ensures values == [] ==> r == 0
    ensures values != [] ==> r == values[0]
  {
    if values == [] then 0 else values[0]
  }

  /** `getAdminStats` with its `select({ count: users.id })`: each query selects `id` under the name
      `count` without aggregating, so each total is the id of the first row
      the table returns, not the number of rows. */
  function GetAdminStatsAsWritten(caller: Option<User>, db: Db): (r: Result<AdminStats, AdminError>)
    ensures r.Err? <==> RequireSuperAdmin(caller).Err?
    ensures r.Ok? ==> var live := Filter(db.users, IsLive);
      && (live == [] ==> r.value.totalUsers == 0)
      && (live != [] ==> r.value.totalUsers == live[0].id)
      && (db.teams == [] ==> r.value.totalTeams == 0)
      && (db.teams != [] ==> r.value.totalTeams == db.teams[0].id)
  {
    var _ :- RequireSuperAdmin(caller);
    Ok(AdminStats(FirstOrZero(Map(Filter(db.users, IsLive), UserKey)), FirstOrZero(Map(db.teams, TeamKey))))
  }

  /** `getAdminStats` with the intended `count(*)`: the number of users not
      soft-deleted and the number of teams. */
  function GetAdminStats(caller: Option<User>, db: Db): (r: Result<AdminStats, AdminError>)
    ensures r.Err? <==> RequireSuperAdmin(caller).Err?
    ensures r.Ok? ==> r.value.totalTeams == |db.teams|
    ensures r.Ok? ==> r.value.totalUsers == |Filter(db.users, IsLive)|
  {
    var _ :- RequireSuperAdmin(caller);
    Ok(AdminStats(|Filter(db.users, IsLive)|, |db.teams|))
  }

  /** The statistics agree with the listings: the user total is the length
      of `getAllUsers` and the team total the length of `getAllTeams`. */
  lemma StatsMatchListings(caller: Option<User>, db: Db)
    ensures GetAdminStats(caller, db).Ok? <==> GetAllUsers(caller, db).Ok?
    ensures GetAdminStats(caller, db).Ok? ==>
      && GetAdminStats(caller, db).value.totalUsers == |GetAllUsers(caller, db).value|
      && GetAdminStats(caller, db).value.totalTeams == |GetAllTeams(caller, db).value|
  {
  }

  /** One live user with id 7 and no teams: the as-written statistics report
      7 users, the corrected ones 1. */
  lemma AdminStatsCountsIds()
    ensures var admin := User(7, None, "root@example.com", "h", SuperAdmin, None, 0, None);
      var db := Db([admin], [], [], [], [], [], [], [], [], []);
      && GetAdminStatsAsWritten(Some(admin), db) == Ok(AdminStats(7, 0))
      && GetAdminStats(Some(admin), db) == Ok(AdminStats(1, 0))
  {
    var admin := User(7, None, "root@example.com", "h", SuperAdmin, None, 0, None);
    assert IsLive(admin);
    assert Filter([admin], IsLive) == [admin];
  }
}

=== FILE: upload_route.dfy ===
/** The image upload endpoint (`POST` in app/api/uploads/route.ts): the same
    staff guard as the post actions mapped to HTTP statuses, a multipart
    check, the file checks, and the storage call. The parsed form, the
    storage outcome and the UUID are inputs. */
module UploadRoute {
  import opened Results
  import opened Strings
  import opened Schema
  import opened Queries
  import opened Storage
  import opened Posts

  /** A `file` form field. An absent name or type is ""; `byteLength` is the
      length of its contents and `declaredSize` its `size` (0 when absent). */
  datatype FormFile = FormFile(name: string, mime: string, byteLength: nat, declaredSize: int)

  /** What `form.get('file')` returns: a file part, or a plain text value
      when the field was sent as text. */
  datatype FormEntry = FilePart(f: FormFile) | TextValue(text: string)

  /** The request body: a form whose `file` field may be missing, or a body
      that does not parse as a form. */
  datatype Body = Form(file: Option<FormEntry>) | Unparsable

  datatype Request = Request(contentType: Option<string>, body: Body)

  datatype Reply = ErrorReply(error: string) | Uploaded(imageUrl: string)
  datatype Response = Response(status: int, reply: Reply)

  /** The endpoint's own allowlist and bound, written out again beside the
      action's. */
  const RouteAllowedTypes: seq<string> := ["image/jpeg", "image/jpg", "image/png", "image/webp"]
  const RouteMaxBytes: int := 10 * 1024 * 1024

  /** `byteLength || size || 0`: an empty buffer falls back to the declared size. */
  function FormSize(f: FormFile): (r: int)
    ensures f.byteLength > 0 ==> r == f.byteLength
    ensures f.byteLength == 0 ==> r == f.declaredSize
  {
    if f.byteLength != 0 then f.byteLength else f.declaredSize
  }

  const MultipartMessage: string := "Content-Type must be multipart/form-data"

  /** `POST /api/uploads`. A text value passes the `!file` check unless it
      is empty, and then has no `arrayBuffer` to call, which the outer
      `catch` turns into a 500. */
  function Upload(caller: Option<User>, db: Db, req: Request, c: Credentials, uuid: string, storageError: Option<string>): (r: Response)
    ensures caller.None? ==> r == Response(401, ErrorReply(SignedOutMessage))
    ensures caller.Some? && !IsStaff(caller.value) ==> r == Response(403, ErrorReply("Forbidden: Only owners and barbers can upload images"))
    ensures caller.Some? && IsStaff(caller.value) && GetTeamForUser(caller, db).None? ==> r == Response(404, ErrorReply(NoTeamMessage))
    ensures RequireStaff(caller, db).Ok? ==>
      && (!Contains(req.contentType.GetOr(""), "multipart/form-data") ==> r == Response(400, ErrorReply(MultipartMessage)))
      && (Contains(req.contentType.GetOr(""), "multipart/form-data") ==>
            && (req.body.Unparsable? ==> r == Response(500, ErrorReply("Upload failed")))
            && (req.body == Form(None) || req.body == Form(Some(TextValue(""))) ==> r == Response(400, ErrorReply(NoFileMessage)))
            && (req.body.Form? && req.body.file.Some? && req.body.file.value.TextValue? && req.body.file.value.text != "" ==>
                  r == Response(500, ErrorReply("Upload failed")))
            && (req.body.Form? && req.body.file.Some? && req.body.file.value.FilePart? ==>
                  var f := req.body.file.value.f;
                  var allowed := ToLower(OrDefault(f.mime, "application/octet-stream")) in RouteAllowedTypes;
                  && (!allowed ==> r == Response(400, ErrorReply(UnsupportedMessage)))
                  && (allowed && FormSize(f) > RouteMaxBytes ==> r == Response(400, ErrorReply(TooLargeMessage)))
                  && (allowed && FormSize(f) <= RouteMaxBytes ==>
                        && (r.status == 200 <==> Configured(c) && storageError.None?)
                        && (!Configured(c) ==> r == Response(500, ErrorReply("Storage Connection Error: " + NotConfigured)))
                        && (Configured(c) && storageError.Some? ==>
                              r == Response(500, ErrorReply("Storage Connection Error: " + ("Failed to upload image: " + storageError.value))))
                        && (r.status == 200 ==> r.reply == Uploaded(PublicUrl(c, UploadPath(
                              RequireStaff(caller, db).value.1.team.id, uuid, FileExtension(OrDefault(f.name, "upload.jpg")))))))))
    ensures r.status == 200 <==> r.reply.Uploaded?
    ensures r.status == 200 ==> Configured(c) && storageError.None?
    ensures r.status == 500 && r.reply != ErrorReply("Upload failed") ==>
      storageError.Some? || !Configured(c)
    ensures r.status == 200 ==> exists ext :: r.reply.imageUrl == PublicUrl(c, UploadPath(RequireStaff(caller, db).value.1.team.id, uuid, ext))
  {
    match RequireStaff(caller, db)
    case Err(SignedOut) => Response(401, ErrorReply(SignedOutMessage))
    case Err(NotStaff) => Response(403, ErrorReply("Forbidden: Only owners and barbers can upload images"))
    case Err(NoTeam) => Response(404, ErrorReply(NoTeamMessage))
    case Ok((_, detail)) =>
      if !Contains(req.contentType.GetOr(""), "multipart/form-data") then Response(400, ErrorReply(MultipartMessage))
      else match req.body
        case Unparsable => Response(500, ErrorReply("Upload failed"))
        case Form(None) => Response(400, ErrorReply(NoFileMessage))
        case Form(Some(TextValue(text))) =>
          if text == "" then Response(400, ErrorReply(NoFileMessage))
          else Response(500, ErrorReply("Upload failed"))
        case Form(Some(FilePart(f))) =>
          var name := OrDefault(f.name, "upload.jpg");
          var mime := OrDefault(f.mime, "application/octet-stream");
          var size := FormSize(f);
          if !(ToLower(mime) in RouteAllowedTypes) then Response(400, ErrorReply(UnsupportedMessage))
          else if size > RouteMaxBytes then Response(400, ErrorReply(TooLargeMessage))
          else match UploadPortfolioImage(c, name, detail.team.id, uuid, storageError)
            case Ok(url) => Response(200, Uploaded(url))
            case Err(m) => Response(500, ErrorReply("Storage Connection Error: " + m))
  }

  /** The endpoint and the `uploadImage` action accept and reject the same
      (type, size) pairs, with the same messages. */
  lemma SameRulesAsUploadImage(mime: string, size: int)
    ensures RouteAllowedTypes == AllowedImageTypes && RouteMaxBytes == MaxImageBytes
    ensures (ToLower(mime) in RouteAllowedTypes && size <= RouteMaxBytes) <==> CheckImage(mime, size).None?
  {
  }

  /** For one file sent both ways (a browser file to the action, a form field
      to the endpoint) the two pipelines agree on every validation outcome. */
  lemma PipelinesAgree(caller: Option<User>, db: Db, f: FormFile, c: Credentials, uuid: string)
    requires RequireStaff(caller, db).Ok?
    requires f.byteLength > 0 && f.mime != ""
    ensures var raw := RawFile(true, f.name, f.mime, f.byteLength, None);
      var action := UploadImage(Some(caller.value), db, Some(raw), c, uuid, Some("unreachable"));
      var route := Upload(caller, db, Request(Some("multipart/form-data"), Form(Some(FilePart(f)))), c, uuid, Some("unreachable"));
      && (action == Err(UnsupportedMessage) <==> route == Response(400, ErrorReply(UnsupportedMessage)))
      && (action == Err(TooLargeMessage) <==> route == Response(400, ErrorReply(TooLargeMessage)))
  {
    assert Contains("multipart/form-data", "multipart/form-data");
  }

  /** Any authorised multipart request that names an allowed image no larger
      than 10 MiB reaches storage, and comes back 200 when storage succeeds. */
  lemma ValidUploadSucceeds(caller: Option<User>, db: Db, f: FormFile, c: Credentials, uuid: string)
    requires RequireStaff(caller, db).Ok? && Configured(c)
    requires ToLower(OrDefault(f.mime, "application/octet-stream")) in RouteAllowedTypes && FormSize(f) <= RouteMaxBytes
    ensures Upload(caller, db, Request(Some("multipart/form-data"), Form(Some(FilePart(f)))), c, uuid, None).status == 200
  {
    assert Contains("multipart/form-data", "multipart/form-data");
  }
}
